=== FILE: README.md ===
# Streams, components and array extensions, modelled in Dafny

This project models three pieces of a JavaScript application framework:

- **Streams** (`base/dynamic/stream.js`). A stream is a function. Called with a function, it
  subscribes it (a *read*). Called with values, it publishes them (a *write*). Each stream
  keeps a queue of subscribers, and every subscribed function keeps `queuedBy`, the list of
  queues it sits in. There are four retention policies on this registry:
  - `trigger`: plain dispatch;
  - `triggerOnce`: flush the queue, then dispatch;
  - `barrier`: latches its first value and replays it;
  - `observable`: drops repeated values and dispatches `(new, previous)`.

  Around these sit `_.off`, `once`, `when`, `force` and `_.allTriggered`.
- **The `Component` engine** (`base/component.js`):
  - the parent/children hierarchy (`attachTo`, `detach`, `attach`, `detachAll`, `destroyAll`);
  - the destroy state machine (`beforeDestroy`/`afterDestroy`);
  - the init chain with the traits' `beforeInit`/`afterInit` hooks, in sequential and in
    continuation-passing style;
  - the constructor's configuration step (`$defaults`, stream expansion, the cfg copy, the
    initial listeners, deferred `init`);
  - the trait merge `mergeTraitsMembers`.
- **The Array extensions** (`base/infix/Array.js`): `remove`, `removeAll`, `removeAt`,
  `insertAt`, `swap`, `take`, `contains`, `itemAtWrappedIndex`, `reversed`, `copy`, `join`.

The model is functional:
- Callbacks, bound methods and streams are function ids (`FnId`).
- A table of `Behaviour`s says what an invoked function does. A plain callback returns, a
  throwing one raises, and the wrappers that `once`, `when` and `allTriggered` create act on
  the registry and then call their target as an ordinary function, whose exception escapes
  the wrapper.
- A publish returns the new world, the trace of the calls it made in order, and whether an
  exception escaped.
- Components live in a table keyed by `CompId`. Every operation returns the new table and
  stream world, the calls made, and the exception raised, if any. State changed before an
  exception is kept, as in the source.

Files:

| file | module | models |
|---|---|---|
| js.dfy | `Js` | JavaScript values, truthiness, the first argument of a call |
| arrays.dfy | `ArrayExt` | the Array extensions, with JavaScript's `slice`/`splice` position rules |
| registry.dfy | `Registry` | queues and `queuedBy`, `scheduleRead`, `queue.off`, `_.off` |
| streams.dfy | `Streams` | the four policies, dispatch, `once`, `when`, `force`, `allTriggered` |
| traits.dfy | `TraitMerge` | `mergeTraitsMembers`, `isStreamDefinition` |
| component.dfy | `Components` | hierarchy, destroy, init chain, construction |

Behaviour that is modelled as the code has it, although a reader might expect otherwise:

- `destroy` calls `_.off(fn, name, def)` for every member, with three arguments. For a stream
  member the second argument is a string, so `fn.queue.off(name)` is not the no-argument form
  and does nothing. The component's own streams therefore keep their subscribers; only the
  members' own subscriptions go (`Components.DestroyKeepsOwnStreamSubscribers`).
- Reading an observable that holds a value calls the reader with one argument, the value.
- Every write to a barrier, not only the first, flushes the queue and dispatches the latched
  value.
- `force` clears `hasValue`, so the forced write dispatches the value alone, with no previous
  value.
- In continuation-passing style, `_afterInit` opens `initialized` right after starting the
  `afterInit` chain. It does so even when a hook of that chain never calls its continuation
  (`Components.InitCpsAfterStuck`).
- `$defaults.init === false` defers `init()` even when the caller passes `init: true`.
- `_.off(stream, listener)` also runs the `queuedBy` half on the stream itself. A stream that
  is subscribed to another stream is taken out of that stream's queue
  (`Registry.OffListenerAlsoDetachesStream`).
- `afterDestroy` clears `parent_` but the parent's `children_` still lists the child.
  Destroying a child and then its parent therefore raises (`Components.DestroyChildThenParent`).
- `excludeFromCfg` is an object literal queried with `in`, so the names it inherits from
  `Object.prototype` (`constructor`, `toString`, …) are never copied from the configuration.

## Model

| member | source | states |
|---|---|---|
| `ArrayExt.Take` | base/infix/Array.js:77 | `take(n)` is a prefix of the array, of length `n` clamped to the array (a negative `n` drops that many from the end) |
| `ArrayExt.Copy` | base/infix/Array.js:90-91 | `copy` holds exactly the array's elements |
| `ArrayExt.IndexOf` | base/infix/Array.js:71 | `indexOf` is -1 exactly when the item is absent; otherwise it is the first position holding the item |
| `ArrayExt.Contains` | base/infix/Array.js:71 | `contains(x)`, defined through `indexOf(x) >= 0`, holds exactly when `x` occurs in the array |
| `ArrayExt.Without` | base/infix/Array.js:96-98 | reference for `remove`: no occurrence of the item is left, every other element stays, and the multiset only loses the item |
| `ArrayExt.Remove` | base/infix/Array.js:96-98 | the source's loop (find with `indexOf`, splice out, repeat) leaves the array without the item and equal to the reference `Without` |
| `ArrayExt.WithoutKeepsOrder` | base/infix/Array.js:96-98 | what `remove` leaves is a subsequence of the original: relative order is kept |
| `ArrayExt.WithoutAbsent` | base/infix/Array.js:96-98 | removing an item the array does not hold leaves it unchanged |
| `ArrayExt.WithoutIdempotent` | base/infix/Array.js:96-98 | removing the same item twice is removing it once |
| `ArrayExt.WithoutConcat` | base/infix/Array.js:96-98 | removing from a concatenation is removing from each part |
| `ArrayExt.WithoutSplice` | base/infix/Array.js:97-98 | splicing out one occurrence does not change what `remove` leaves, which is the loop invariant of `Remove` |
| `ArrayExt.WithoutMiddle` | base/infix/Array.js:97-98 | removing the single occurrence of an item between two parts that lack it leaves the two parts joined |
| `ArrayExt.RemoveAll` | base/infix/Array.js:93-94 | `removeAll` leaves the array empty |
| `ArrayExt.RemoveAt` | base/infix/Array.js:100-101 | `removeAt(i)` deletes exactly the element at the normalised position: earlier elements stay, later ones move one place left, and a position past the end changes nothing |
| `ArrayExt.InsertAt` | base/infix/Array.js:103-104 | `insertAt(x, i)` puts `x` at the normalised position, shifts later elements right and adds exactly `x` to the multiset |
| `ArrayExt.InsertRemoveRoundTrip` | base/infix/Array.js:100-104 | `removeAt(i)` undoes `insertAt(x, i)` for every position inside the array |
| `ArrayExt.ItemAtWrappedIndex` | base/infix/Array.js:106-107 | `arr[i % length]` with JavaScript's truncating remainder: the element at `i mod length` for `i >= 0`; `undefined` for an empty array or a negative `i` with a non-zero remainder, and the first element for a negative `i` that is a multiple of the length |
| `ArrayExt.WrappedIndexPeriodic` | base/infix/Array.js:106-107 | the wrapped index repeats with the array's length as period |
| `ArrayExt.Reverse` | base/infix/Array.js:109-110 | reference reversal: position `j` holds the element at `length - 1 - j` |
| `ArrayExt.Reversed` | base/infix/Array.js:109-110 | `reversed` is the reversed copy, element by element; the input value is untouched |
| `ArrayExt.ReversedInvolution` | base/infix/Array.js:109-110 | reversing twice gives the original back |
| `ArrayExt.Swap` | base/infix/Array.js:112-116 | `swap(a, b)` puts the old value at `b` at position `a` and the old value at `a` at `b`, reading a position past the end as a hole; every other position keeps its value, and the array grows to the larger index when one lies past the end |
| `ArrayExt.SwapInvolution` | base/infix/Array.js:112-116 | swapping twice restores the array, padded with holes up to the larger index when one lay past the end |
| `ArrayExt.SwapPermutes` | base/infix/Array.js:112-116 | with both indices inside the array, a swap is a permutation: the multiset of elements is unchanged |
| `ArrayExt.StrJoin` | base/infix/Array.js:68 | the built-in string join: `""` for no parts, the only part unchanged, and otherwise as long as all the parts together plus one delimiter between each consecutive pair |
| `ArrayExt.StrJoinConcat` | base/infix/Array.js:68 | joining two non-empty runs of parts is joining each with one delimiter between them, so the delimiter sits exactly between consecutive parts |
| `ArrayExt.StrJoinCons` | base/infix/Array.js:68 | joining a part in front of others gives that part, the delimiter, then the join of the others |
| `ArrayExt.Slice` | base/infix/Array.js:77 | `slice(begin, end)` is a run of consecutive elements starting at the normalised `begin`, and with no `end` it runs to the end of the array |
| `ArrayExt.FoldAsWritten` | base/infix/Array.js:69 | each step of the source's fold builds a three-item array whose last two items are the delimiter and the newest element |
| `ArrayExt.FoldAsWrittenLast` | base/infix/Array.js:69 | the fold nests from the left: its value is the fold of every element but the last, then the delimiter, then the last element |
| `ArrayExt.JoinAsWritten` | base/infix/Array.js:65-69 | the source's `join` gives text exactly for an absent or string delimiter; otherwise nothing for no elements, the element itself for one, and a three-item array for two or more |
| `ArrayExt.Join` | base/infix/Array.js:65-69 | `join`: with no delimiter or a string one it is the built-in string join; with another delimiter a single element comes back unchanged, and several come back as one flat array with the delimiter between consecutive elements |
| `ArrayExt.JoinAgreesUpToTwo` | base/infix/Array.js:43-47 | for at most two elements the source's fold and the flat join agree, which covers every case the file's own assertions check |
| `ArrayExt.JoinNestsThreeElements` | base/infix/Array.js:69 | for three elements and a non-string delimiter the source's fold nests the first two in an inner array, unlike the flat join |
| `ArrayExt.JoinNestsFromThree` | base/infix/Array.js:69 | for every array of three or more elements and a non-string delimiter, the source's fold differs from the flat join |
| `Registry.AddStream` | base/dynamic/stream.js:292-295 | a new stream starts with an empty queue, changes no other queue or `queuedBy`, and keeps the registry consistent |
| `Registry.Strip` | base/dynamic/stream.js:289 | removing `x` from the list of every listed key removes it from exactly those lists |
| `Registry.ScheduleRead` | base/dynamic/stream.js:307-313 | after `scheduleRead(fn)`, `fn` is subscribed. An already queued `fn` changes nothing. Otherwise `fn` is appended to the queue and the stream to `fn.queuedBy`. Nothing else changes |
| `Registry.QueueOffAll` | base/dynamic/stream.js:295-299 | `queue.off()` empties the queue, and every former subscriber loses the stream from its `queuedBy`; other queues are unchanged |
| `Registry.QueueOffOne` | base/dynamic/stream.js:300-303 | `queue.off(fn)` drops `fn` from the queue only when `fn` has a `queuedBy`, and drops the stream from `fn.queuedBy` only when, besides, the queue is non-empty; no other queue or `queuedBy` changes |
| `Registry.Off` | base/dynamic/stream.js:284-303 | `_.off(fn, what)` keeps the set of streams and leaves `fn` without `queuedBy`; every queue `fn` sat in loses `fn`. With no second argument `fn`'s own queue is emptied and each former subscriber forgets `fn`. With a listener `f`, `fn`'s queue loses `f` when `f` has a `queuedBy`, and only `f` forgets `fn`. No other queue or `queuedBy` changes |
| `Registry.Detach` | base/dynamic/stream.js:288-290 | the `queuedBy` half of `_.off` removes `fn` from exactly the queues its `queuedBy` lists, drops `fn`'s `queuedBy`, and changes no other queue or `queuedBy` |
| `Registry.ScheduleReadConsistent` | base/dynamic/stream.js:307-313 | subscribing keeps the registry consistent: no duplicates in a queue or a `queuedBy`, and both indexes agree |
| `Registry.QueueOffAllConsistent` | base/dynamic/stream.js:295-299 | `queue.off()` keeps the registry consistent |
| `Registry.QueueOffOneConsistent` | base/dynamic/stream.js:300-303 | `queue.off(fn)` keeps the registry consistent |
| `Registry.DetachConsistent` | base/dynamic/stream.js:288-290 | the `queuedBy` half of `_.off` keeps the registry consistent and leaves `fn` in no queue |
| `Registry.DetachQueues` | base/dynamic/stream.js:289 | after the detach no queue holds a duplicate or `fn` |
| `Registry.DetachForward` | base/dynamic/stream.js:288-290 | after the detach every queued function still lists the queue in its `queuedBy` |
| `Registry.DetachBack` | base/dynamic/stream.js:288-290 | after the detach every queue a function lists still holds it |
| `Registry.OffConsistent` | base/dynamic/stream.js:284-303 | `_.off` keeps the registry consistent, whatever its arguments |
| `Registry.OffCallback` | base/dynamic/stream.js:284-290 | `_.off(fn)` on a plain callback removes it from exactly the queues it sat in, clears its `queuedBy`, and changes no other `queuedBy` |
| `Registry.OffUnsubscribedNoop` | base/dynamic/stream.js:284-290 | `_.off` on a callback that is subscribed nowhere changes no subscription |
| `Registry.OffStream` | base/dynamic/stream.js:284-299 | `_.off(stream)` on a stream subscribed nowhere empties its queue and only that one, and every former subscriber forgets the stream |
| `Registry.OffListener` | base/dynamic/stream.js:284-303 | `stream.off(f)` removes exactly `f` from the queue, the stream from `f.queuedBy`, and touches no other queue |
| `Registry.OffListenerAlsoDetachesStream` | base/dynamic/stream.js:284-290 | `_.off(stream, f)` also takes the stream itself out of any queue it was subscribed to |
| `Registry.OffOnlyRemoves` | base/dynamic/stream.js:284-303 | `_.off` only ever removes subscriptions |
| `Registry.OffListenerRemoves` | base/dynamic/stream.js:284-303 | after `stream.off(f)`, `f` is not subscribed to the stream |
| `Registry.OffListenerNoop` | base/dynamic/stream.js:284-303 | `stream.off(f)` for an `f` never subscribed, on a stream subscribed nowhere, changes nothing |
| `Registry.OffNonFunction` | base/dynamic/stream.js:284-290 | `_.off(fn, name)` with a non-function second argument does not clear `fn`'s own queue: every queue loses exactly `fn` and nothing else |
| `Registry.UnindexedUnsubscribed` | base/dynamic/stream.js:307-313 | in a consistent registry a function without `queuedBy` is in no queue |
| `Registry.NoDupMiddle` | base/dynamic/stream.js:307-313 | a function sits in a queue at most once, so it occurs neither before nor after its position |
| `Streams.Invoke` | base/dynamic/stream.js:323-324 | calling a function changes neither policies nor behaviours nor the set of streams nor a group's triggers |
| `Streams.Dispatch` | base/dynamic/stream.js:323-324 | a dispatch loop changes neither policies nor behaviours nor the set of streams nor a group's triggers |
| `Streams.Commit` | base/dynamic/stream.js:315-324 | `commitPendingReads` changes neither policies nor behaviours nor the set of streams nor a group's triggers |
| `Streams.Write` | base/dynamic/stream.js:213-282 | a publish keeps the set of streams and the behaviours |
| `Streams.Read` | base/dynamic/stream.js:207-211 | a subscribe changes no policy and no behaviour and keeps the set of streams |
| `Streams.SubscribeAll` | base/dynamic/stream.js:189-194 | `allTriggered`'s subscribe loop changes no policy, behaviour or group's triggers |
| `Streams.Listeners` | base/dynamic/stream.js:189-194 | the `i`-th listener of `allTriggered` is the wrapper that records `triggers[i]` |
| `Streams.DispatchPlain` | base/dynamic/stream.js:315-324 | a dispatch to plain callbacks calls each once, in snapshot order, with the published arguments, and changes nothing |
| `Streams.DispatchPlainPrefix` | base/dynamic/stream.js:323-324 | plain callbacks at the front of the snapshot are called first and the rest of the dispatch runs on the unchanged world |
| `Streams.DispatchAround` | base/dynamic/stream.js:315-324 | callbacks after a function in the snapshot are called on the world that function left, so a change to the queue does not skip them |
| `Streams.DispatchStopsAtThrow` | base/dynamic/stream.js:323-324 | a callback that raises aborts the dispatch: the callbacks after it are not called |
| `Streams.TriggerPublish` | base/dynamic/stream.js:278-282 | a `trigger` publish calls every subscriber once, in queue order, with the arguments, and leaves the queue unchanged |
| `Streams.TriggerOncePublish` | base/dynamic/stream.js:272-276 | a `triggerOnce` publish calls the current subscribers, empties the queue, and a second publish calls nobody |
| `Streams.TriggerOnceFlushLaw` | base/dynamic/stream.js:272-276 | a subscriber of a `triggerOnce` hears only the next publish; one subscribed after it hears only the publish after that |
| `Streams.BarrierOpens` | base/dynamic/stream.js:254-260 | the first write to a barrier latches its first argument, calls the waiting readers with it and unsubscribes them |
| `Streams.BarrierLatches` | base/dynamic/stream.js:256-258 | the first write latches the first argument, whoever is subscribed |
| `Streams.BarrierKeepsFirstValue` | base/dynamic/stream.js:254-260 | later writes never change a latched barrier |
| `Streams.BarrierLateRead` | base/dynamic/stream.js:262-267 | a reader of an open barrier is called at once with the latched value and is not queued |
| `Streams.WriteKeepsOpenBarriers` | base/dynamic/stream.js:213-282 | a publish changes no other stream's policy, and every open barrier stays as it is |
| `Streams.ObservableSameValue` | base/dynamic/stream.js:219-222 | writing the value an observable holds (by `===` or by deep equality) does nothing at all |
| `Streams.ObservableNewValue` | base/dynamic/stream.js:219-233 | a distinct value is stored and dispatched as `(new, previous)`, or `(new)` when none was held; the subscribers stay |
| `Streams.ObservableRead` | base/dynamic/stream.js:207-211 | a reader of an observable holding a value is called with it at once and also queued |
| `Streams.ForceRepublishes` | base/dynamic/stream.js:239-241 | `force` with a falsy argument dispatches the unchanged value again, alone, to every subscriber |
| `Streams.OffKeepsConsistent` | base/dynamic/stream.js:284-303 | `_.off` keeps the world invariant: a consistent registry, and no reader queued on an open barrier |
| `Streams.InvokeConsistent` | base/dynamic/stream.js:342-344 | calling any function, including the `once`, `when` and `allTriggered` wrappers, keeps the world invariant |
| `Streams.DispatchConsistent` | base/dynamic/stream.js:323-324 | a dispatch keeps the world invariant |
| `Streams.WriteConsistent` | base/dynamic/stream.js:315-321 | a publish under every policy keeps the world invariant |
| `Streams.ReadConsistent` | base/dynamic/stream.js:307-313 | a subscribe under every policy keeps the world invariant |
| `Streams.WhenWrapperUnsubscribes` | base/dynamic/stream.js:243-247 | the `when` wrapper whose predicate matches calls its target with the value and leaves the queue |
| `Streams.ScheduleFresh` | base/dynamic/stream.js:307-313 | subscribing a new function appends it to the queue |
| `Streams.OnceWrapperFires` | base/dynamic/stream.js:342-344 | a publish on a `trigger` whose last subscriber is a `once` wrapper calls the others, then the target with the first argument; the wrapper leaves the queue and nothing else changes; the publish raises exactly when the target does |
| `Streams.OnceWrapperMid` | base/dynamic/stream.js:315-324 | the publish iterates a copy of the queue: a `once` wrapper in the middle of a `trigger`'s queue unsubscribes itself during the publish, and every subscriber after it is still called, in order; the queue loses only the wrapper |
| `Streams.OnceTargetRaises` | base/dynamic/stream.js:342-344 | a `once` wrapper whose target raises has already unsubscribed itself; the exception escapes the publish and the subscribers queued after the wrapper are not called |
| `Streams.OnceOnTrigger` | base/dynamic/stream.js:342-344 | `once` on a `trigger`: the first publish calls the target once, the second does not call it |
| `Streams.WhenReplayFiresAgain` | base/dynamic/stream.js:243-247 | as written, `when` on an observable whose value matches calls the target at once and still queues the wrapper, so a later distinct matching value calls it again (for a target that returns normally) |
| `Streams.WhenFixedFiresOnce` | base/dynamic/stream.js:243-247 | the corrected `when` calls the target for a matching current value and subscribes nothing; otherwise it queues the wrapper and calls nothing |
| `Streams.OnceReplayFiresAgain` | base/dynamic/stream.js:342-344 | as written, `once` on an observable holding a value calls the target with it and still queues the wrapper, so a later distinct value calls it again (for a target that returns normally) |
| `Streams.ReplayRead` | base/dynamic/stream.js:342-344 | a `once` wrapper, or a `when` wrapper whose predicate matches, read from an observable holding a value calls the target with that value and is still queued last, since its `off` ran before it was queued |
| `Streams.ReplayWrite` | base/dynamic/stream.js:219-233 | a new value on an observable whose queue ends with a wrapper calls the ordinary subscribers with `(new, previous)` and then the wrapper |
| `Streams.OnceFixedFiresOnce` | base/dynamic/stream.js:342-344 | the corrected `once` either calls the target once and leaves its wrapper in no queue, or calls nothing and installs the wrapper |
| `Streams.OffThenPublish` | base/dynamic/stream.js:284-290 | after `_.off(f)` a `trigger` publish calls every subscriber but `f`, in order |
| `Streams.TriggerOnceSingle` | base/dynamic/stream.js:272-276 | a `triggerOnce` publish with one subscriber is that subscriber's call on the flushed registry |
| `Streams.TriggerOnceRead` | base/dynamic/stream.js:272-276 | subscribing to a `triggerOnce` only schedules the read |
| `Streams.AllTriggeredTwo` | base/dynamic/stream.js:186-194 | `allTriggered` over two `triggerOnce` streams calls nothing when subscribing or when the first fires, and calls the target once, with no arguments, when the second fires (for a target that returns normally) |
| `Streams.AllTriggeredSubscribed` | base/dynamic/stream.js:189-194 | `allTriggered` subscribes one recording wrapper per trigger and calls nothing |
| `Streams.AllTriggeredSetup` | base/dynamic/stream.js:186-196 | `allTriggered` with triggers installs a fresh group and exactly its listeners, leaves every other function's behaviour as it was, and then subscribes the listeners |
| `Streams.AllTriggeredFirst` | base/dynamic/stream.js:190-194 | the first trigger firing is recorded and calls nothing |
| `Streams.AllTriggeredSecond` | base/dynamic/stream.js:190-194 | when the last trigger fires the target is called and forgotten |
| `Streams.AllTriggeredNone` | base/dynamic/stream.js:195-196 | with no triggers the target is called at once, and its exception escapes; an absent target raises |
| `Streams.AllWrapperStep` | base/dynamic/stream.js:190-194 | one `allTriggered` listener records its trigger and calls `then`, with no arguments, exactly when that completes the group |
| `Streams.AllWrapperRaises` | base/dynamic/stream.js:190-194 | when the listener completing the group finds that `then` raises, the exception escapes and the group keeps `then`, since `then = undefined` is never reached |
| `Streams.AllTriggeredCallsOnce` | base/dynamic/stream.js:186-196 | over any order and repetition of firings, `then` is called once when the triggers are distinct and each has fired, and never otherwise |
| `Streams.FireAllCount` | base/dynamic/stream.js:190-194 | from any reachable group state, the number of `then` calls over a run of firings is 1 exactly when a pending `then` exists, the triggers are distinct, and every trigger has fired before or during the run |
| `Streams.Once` | base/dynamic/stream.js:342-344 | `once` installs its wrapper and changes no policy; on a stream holding no value it calls nothing and queues the wrapper last; on an open barrier or an observable with a value it calls the target with that value and raises exactly when the target does |
| `Streams.When` | base/dynamic/stream.js:243-247 | `when` installs its wrapper and changes no policy; unless the current value matches it calls nothing and queues the wrapper last; a matching current value calls the target with it, raising exactly when the target does |
| `Streams.Force` | base/dynamic/stream.js:239-241 | after `force(v)` the observable holds `v`, or its old value when `v` is falsy, and no behaviour changes |
| `Streams.AllTriggered` | base/dynamic/stream.js:186-196 | with triggers, `allTriggered` adds exactly its listeners to the behaviours, changes no policy, and creates the group over those triggers |
| `Streams.WhenFixed` | base/dynamic/stream.js:243-247 | the corrected `when` changes no policy |
| `Streams.OnceFixed` | base/dynamic/stream.js:342-344 | the corrected `once` changes no policy |
| `TraitMerge.Named` | base/component.js:600-605 | one definition's contribution to a name is exactly its pooled members of that name; `NamedConcat` and `NamedSingle` fix their order and multiplicity |
| `TraitMerge.NamedConcat` | base/component.js:600-605 | the pool of two runs of entries is the first run's followed by the second's: entries are pooled in key order |
| `TraitMerge.NamedSingle` | base/component.js:600-605 | a one-entry definition contributes its member exactly when the entry has the name and is pooled |
| `TraitMerge.PoolConcat` | base/component.js:600-605 | `pool[name]` lists contributors in order, the own definition first, then the traits in `$traits` order |
| `TraitMerge.PoolSingle` | base/component.js:600-605 | one contributor's share of the pool is its own list of that name |
| `TraitMerge.FirstStream` | base/component.js:608 | `_.find(members, isStreamDefinition)` finds the first stream declaration, or reports that there is none |
| `TraitMerge.Others` | base/component.js:612-614 | the listeners are exactly the pool's members other than the canonical stream; `OthersConcat` and `OthersSingle` fix pool order and duplicates |
| `TraitMerge.OthersConcat` | base/component.js:612-614 | the listeners of two runs of members are the first run's followed by the second's |
| `TraitMerge.OthersSingle` | base/component.js:612-614 | a single member is a listener exactly when it is not the canonical declaration |
| `TraitMerge.Functions` | base/component.js:625-626 | the hook members kept are exactly the pooled ones that are functions; `FunctionsConcat` and `FunctionsSingle` fix pool order and duplicates |
| `TraitMerge.FunctionsConcat` | base/component.js:625-626 | the functions of two runs of members are the first run's followed by the second's |
| `TraitMerge.FunctionsSingle` | base/component.js:625-626 | a single member is bound exactly when its untagged value is a function |
| `TraitMerge.LastBindable` | base/component.js:603-604 | `bindables[name]` is the last `$bindable` member of the pool |
| `TraitMerge.Capitalize` | base/component.js:620 | `capitalized` upper-cases the first character and keeps the length and every later character |
| `TraitMerge.BoundHooks` | base/component.js:619-621 | every binding is a hook of `_.bindable` whose `<prefix><Name>` has a pool, bound to exactly that pool's function members, and there is at most one binding per hook |
| `TraitMerge.BoundHooksConcat` | base/component.js:619-621 | the bindings follow the order of `_.bindable.hooks` |
| `TraitMerge.BoundHooksSingle` | base/component.js:619-621 | a single hook is bound, with its pool's function members, exactly when its `<prefix><Name>` has a pool |
| `TraitMerge.OwnMember` | base/component.js:615 | the own definition's member of a name, or none when the definition lacks it |
| `TraitMerge.PoolContains` | base/component.js:600-605 | the pool holds every pooled member of every contributor |
| `TraitMerge.NamedAbsent` | base/component.js:600-605 | a definition without the name contributes nothing to its pool |
| `TraitMerge.NameHasSource` | base/component.js:600-605 | every merged name has an own member or a pooled one |
| `TraitMerge.Merge` | base/component.js:595-627 | the merged definition has exactly the own names and the pooled trait names |
| `TraitMerge.PooledNames` | base/component.js:600-605 | every pooled entry's name is among the names put into `pool` |
| `TraitMerge.MergeAsWritten` | base/component.js:597-605 | as written, the merge raises exactly when some pooled entry is named after an `Object.prototype` property, and otherwise has the merged names |
| `TraitMerge.MergeAsWrittenThrows` | base/component.js:597-605 | a component with one trait and its own `toString` method makes the merge as written raise, while the intended merge keeps the method |
| `TraitMerge.MergeAsWrittenAgrees` | base/component.js:597-627 | away from the inherited names the merge as written is the merge |
| `TraitMerge.MergeAt` | base/component.js:607-627 | each name of the merged definition gets that name's merge |
| `TraitMerge.MergeStream` | base/component.js:607-614 | a name with a stream declaration becomes the first one in pool order (own definition first), and every other contribution is one of its listeners |
| `TraitMerge.MergeOwnWins` | base/component.js:615-616 | without a stream or a hooked bindable, a truthy own member is kept |
| `TraitMerge.MergeFirstTrait` | base/component.js:615-616 | without a stream or a hooked bindable, a name the own definition lacks takes the first trait's member |
| `TraitMerge.MergeBindable` | base/component.js:618-627 | a `$bindable` with at least one hook present becomes a bindable built from the last `$bindable` declaration, with all its hooks |
| `TraitMerge.LastBindableAt` | base/component.js:603-604 | the last `$bindable` position is the one with no `$bindable` after it |
| `TraitMerge.BoundHooksCollect` | base/component.js:619-627 | a hook whose `<prefix><Name>` occurs is bound to every function of that name from every contributor |
| `TraitMerge.PoolSkipsBuiltins` | base/component.js:601 | `$builtin` members and `constructor` never reach the pool |
| `TraitMerge.MergeStreamsWithTraits` | base/component.js:345-360 | a trait's `$trigger`, a same-named method of another trait and the component's own method merge into the trigger with the two methods as listeners, own first |
| `Components.AttachTo` | base/component.js:911-920 | `attachTo(self)` raises before any change. Attaching to the current parent changes nothing. Otherwise the node leaves the old parent's children, is appended to the new parent's, and names the new parent |
| `Components.Detach` | base/component.js:922-923 | `detach()` leaves the node without a parent |
| `Components.Attach` | base/component.js:930-931 | `attach(cs)` raises exactly when the parent is among `cs` |
| `Components.ClearParents` | base/component.js:934 | exactly the listed components lose their parent |
| `Components.DetachAll` | base/component.js:933-936 | `detachAll()` empties the children list and clears each former child's parent, and changes nothing else in the hierarchy |
| `Components.AttachToTree` | base/component.js:915-920 | `attachTo` keeps parents and children consistent and duplicate-free, and the new parent lists the node |
| `Components.MovedParents` | base/component.js:915-920 | after a move every parent still lists its child |
| `Components.MovedChildren` | base/component.js:915-920 | after a move every listed child names its lister as parent |
| `Components.MovedNoDup` | base/component.js:915-920 | after a move no children list holds a duplicate |
| `Components.AttachTree` | base/component.js:930-931 | `attach(cs)` keeps the hierarchy consistent, and on success every listed component is a child |
| `Components.StaysAttached` | base/component.js:930-931 | attaching others to `p` never takes a child away from `p` |
| `Components.DetachTree` | base/component.js:922-923 | `detach()` keeps the hierarchy consistent and no component lists the node any more |
| `Components.DetachAllTree` | base/component.js:933-936 | `detachAll()` keeps the hierarchy consistent |
| `Components.ReleasedParents` | base/component.js:933-936 | after `detachAll` every remaining parent still lists its child |
| `Components.ReleasedChildren` | base/component.js:933-936 | after `detachAll` every listed child names its lister |
| `Components.DetachAllTwice` | base/component.js:933-936 | a second `detachAll()` changes nothing |
| `Components.OffMethods` | base/component.js:886 | after `enumMethods(_.off)` no member has a `queuedBy` |
| `Components.OffMethodsQuiets` | base/component.js:886 | unbinding only removes subscriptions and keeps the registry consistent |
| `Components.Destroy` | base/component.js:877-903 | `destroy` on a destroyed component raises, and on one being destroyed raises the recursion error, both without a change. A failure part-way leaves the component marked as being destroyed. Success unbinds every member, destroys every child, ends with the own `destroy` then the traits' `destroy` in order, and leaves the component destroyed, without parent or children. Nothing is ever subscribed anew |
| `Components.TraitDestroys` | base/component.js:895-899 | `afterDestroy` calls, with no arguments, exactly the `destroy` methods of the traits that have one; `TraitDestroysConcat` fixes their order |
| `Components.TraitDestroysConcat` | base/component.js:895-899 | the traits' `destroy` methods are called in `$traits` order |
| `Components.DestroyChildren` | base/component.js:890-891 | on success every child is destroyed; a child that is not alive makes it raise |
| `Components.DestroyEach` | base/component.js:939 | on success every listed child is destroyed and has no parent; already destroyed components stay destroyed |
| `Components.DestroyAll` | base/component.js:938-941 | `destroyAll()` on success empties the children list and leaves each former child destroyed and without parent |
| `Components.DestroyAllTwice` | base/component.js:938-941 | a second `destroyAll()` changes nothing and calls nothing |
| `Components.DestroyUnsubscribes` | base/component.js:886 | after `destroy()` no member of the component is subscribed to any stream |
| `Components.DestroyedMethodNotCalled` | base/component.js:886 | after `destroy()` a later `trigger` publish never calls a member of the destroyed component |
| `Components.DestroyChildThenParent` | base/component.js:895-903 | destroying a child and then its parent raises, because the parent still lists the child |
| `Components.DestroyFailureSticks` | base/component.js:880-882 | after a destroy that raised part-way, every later `destroy()` raises the recursion error |
| `Components.DestroyTwice` | base/component.js:878-879 | a second `destroy()` raises and changes nothing |
| `Components.WithoutAll` | base/component.js:886 | reference for unbinding a list of members: what remains is the queue minus the members |
| `Components.OffMethodsQueues` | base/component.js:886 | unbinding takes exactly the members out of every queue |
| `Components.DestroyLeafQueues` | base/component.js:877-891 | destroying a childless live component succeeds and takes exactly its members out of every queue |
| `Components.DestroyKeepsOwnStreamSubscribers` | base/component.js:886 | a non-member subscriber of a stream member of a childless component is still subscribed after its destroy |
| `Components.Apply` | base/component.js:819 | calling a stream with one value keeps the streams and behaviours, and open barriers stay open |
| `Components.RunActions` | base/component.js:819 | a run of stream calls keeps the streams and behaviours, and open barriers stay open |
| `Components.HookCalls` | base/component.js:829-846 | one call of each hook, in order, with no arguments |
| `Components.BeforeHooks` | base/component.js:833-834 | the `beforeInit` hooks are exactly those of the traits that have one; `BeforeHooksConcat` fixes their order |
| `Components.AfterHooks` | base/component.js:842-843 | the `afterInit` hooks are exactly those of the traits that have one; `AfterHooksConcat` fixes their order |
| `Components.BeforeHooksConcat` | base/component.js:833-834 | the traits' `beforeInit` methods follow `$traits` order |
| `Components.AfterHooksConcat` | base/component.js:842-843 | the traits' `afterInit` methods follow `$traits` order |
| `Components.TraitMethodsSingle` | base/component.js:829-846 | a single trait contributes its own lifecycle methods, if it has them |
| `Components.RunChain` | base/component.js:829-846 | a chain makes at most one call per hook, and a sequential chain always reaches its end |
| `Components.FirstStuck` | base/component.js:833-838 | the first hook that does not call its continuation, with every earlier hook calling it |
| `Components.RunChainReached` | base/component.js:829-846 | a chain reaches its final continuation exactly when it is sequential or every hook calls its continuation |
| `Components.RunChainTrace` | base/component.js:829-846 | a chain calls the hooks in `$traits` order up to and including the first that does not continue, all of them in sequential style |
| `Components.RunChainSpec` | base/component.js:829-846 | `callTraitsMethod` calls the hooks in `$traits` order up to and including the first that does not continue (all of them in sequential style), and reaches the end exactly when it is sequential or every hook continues |
| `Components.CompletedChain` | base/component.js:832-838 | a CPS chain whose hooks all continue calls each once, in order, and reaches its end |
| `Components.SequentialChain` | base/component.js:841-846 | a sequential chain calls every hook once, in order |
| `Components.Init` | base/component.js:784-786 | `init()` on an open `initialized` raises without a change. A chain that reaches `_afterInit` opens `initialized` with `true`. One that stops earlier changes nothing. The component table is unchanged |
| `Components.AfterInit` | base/component.js:858-873 | `_afterInit` opens `initialized` with `true` and changes no component |
| `Components.OpenAndBind` | base/component.js:862-873 | `this.initialized(true)` and the change bindings leave `initialized` open with `true` |
| `Components.AfterInitTrace` | base/component.js:858-873 | `_afterInit` calls the `afterInit` chain first, then the plain subscribers waiting on `initialized`, with `true` |
| `Components.InitializedOpens` | base/component.js:862 | `this.initialized(true)` on a closed barrier latches `true` and calls the plain waiting subscribers with it |
| `Components.InitTwice` | base/component.js:850-852 | a second `init()` raises the already-initialized error and changes nothing |
| `Components.InitSequentialOrder` | base/component.js:784-786 | in sequential style the calls start with every `beforeInit` in `$traits` order, the own `init`, every `afterInit`, then the subscribers of `initialized` with `true` |
| `Components.AfterInitSequential` | base/component.js:858-862 | in sequential style `_afterInit` calls every `afterInit` hook, then the subscribers of `initialized` |
| `Components.InitCpsBeforeStuck` | base/component.js:850-854 | in CPS style a `beforeInit` that never continues ends `init()` there: no later hook and no own `init` is called, and nothing changes |
| `Components.InitCpsOwnStuck` | base/component.js:784-786 | in CPS style an own `init` that never continues leaves every `afterInit` uncalled and `initialized` closed |
| `Components.InitCpsAfterStuck` | base/component.js:858-862 | in CPS style an `afterInit` that never continues stops the later ones, yet `initialized` opens with `true` |
| `Components.AfterInitStuck` | base/component.js:858-862 | in CPS style `_afterInit` calls the `afterInit` chain up to the first hook that does not continue |
| `Components.InitReached` | base/component.js:784-786 | once the chain reaches `_afterInit`, `init()` is the `beforeInit` chain, the own `init`, then `_afterInit` |
| `Components.Effective` | base/component.js:663-664 | the effective configuration has the union of the keys; the caller's entry wins, the default applies otherwise |
| `Components.ActionOf` | base/component.js:819 | a configuration value given to a stream acts on that stream |
| `Components.PhaseActions` | base/component.js:688-747 | each construction phase of a declaration calls only that declaration's stream |
| `Components.Subscribes` | base/component.js:741-744 | each default listener the merge collected is called on the stream in that order: a function is subscribed, any other value (another contributor's declaration) is written |
| `Components.SubscribesConcat` | base/component.js:741-744 | the default listeners are handled in the order they were collected |
| `Components.Actions` | base/component.js:685-779 | a phase over all declarations calls only the streams they create |
| `Components.CreateStreams` | base/component.js:736-740 | every declared stream exists afterwards with an empty queue and its start policy (the last declaration wins for a repeated id); every other stream keeps its policy and queue, and no behaviour changes |
| `Components.CreateStream` | base/component.js:736-740 | a declaration's stream exists afterwards with its start policy and an empty queue; every other stream keeps its policy and queue |
| `Components.Construct` | base/component.js:652-825 | construction creates every declared stream and adds no behaviour; what it copies onto the instance and whether it defers `init()` are the effective configuration's |
| `Components.Expand` | base/component.js:685-819 | the stream part of construction creates every declared stream and adds no behaviour |
| `Components.ConstructApplies` | base/component.js:791-793 | the copied entries are exactly the caller's and the defaults' keys that are not `init`, a stream, a `<name>Change` stream or an `Object.prototype` name; each has the caller's value if given, the default otherwise |
| `Components.ConstructDeferred` | base/component.js:824-825 | `init()` is deferred exactly when the caller or the defaults set `init: false` |
| `Components.ConstructProperty` | base/component.js:690-731 | a lone `$observableProperty` is built without calls. It holds the configuration value, else the definition's subject unless that is `undefined`, else no value. A function, given in the configuration or as the subject (`$observableProperty(fn)`), is subscribed instead |
| `Components.PropertyRun` | base/component.js:728-731 | the default write and the setter on a fresh property stream give that value or subscription, and call nothing |
| `Components.PropertyActionOnce` | base/component.js:713-715 | one configuration value written to a fresh property is stored without calls; a function given instead is queued on it |
| `Components.PropertyActions` | base/component.js:713-715 | writing one configuration value once or twice to a fresh property gives the same policy, no calls, and subscribes a function |
| `Components.ConstructStreamListener` | base/component.js:742-747 | a function given in the configuration for a stream member is subscribed to it. Only an observable calls it at once, with its subject |
| `Components.ConstructStreamValue` | base/component.js:746-747 | a truthy non-function value given for a stream member is published on it: a barrier latches it, an observable takes it unless equal, a trigger calls nobody |
| `Components.ConstructStreamDefaultValue` | base/component.js:741-744 | a default listener that is not a function is written to the new stream, not subscribed: a barrier opens with it, an observable takes it |
| `Components.StreamPhases` | base/component.js:736-747 | a stream member with a truthy configuration entry and no merged listeners gets the read of its subject (for a trigger given a function) and then exactly one more construction call, the one for that entry |
| `Components.DefaultValuePhases` | base/component.js:741-744 | a stream member whose one default listener is a value, with no truthy configuration entry, gets one construction call: the write of that value |
| `Components.SubjectRead` | base/component.js:736-740 | `$trigger(fn)` and `$triggerOnce(fn)` subscribe `fn` to the new stream; no other kind and no non-function subject makes a call |
| `Components.ConstructTriggerSubject` | base/component.js:736-747 | a trigger declared with a function is built without calls, with that function queued first and a function from the configuration queued after it |
| `Components.TriggerSubjectPhases` | base/component.js:736-747 | the construction calls of such a trigger are the subject's subscription, then the configuration entry's |
| `Components.TriggerSubjectRun` | base/dynamic/stream.js:272-282 | subscribing to a fresh trigger queues the functions in order, calls nothing and keeps every policy |
| `Components.TriggerSubscribe` | base/dynamic/stream.js:307-313 | a subscription to a trigger only schedules the read; the remaining calls run from the world it leaves |
| `Components.TriggerCallsBoth` | base/dynamic/stream.js:315-324 | a publish on a trigger holding two ordinary callbacks calls both, in queue order |
| `Components.InitStreamsFromConfig` | base/component.js:261-268 | a `$trigger(atDefinition)` member given `atInit` in the configuration: publishing from `init` calls `atDefinition`, then `atInit` |
| `Components.ConstructStreamIgnored` | base/component.js:746-747 | a missing or falsy configuration entry leaves a stream member as declared, with no calls |
| `Components.ConstructSingle` | base/component.js:685-819 | construction with one declaration is its stream creation followed by its three phases |
| `Components.StreamEntry` | base/component.js:746-747 | one configuration entry on a fresh, unsubscribed stream: a function is subscribed, a value is published |
| `Components.ChangeBindings` | base/component.js:871-873 | the bindings `_afterInit` makes are exactly the truthy `<name>Change` entries of the configuration, each on its property's observable |

## Left out

- Timers and caching: `$debounce`, `$throttle`, `postpone`/`postpones`, `$memoize`, `$memoizeCPS`, `$interlocked`. They involve clocks and asynchrony.
- `beforeWrite` coercion of incoming property values to a prototype instance. It calls foreign constructors.
- `$property` getters, and the `attachedTo`/`attached` accessors. They are reflection and add no behaviour.
- `enumMethods` reflection. The list of member functions it visits is a field of the instance, `methods`.
- User callbacks are inert: a callback either returns (`Plain`) or raises (`Throws`). A callback that subscribes to, publishes on or unsubscribes from a stream while a publish is under way is not modelled, so the re-entrant barrier test at base/dynamic/stream.js:147-159 is outside the model. Removal during a publish is covered by `OnceWrapperMid`, for a `once` wrapper's own `off`.
- `_.hasArgs` arity sniffing. A hook is `Sync` or `Cps` instead, and a CPS hook says whether it calls its continuation.
- Deep equality `_.isEqual`. It is a parameter of the world.
- `$requires` type assertions. They only assert.
- Receiver (`this`) binding and the `this.$` bound wrappers. A bound method is its own function id.
- Stream `context`. It only sets `this` for callbacks.
- `$alias`, `$listener`, the `$bindable` wrapper object `_.bindable`, and `defaultHooks`. The merge decides which member becomes bindable and with which hooks; what the bindable does when called is not modelled.
- `Upper`: `capitalized` is modelled for ASCII letters only.
- `Components.SubjectValue`: an `$observable` stream declared with a function subject. In JavaScript, `_.observable(fn)` holds the function as its value and calls it with itself at creation. A function is not a value of the model, so that observable starts with `undefined` and nothing is called. The function subjects of `$trigger`, `$triggerOnce` and `$observableProperty` are modelled, and `_.barrier` ignores its subject.
- `Components.SubjectRead`: a trigger's non-function subject is written by `_.trigger(v)` before anyone listens. That write calls nothing and changes nothing, so the model leaves it out.
- The enumeration order of the configuration object. It only matters for names the model copies as plain entries, which are independent.
- Exceptions raised by trait hooks, the own `init`, and trait or own `destroy` methods. These never raise in the model.
- `Components.RunActions` skips no action. Every action's stream must exist; the source would throw on a missing one.
- Stream creation and the default writes run declaration by declaration in the source. The model creates every stream first. The result is the same, because new streams have empty queues and no declaration's writes touch another declaration's stream.
- A constructor argument that is not an object. The source replaces it with `{}`, and the model takes the configuration as given.
- `gatherChanges`, `observableRef`, and the Array extensions other than those listed: `each`, `map`, `flat`, `zip`, `random`, `before`, `after`, `lastIndex` and the rest are aliases of library functions.
- `Streams.Write`: its own contract only states frame facts. What each policy does on a write is stated by the lemmas `TriggerPublish`, `TriggerOncePublish`, `BarrierOpens`, `ObservableNewValue` and the others.
- `Components.Apply` and `Components.RunActions`: their own contracts only state frame facts. Their effects are stated by `PropertyActions`, `StreamEntry` and the construction lemmas.
- `Components.ActionOf`, `Components.PhaseActions` and `Components.Actions`: their contracts only say which streams are called. What the calls do is stated by `StreamPhases`, `ConstructSingle` and `ChangeBindings`.
- `Streams.Read`: its own contract only states frame facts. The behaviour is stated by `ObservableRead`, `BarrierLateRead` and `TriggerOnceRead`.
- `Streams.Invoke`: a wrapper calls its target as an ordinary function. A target that is itself a `once`, `when` or `allTriggered` wrapper, or a stream, runs as a plain callback. A stream sitting in another stream's queue is likewise invoked as a plain callback, so chaining one stream into another (`a(b)`) is not modelled. Its own contract states only frame facts; the wrappers are described by `OnceWrapperFires`, `OnceTargetRaises`, `WhenWrapperUnsubscribes` and `AllWrapperStep`.
- `Streams.Dispatch`, `Streams.Commit` and `Streams.SubscribeAll`: their own contracts state only frame facts. What they call is stated by `DispatchPlain`, `DispatchPlainPrefix`, `DispatchStopsAtThrow`, the policy lemmas and `AllTriggeredSubscribed`.
- `Components.Expand`: its contract states only that the declared streams exist and that no behaviour is added. The calls it makes are stated by `ConstructSingle`, `StreamPhases`, `StreamEntry` and `ConstructProperty`.
- `Components.CreateStreams`: declaration ids are taken to be distinct, since each member name gets a new stream. A repeated id, or one that already names a stream, is reset to an empty queue without clearing the former subscribers' `queuedBy`.
- `ArrayExt.Swap`: indices are natural numbers. A negative or fractional index sets a non-index property in JavaScript and is not modelled; a hole and an `undefined` element are both `None`.
- `Js.Val`: numbers are integers. Fractional numbers, `NaN`, `Infinity`, `-0`, and the text of fractions or of numbers of 1e21 and more are not modelled.

## Findings

| source | as written | input that shows it | evidently intended | confidence | as-written member | corrected member |
|---|---|---|---|---|---|---|
| base/infix/Array.js:69 | a non-string delimiter folds with `[a].concat([delim, b])`, which wraps the accumulator in a new array at every step | `['a','b','c'].join(777)` gives `[['a',777,'b'],777,'c']` | `['a',777,'b',777,'c']`: the elements with the delimiter between consecutive ones, as the two-element assertion at base/infix/Array.js:45 suggests | medium, not executed | `ArrayExt.JoinNestsThreeElements` | `ArrayExt.Join` |
| base/dynamic/stream.js:342-344 | `once` subscribes its wrapper through an ordinary read. On an observable holding a value, the read calls the wrapper before queueing it. The wrapper's `off` then finds nothing to remove, and the wrapper is queued anyway | `o = _.observable(1); o.once(cb); o(2)` calls `cb(1)` and then `cb(2)` | `cb` fires once | medium, not executed | `Streams.OnceReplayFiresAgain` | `Streams.OnceFixedFiresOnce` |
| base/dynamic/stream.js:243-247 | `when` subscribes its wrapper through an ordinary read. On an observable whose value matches, the wrapper fires during the read, is not yet queued when it calls `off`, and is queued afterwards | `o = _.observable(1); o.when(x => x > 0, cb); o(2)` calls `cb(1)` and then `cb(2)` | `cb` fires only at the first match, then unsubscribes | medium, not executed | `Streams.WhenReplayFiresAgain` | `Streams.WhenFixedFiresOnce` |
| base/component.js:597-605 | `pool` is created as `{}`, so `pool[name]` for a member named after an `Object.prototype` property (`toString`, `valueOf`, `hasOwnProperty`, …) finds the inherited function, and calling `push` on it raises a TypeError | a component with one (empty) trait and its own `toString` method: the merge raises | the member is merged like any other; the source already leaves `constructor` out of the pool (base/component.js:601) | medium, not executed | `TraitMerge.MergeAsWrittenThrows` | `TraitMerge.Merge` |

=== FILE: arrays.dfy ===
/** The Array extension methods of base/infix/Array.js, on immutable sequences. An in-place
    method of the source (remove, removeAt, insertAt, swap, removeAll) is modelled by the value
    the array holds afterwards, which is also what the source returns. Positions follow the
    JavaScript `slice`/`splice` rules: negative positions count from the end, and every position
    is clamped to the array. */
module ArrayExt {
  import opened Js

  /** Normalises a `slice`/`splice` position against an array of length `len`. */
  function Clamp(len: nat, i: int): (k: nat)
    ensures k <= len
  {
    if i < 0 then (if len + i < 0 then 0 else len + i)
    else if i > len then len
    else i
  }

  /** `arr.slice(begin, end)`; `end` is `None` when the argument is absent. */
  function Slice<T>(s: seq<T>, begin: int, end: Option<int>): (r: seq<T>)
    ensures Clamp(|s|, begin) + |r| <= |s|
    ensures forall k | 0 <= k < |r| :: r[k] == s[Clamp(|s|, begin) + k]
    ensures end.None? ==> r == s[Clamp(|s|, begin)..]
  {
    var b := Clamp(|s|, begin);
    var e := if end.None? then |s| else Clamp(|s|, end.value);
    if b <= e then s[b..e] else []
  }

  /** `arr.take(n)`: the first `n` elements (a negative `n` drops that many from the end). */
  function Take<T>(s: seq<T>, n: int): (r: seq<T>)
    ensures r <= s
    ensures 0 <= n ==> |r| == if n < |s| then n else |s|
    ensures n < 0 ==> |r| == if |s| + n < 0 then 0 else |s| + n
  {
    Slice(s, 0, Some(n))
  }

  /** `arr.copy`: `arr.slice(0)`, an array with the same elements. */
  function Copy<T>(s: seq<T>): (r: seq<T>)
    ensures r == s
  {
    Slice(s, 0, None)
  }

  /** `arr.indexOf(x)`: the first position holding `x`, or -1. */
  function IndexOf<T(==)>(s: seq<T>, x: T): (i: int)
    ensures -1 <= i < |s|
    ensures i == -1 <==> x !in s
    ensures 0 <= i ==> s[i] == x && x !in s[..i]
  {
    if |s| == 0 then -1
    else if s[0] == x then 0
    else
      var k := IndexOf(s[1..], x);
      if k == -1 then -1
      else
        assert s[..k + 1] == [s[0]] + s[1..][..k];
        k + 1
  }

  /** `arr.contains(x)`, defined in the source as `indexOf(x) >= 0`. */
  function Contains<T(==)>(s: seq<T>, x: T): (b: bool)
    ensures b <==> x in s
  {
    IndexOf(s, x) >= 0
  }

  /** Reference definition of `remove`: `s` with every occurrence of `x` dropped. */
  function Without<T(==)>(s: seq<T>, x: T): (r: seq<T>)
    ensures x !in r
    ensures forall i | 0 <= i < |s| && s[i] != x :: s[i] in r
    ensures forall i | 0 <= i < |r| :: r[i] in s
    ensures multiset(r) == multiset(s)[x := 0]
  {
    if |s| == 0 then []
    else if s[0] == x then
      assert s == [s[0]] + s[1..];
      Without(s[1..], x)
    else
      assert s == [s[0]] + s[1..];
      [s[0]] + Without(s[1..], x)
  }

  /** `a` occurs in `b` in order, possibly with gaps. */
  predicate Subseq<T(==)>(a: seq<T>, b: seq<T>)
    decreases |b|
  {
    |a| == 0 || (|b| > 0 && if a[0] == b[0] then Subseq(a[1..], b[1..]) else Subseq(a, b[1..]))
  }

  /** `remove` keeps the remaining elements in their original relative order. */
  lemma {:induction false} WithoutKeepsOrder<T>(s: seq<T>, x: T)
    ensures Subseq(Without(s, x), s)
  {
    if |s| > 0 {
      WithoutKeepsOrder(s[1..], x);
      if s[0] != x {
        assert Without(s, x) == [s[0]] + Without(s[1..], x);
        assert Without(s, x)[1..] == Without(s[1..], x);
      } else {
        SubseqDropFront(Without(s[1..], x), s);
      }
    }
  }

  /** Putting one more element in front of the larger sequence keeps a subsequence. */
  lemma {:induction false} SubseqDropFront<T>(a: seq<T>, b: seq<T>)
    requires |b| > 0 && Subseq(a, b[1..])
    ensures Subseq(a, b)
    decreases |b|, |a|
  {
    if |a| > 0 && a[0] == b[0] {
      SubseqTail(a, b[1..]);
    }
  }

  /** Dropping the head of the smaller sequence keeps it a subsequence. */
  lemma {:induction false} SubseqTail<T>(a: seq<T>, b: seq<T>)
    requires |a| > 0 && Subseq(a, b)
    ensures Subseq(a[1..], b)
    decreases |b|, |a|
  {
    assert |b| > 0;
    if a[0] == b[0] {
      SubseqDropFront(a[1..], b);
    } else {
      SubseqTail(a, b[1..]);
      SubseqDropFront(a[1..], b);
    }
  }

  lemma {:induction false} WithoutConcat<T>(a: seq<T>, b: seq<T>, x: T)
    ensures Without(a + b, x) == Without(a, x) + Without(b, x)
    decreases |a|
  {
    if |a| > 0 {
      var ab := a + b;
      assert ab[0] == a[0] && ab[1..] == a[1..] + b;
      WithoutConcat(a[1..], b, x);
      if a[0] == x {
        assert Without(ab, x) == Without(a[1..] + b, x);
        assert Without(a, x) == Without(a[1..], x);
      } else {
        assert Without(ab, x) == [a[0]] + Without(a[1..] + b, x);
        assert Without(a, x) == [a[0]] + Without(a[1..], x);
        assert [a[0]] + (Without(a[1..], x) + Without(b, x)) == [a[0]] + Without(a[1..], x) + Without(b, x);
      }
    } else {
      assert a + b == b;
    }
  }

  lemma WithoutAbsent<T>(s: seq<T>, x: T)
    requires x !in s
    ensures Without(s, x) == s
  {
    if |s| > 0 {
      assert s == [s[0]] + s[1..];
      WithoutAbsent(s[1..], x);
    }
  }

  /** Removing the one occurrence of `x` between `a` and `b` leaves `a + b`. */
  lemma WithoutMiddle<T>(a: seq<T>, x: T, b: seq<T>)
    requires x !in a && x !in b
    ensures Without(a + ([x] + b), x) == a + b
  {
    var xb := [x] + b;
    assert xb[0] == x && xb[1..] == b;
    assert Without(xb, x) == Without(b, x);
    WithoutConcat(a, xb, x);
    WithoutAbsent(a, x);
    WithoutAbsent(b, x);
  }

  /** `remove` twice is `remove` once. */
  lemma WithoutIdempotent<T>(s: seq<T>, x: T)
    ensures Without(Without(s, x), x) == Without(s, x)
  {
    WithoutAbsent(Without(s, x), x);
  }

  /** Removing one occurrence of `x` at `i` does not change what `remove(x)` leaves. */
  lemma WithoutSplice<T>(s: seq<T>, i: nat, x: T)
    requires i < |s| && s[i] == x
    ensures Without(s[..i] + s[i + 1..], x) == Without(s, x)
  {
    var a, b := s[..i], s[i + 1..];
    var xb := [x] + b;
    assert s == a + xb by {
      assert s == s[..i] + s[i..];
      assert s[i..] == [s[i]] + s[i + 1..];
    }
    assert xb[0] == x && xb[1..] == b;
    calc {
      Without(s, x);
      { WithoutConcat(a, xb, x); }
      Without(a, x) + Without(xb, x);
      Without(a, x) + Without(b, x);
      { WithoutConcat(a, b, x); }
      Without(a + b, x);
    }
  }

  /** `arr.remove(item)`, following the source's loop: while `indexOf(item)` finds an
      occurrence, splice it out. The array then holds every other element, in order. */
  method Remove<T(==)>(a: seq<T>, x: T) returns (r: seq<T>)
    ensures x !in r
    ensures r == Without(a, x)
  {
    r := a;
    var i := IndexOf(r, x);
    while i != -1
      invariant -1 <= i < |r|
      invariant i == IndexOf(r, x)
      invariant Without(r, x) == Without(a, x)
      decreases |r|
    {
      WithoutSplice(r, i, x);
      r := r[..i] + r[i + 1..];
      i := IndexOf(r, x);
    }
    WithoutAbsent(r, x);
  }

  /** `arr.removeAll()`: `splice(0, length)` leaves the array empty. */
  function RemoveAll<T>(s: seq<T>): (r: seq<T>)
    ensures |r| == 0
  {
    s[|s|..]
  }

  /** `arr.removeAt(index)`: `splice(index, 1)`, which deletes the element at the normalised
      position when there is one. */
  function RemoveAt<T>(s: seq<T>, index: int): (r: seq<T>)
    ensures Clamp(|s|, index) < |s| ==> |r| == |s| - 1
    ensures Clamp(|s|, index) == |s| ==> r == s
    ensures forall j | 0 <= j < Clamp(|s|, index) && j < |r| :: r[j] == s[j]
    ensures forall j | Clamp(|s|, index) <= j < |r| :: r[j] == s[j + 1]
  {
    var k := Clamp(|s|, index);
    if k < |s| then s[..k] + s[k + 1..] else s
  }

  /** `arr.insertAt(item, index)`: `splice(index, 0, item)`; `item` lands at the normalised
      position and every later element moves one place right. */
  function InsertAt<T>(s: seq<T>, x: T, index: int): (r: seq<T>)
    ensures |r| == |s| + 1
    ensures r[Clamp(|s|, index)] == x
    ensures forall j | 0 <= j < Clamp(|s|, index) :: r[j] == s[j]
    ensures forall j | Clamp(|s|, index) <= j < |s| :: r[j + 1] == s[j]
    ensures multiset(r) == multiset(s) + multiset{x}
  {
    var k := Clamp(|s|, index);
    assert s == s[..k] + s[k..];
    s[..k] + [x] + s[k..]
  }

  /** `removeAt(i)` undoes `insertAt(x, i)` for every position inside the array. */
  lemma InsertRemoveRoundTrip<T>(s: seq<T>, x: T, i: int)
    requires 0 <= i <= |s|
    ensures RemoveAt(InsertAt(s, x, i), i) == s
  {
    var r := InsertAt(s, x, i);
    assert Clamp(|r|, i) == i;
    assert RemoveAt(r, i) == r[..i] + r[i + 1..];
    assert r[..i] == s[..i];
    assert r[i + 1..] == s[i..];
    assert s == s[..i] + s[i..];
  }

  /** `arr.itemAtWrappedIndex(i)`: `arr[i % arr.length]` with JavaScript's truncating `%`;
      `None` is `undefined` (a negative non-zero remainder, or an empty array, where the
      remainder is NaN). */
  function ItemAtWrappedIndex<T>(s: seq<T>, i: int): (r: Option<T>)
    ensures |s| > 0 && i >= 0 ==> r == Some(s[i % |s|])
    ensures |s| == 0 ==> r == None
    ensures i < 0 ==> (r.Some? <==> |s| > 0 && i % |s| == 0)
    ensures |s| > 0 && i < 0 && i % |s| == 0 ==> r == Some(s[0])
  {
    if |s| == 0 then None
    else
      var rem := if i >= 0 then i % |s| else -((-i) % |s|);
      if 0 <= rem < |s| then
        assert i < 0 ==> (rem == 0 <==> i % |s| == 0) by {
          if i < 0 { ModNegation(-i, |s|); }
        }
        Some(s[rem])
      else
        assert i < 0 && i % |s| != 0 by { ModNegation(-i, |s|); }
        None
  }

  lemma ModNegation(a: int, m: int)
    requires a >= 0 && m > 0
    ensures (a % m == 0) <==> ((-a) % m == 0)
  {
    var q, r := a / m, a % m;
    if r == 0 {
      assert -a == (-q) * m + 0;
      ModUnique(-a, -q, 0, m);
    } else {
      assert -a == (-q - 1) * m + (m - r);
      ModUnique(-a, -q - 1, m - r, m);
    }
  }

  /** The wrapped index repeats with the array's length as period. */
  lemma WrappedIndexPeriodic<T>(s: seq<T>, i: nat)
    requires |s| > 0
    ensures ItemAtWrappedIndex(s, i + |s|) == ItemAtWrappedIndex(s, i)
  {
    ModPeriod(i, |s|);
  }

  lemma ModPeriod(i: int, m: int)
    requires i >= 0 && m > 0
    ensures (i + m) % m == i % m
  {
    var q, r := i / m, i % m;
    assert i + m == (q + 1) * m + r;
    ModUnique(i + m, q + 1, r, m);
  }

  lemma ModUnique(x: int, q: int, r: int, m: int)
    requires m > 0 && 0 <= r < m && x == q * m + r
    ensures x % m == r
  {
    var q', r' := x / m, x % m;
    assert x == q' * m + r';
    var d := q - q';
    assert d * m == r' - r;
    if d >= 1 {
      MulAtLeast(d, m);
    } else if d <= -1 {
      MulAtLeast(-d, m);
    }
  }

  lemma MulAtLeast(k: int, m: int)
    requires k >= 1 && m > 0
    ensures k * m >= m
  {
    if k > 1 {
      MulAtLeast(k - 1, m);
      assert k * m == (k - 1) * m + m;
    }
  }

  /** Reference reversal: the element at `j` comes from position `|s| - 1 - j`. */
  function Reverse<T>(s: seq<T>): (r: seq<T>)
    ensures |r| == |s|
    ensures forall j | 0 <= j < |s| :: r[j] == s[|s| - 1 - j]
  {
    if |s| == 0 then [] else Reverse(s[1..]) + [s[0]]
  }

  /** `arr.reversed`: `slice().reverse()`, a reversed copy; the input value is untouched. */
  function Reversed<T>(s: seq<T>): (r: seq<T>)
    ensures |r| == |s|
    ensures forall j | 0 <= j < |s| :: r[j] == s[|s| - 1 - j]
  {
    var c := Slice(s, 0, None);
    assert c == s by {
      assert Clamp(|s|, 0) == 0;
    }
    Reverse(c)
  }

  /** Reversing twice gives the original back. */
  lemma ReversedInvolution<T>(s: seq<T>)
    ensures Reversed(Reversed(s)) == s
  {
    MirrorTwice(s, Reversed(s), Reversed(Reversed(s)));
  }

  /** Mirroring positions twice gives every element back at its own position. */
  lemma MirrorTwice<T>(s: seq<T>, r1: seq<T>, r: seq<T>)
    requires |r1| == |s| && forall j | 0 <= j < |s| :: r1[j] == s[|s| - 1 - j]
    requires |r| == |r1| && forall j | 0 <= j < |r1| :: r[j] == r1[|r1| - 1 - j]
    ensures r == s
  {
    forall j | 0 <= j < |s| ensures r[j] == s[j] {
      assert r[j] == r1[|s| - 1 - j];
    }
  }

  /** Element `j` of an array with holes, read as `undefined` (`None`) past the end. */
  function At<T>(s: seq<Option<T>>, j: nat): Option<T> {
    if j < |s| then s[j] else None
  }

  /** The array `s` grown to length `n` with holes, when it is shorter. */
  function Pad<T>(s: seq<Option<T>>, n: nat): (r: seq<Option<T>>)
    ensures |r| == if n <= |s| then |s| else n
    ensures forall j | 0 <= j < |r| :: r[j] == At(s, j)
  {
    if n <= |s| then s else s + seq(n - |s|, _ => None)
  }

  /** `arr.swap(a, b)`: exchanges the elements at `a` and `b`. The array holds `Option`s:
      `None` is a hole or `undefined`, which reading cannot tell apart. Assigning past the end
      grows the array, and the positions skipped become holes. */
  function Swap<T>(s: seq<Option<T>>, a: nat, b: nat): (r: seq<Option<T>>)
    ensures |r| == if a < |s| && b < |s| then |s| else if a < b then b + 1 else a + 1
    ensures r[a] == At(s, b) && r[b] == At(s, a)
    ensures forall j | 0 <= j < |r| && j != a && j != b :: r[j] == At(s, j)
  {
    var x := At(s, a);
    var y := At(s, b);
    Pad(s, if a < b then b + 1 else a + 1)[a := y][b := x]
  }

  /** Swapping twice gives back the array, grown by the first swap when an index was past its
      end, and exactly the array when both indices are inside it. */
  lemma SwapInvolution<T>(s: seq<Option<T>>, a: nat, b: nat)
    ensures var r := Swap(s, a, b); Swap(r, a, b) == Pad(s, |r|)
    ensures a < |s| && b < |s| ==> Swap(Swap(s, a, b), a, b) == s
  {
    var r := Swap(s, a, b);
    var p := Pad(s, |r|);
    var q := Swap(r, a, b);
    assert |q| == |r| == |p|;
    forall j | 0 <= j < |p| ensures q[j] == p[j] {
      assert p[j] == At(s, j);
      if j == a {
        assert q[j] == At(r, b) == r[b] == At(s, a);
      } else if j == b {
        assert q[j] == At(r, a) == r[a] == At(s, b);
      } else {
        assert q[j] == At(r, j) == r[j];
      }
    }
    assert q == p;
  }

  /** A swap inside the array only permutes it. */
  lemma SwapPermutes<T>(s: seq<Option<T>>, a: nat, b: nat)
    requires a < |s| && b < |s|
    ensures multiset(Swap(s, a, b)) == multiset(s)
  {
    var r := Swap(s, a, b);
    var t := s[a := s[b]];
    assert r == t[b := s[a]];
    assert multiset(t) == multiset(s) - multiset{s[a]} + multiset{s[b]};
    assert multiset(r) == multiset(t) - multiset{t[b]} + multiset{s[a]};
  }

  /** A value built by `join` with a non-string delimiter: one element, or an array. */
  datatype Nest = Item(v: Val) | List(items: seq<Nest>)

  /** What `arr.join(delim)` returns: a string, a value, or `undefined`. */
  datatype Joined = Text(s: string) | Value(n: Nest) | NoValue

  /** Decimal digits of a natural number. */
  function NatToDecimal(n: nat): string
    decreases n
  {
    var d := ['0', '1', '2', '3', '4', '5', '6', '7', '8', '9'][n % 10];
    if n < 10 then [d] else NatToDecimal(n / 10) + [d]
  }

  /** How `Array.prototype.join` turns an element into text. */
  function ToText(v: Val): string {
    match v
    case Undefined => ""
    case Null => ""
    case Bool(b) => if b then "true" else "false"
    case Num(n) => if n < 0 then "-" + NatToDecimal(-n) else NatToDecimal(n)
    case Str(t) => t
    case Ref(_) => "[object Object]"
  }

  /** The combined length of the parts. */
  function TotalLength(parts: seq<string>): nat {
    if |parts| == 0 then 0 else TotalLength(parts[..|parts| - 1]) + |parts[|parts| - 1]|
  }

  /** The built-in string join: the parts with `d` between consecutive ones. */
  function StrJoin(parts: seq<string>, d: string): (r: string)
    ensures |parts| == 1 ==> r == parts[0]
    ensures |parts| == 0 ==> r == ""
    ensures |parts| > 0 ==> |r| == TotalLength(parts) + (|parts| - 1) * |d|
  {
    if |parts| == 0 then ""
    else if |parts| == 1 then parts[0]
    else StrJoin(parts[..|parts| - 1], d) + d + parts[|parts| - 1]
  }

  function Texts(arr: seq<Val>): (r: seq<string>)
    ensures |r| == |arr|
    ensures forall i | 0 <= i < |arr| :: r[i] == ToText(arr[i])
  {
    seq(|arr|, i requires 0 <= i < |arr| => ToText(arr[i]))
  }

  /** The source's fold for a non-string delimiter, `reduce2(arr, (a, b) => [a].concat([delim, b]))`:
      the accumulator is wrapped, not spread, at every step. */
  function FoldAsWritten(acc: Nest, rest: seq<Val>, d: Val): (r: Nest)
    ensures |rest| > 0 ==> r.List? && |r.items| == 3 && r.items[1] == Item(d) && r.items[2] == Item(rest[|rest| - 1])
    decreases |rest|
  {
    if |rest| == 0 then acc
    else FoldAsWritten(List([acc, Item(d), Item(rest[0])]), rest[1..], d)
  }

  /** The fold nests from the left: its value is a three-item array whose first item is the
      fold of every element but the last, then the delimiter, then the last element. */
  lemma {:induction false} FoldAsWrittenLast(acc: Nest, rest: seq<Val>, d: Val)
    requires |rest| > 0
    ensures FoldAsWritten(acc, rest, d) ==
      List([FoldAsWritten(acc, rest[..|rest| - 1], d), Item(d), Item(rest[|rest| - 1])])
    decreases |rest|
  {
    var a := List([acc, Item(d), Item(rest[0])]);
    if |rest| == 1 {
      assert rest[1..] == [] && rest[..0] == [];
    } else {
      var init := rest[..|rest| - 1];
      FoldAsWrittenLast(a, rest[1..], d);
      assert rest[1..][..|rest[1..]| - 1] == init[1..];
      assert rest[1..][|rest[1..]| - 1] == rest[|rest| - 1];
      assert init[0] == rest[0];
      assert FoldAsWritten(acc, init, d) == FoldAsWritten(a, init[1..], d);
    }
  }

  /** `arr.join(delim)` as the source computes it. `None` is an absent delimiter (read as
      `''`); the value of `reduce2` on an empty array is taken to be `undefined`. */
  function JoinAsWritten(arr: seq<Val>, delim: Option<Val>): (r: Joined)
    ensures (delim.None? || delim.value.Str?) <==> r.Text?
    ensures delim.Some? && !delim.value.Str? && |arr| == 0 ==> r == NoValue
    ensures delim.Some? && !delim.value.Str? && |arr| == 1 ==> r == Value(Item(arr[0]))
    ensures delim.Some? && !delim.value.Str? && |arr| >= 2 ==> r.Value? && r.n.List? && |r.n.items| == 3
  {
    if delim.None? then Text(StrJoin(Texts(arr), ""))
    else if delim.value.Str? then Text(StrJoin(Texts(arr), delim.value.s))
    else if |arr| == 0 then NoValue
    else Value(FoldAsWritten(Item(arr[0]), arr[1..], delim.value))
  }

  /** The elements with `d` between consecutive ones. */
  function Interleave(arr: seq<Val>, d: Val): (r: seq<Val>)
    requires |arr| > 0
    ensures |r| == 2 * |arr| - 1
    ensures forall k | 0 <= k < |r| :: r[k] == if k % 2 == 0 then arr[k / 2] else d
  {
    if |arr| == 1 then arr
    else
      var rest := Interleave(arr[1..], d);
      assert forall k | 2 <= k < 2 + |rest| :: (k - 2) % 2 == k % 2 && (k - 2) / 2 == k / 2 - 1;
      [arr[0], d] + rest
  }

  /** `arr.join(delim)` with the behaviour the source evidently intends for a non-string
      delimiter: one flat array with the delimiter between consecutive elements, and a single
      element returned unchanged. */
  function Join(arr: seq<Val>, delim: Option<Val>): (r: Joined)
    ensures delim.None? ==> r == Text(StrJoin(Texts(arr), ""))
    ensures delim.Some? && delim.value.Str? ==> r == Text(StrJoin(Texts(arr), delim.value.s))
    ensures delim.Some? && !delim.value.Str? && |arr| == 1 ==> r == Value(Item(arr[0]))
    ensures delim.Some? && !delim.value.Str? && |arr| >= 2 ==>
      r.Value? && r.n.List? && |r.n.items| == 2 * |arr| - 1 &&
      forall k | 0 <= k < |r.n.items| ::
        r.n.items[k] == Item(if k % 2 == 0 then arr[k / 2] else delim.value)
  {
    if delim.None? || delim.value.Str? then JoinAsWritten(arr, delim)
    else if |arr| == 0 then NoValue
    else if |arr| == 1 then Value(Item(arr[0]))
    else
      var flat := Interleave(arr, delim.value);
      Value(List(seq(|flat|, k requires 0 <= k < |flat| => Item(flat[k]))))
  }

  /** Joining two non-empty runs of parts is joining each and putting one delimiter between:
      with the one-part case this fixes the string join completely. */
  lemma {:induction false} StrJoinConcat(a: seq<string>, b: seq<string>, d: string)
    requires |a| > 0 && |b| > 0
    ensures StrJoin(a + b, d) == StrJoin(a, d) + d + StrJoin(b, d)
    decreases |b|
  {
    var ab := a + b;
    if |b| == 1 {
      assert ab[..|ab| - 1] == a;
    } else {
      var b' := b[..|b| - 1];
      assert ab[..|ab| - 1] == a + b';
      assert b[..|b| - 1] == b';
      StrJoinConcat(a, b', d);
    }
  }

  /** In particular the first part comes first, then the delimiter, then the join of the rest. */
  lemma StrJoinCons(p: string, parts: seq<string>, d: string)
    requires |parts| > 0
    ensures StrJoin([p] + parts, d) == p + d + StrJoin(parts, d)
  {
    StrJoinConcat([p], parts, d);
  }

  /** With at most two elements the fold and the intended join agree, which is all the
      source's own assertions look at. */
  lemma JoinAgreesUpToTwo(arr: seq<Val>, delim: Option<Val>)
    requires |arr| <= 2
    ensures JoinAsWritten(arr, delim) == Join(arr, delim)
  {
    if delim.Some? && !delim.value.Str? && |arr| == 2 {
      var d := delim.value;
      var flat := Interleave(arr, d);
      assert flat == [arr[0], d, arr[1]];
      assert arr[1..][1..] == [];
      assert FoldAsWritten(Item(arr[0]), arr[1..], d) == List([Item(arr[0]), Item(d), Item(arr[1])]);
      var items := seq(|flat|, k requires 0 <= k < |flat| => Item(flat[k]));
      assert items == [Item(arr[0]), Item(d), Item(arr[1])];
    }
  }

  /** With three elements and a non-string delimiter, the source nests the first two
      elements in an inner array instead of interleaving flatly. */
  lemma JoinNestsThreeElements()
    ensures JoinAsWritten([Str("a"), Str("b"), Str("c")], Some(Num(777)))
         == Value(List([List([Item(Str("a")), Item(Num(777)), Item(Str("b"))]), Item(Num(777)), Item(Str("c"))]))
    ensures JoinAsWritten([Str("a"), Str("b"), Str("c")], Some(Num(777)))
         != Join([Str("a"), Str("b"), Str("c")], Some(Num(777)))
  {
    var arr := [Str("a"), Str("b"), Str("c")];
    assert arr[1..] == [Str("b"), Str("c")];
    assert arr[1..][1..] == [Str("c")];
    var r := Join(arr, Some(Num(777)));
    assert r.n.items[0] == Item(Str("a"));
  }

  /** For every array of three or more elements and every non-string delimiter, the source's
      fold differs from the flat join: its outer array always has three items. */
  lemma JoinNestsFromThree(arr: seq<Val>, d: Val)
    requires |arr| >= 3 && !d.Str?
    ensures JoinAsWritten(arr, Some(d)) != Join(arr, Some(d))
  {
    assert |Join(arr, Some(d)).n.items| == 2 * |arr| - 1;
  }
}

=== FILE: component.dfy ===
/** The `Component` engine of base/component.js: the parent/children hierarchy, the destroy
    state machine, the init chain with trait hooks, and the configuration step of the
    constructor. Component instances live in a table keyed by `CompId`; their streams and
    bound methods live in the shared stream world of `Streams`. */
module Components {
  import opened Js
  import ArrayExt
  import Registry
  import Streams

  type CompId = nat

  /** A lifecycle method: an ordinary one, or one in continuation-passing style that either
      calls its continuation before returning or never does. */
  datatype Hook = Sync(fn: FnId) | Cps(fn: FnId, completes: bool)

  /** The lifecycle methods a trait's prototype may carry. */
  datatype Trait = Trait(beforeInit: Option<Hook>, afterInit: Option<Hook>, destroy: Option<FnId>)

  /** Calling a stream with one argument: a function subscribes it, anything else is
      published. */
  datatype Action = Subscribe(stream: FnId, f: FnId) | Publish(stream: FnId, v: Val)

  datatype Instance = Instance(
    parent: Option<CompId>,     // `parent_`
    children: seq<CompId>,      // `children_`
    destroying: bool,           // `destroying_`
    destroyed: bool,            // `destroyed_`
    methods: seq<FnId>,         // what `enumMethods` visits: bound methods and stream members
    ownDestroy: FnId,           // the definition's own `destroy`
    ownInit: Hook,              // the prototype's `init`; `Cps` when it takes arguments
    traits: seq<Trait>,         // `$traits`, in order
    initialized: FnId,          // the `initialized` barrier
    afterInitActions: seq<Action>)  // the `cfg[name + 'Change']` listeners `_afterInit` binds

  /** The component table and the stream world the components' members live in. */
  datatype Sys = Sys(comps: map<CompId, Instance>, world: Streams.World)

  /** The exceptions the engine raises, and `Raised` for one a callback raised. */
  datatype Failure = SelfParent | AlreadyDestroyed | RecursiveDestroy | AlreadyInitialized | Raised

  /** The state after an operation, the user calls it made in order, and the exception that
      escaped, if any. State changes made before an exception are kept, as in the source. */
  datatype Res = Res(sys: Sys, trace: seq<Streams.Call>, error: Option<Failure>)

  // ---------------------------------------------------------------------------------------
  // Hierarchy

  /** Parent and children agree: a component's parent lists it, every listed child names the
      lister as its parent, and no child is listed twice. */
  ghost predicate Tree(m: map<CompId, Instance>) {
    ParentsList(m) && ChildrenName(m) && ChildrenNoDup(m)
  }

  ghost predicate ParentsList(m: map<CompId, Instance>) {
    forall c | c in m && m[c].parent.Some? :: m[c].parent.value in m && c in m[m[c].parent.value].children
  }

  ghost predicate ChildrenName(m: map<CompId, Instance>) {
    forall p, c | p in m && c in m[p].children :: c in m && m[c].parent == Some(p)
  }

  ghost predicate ChildrenNoDup(m: map<CompId, Instance>) {
    forall p | p in m :: NoDup(m[p].children)
  }

  /** Component `d` once `c` has moved from parent `from` to parent `to`: the old parent no
      longer lists `c` (`Array.remove`), `c` names the new parent, and the new parent lists it
      last (`push`). */
  function MovedNode(y: Instance, d: CompId, c: CompId, from: Option<CompId>, to: Option<CompId>): Instance {
    y.(parent := if d == c then to else y.parent,
       children := (if Some(d) == from then ArrayExt.Without(y.children, c) else y.children)
                   + (if Some(d) == to then [c] else []))
  }

  ghost predicate Moved(m0: map<CompId, Instance>, m: map<CompId, Instance>, c: CompId, p: Option<CompId>)
    requires c in m0
  {
    && m.Keys == m0.Keys
    && forall d | d in m0 :: m[d] == MovedNode(m0[d], d, c, m0[c].parent, p)
  }

  /** `c.attachTo(p)`; `p == None` is `undefined`. */
  function AttachTo(sys: Sys, c: CompId, p: Option<CompId>): (r: Res)
    requires c in sys.comps && (p.Some? ==> p.value in sys.comps)
    ensures r.sys.world == sys.world && r.sys.comps.Keys == sys.comps.Keys && r.trace == []
    ensures p == Some(c) ==> r == Res(sys, [], Some(SelfParent))
    ensures p != Some(c) ==> r.error.None? && r.sys.comps[c].parent == p
    ensures sys.comps[c].parent == p ==> r.sys == sys
    ensures p != Some(c) && sys.comps[c].parent != p ==> Moved(sys.comps, r.sys.comps, c, p)
  {
    if p == Some(c) then Res(sys, [], Some(SelfParent))
    else
      var from := sys.comps[c].parent;
      if from == p then Res(sys, [], None)
      else Res(sys.(comps := map d | d in sys.comps :: MovedNode(sys.comps[d], d, c, from, p)), [], None)
  }

  /** `c.detach()`. */
  function Detach(sys: Sys, c: CompId): (r: Res)
    requires c in sys.comps
    ensures r.sys.comps.Keys == sys.comps.Keys && r.error.None? && r.sys.comps[c].parent.None?
  {
    AttachTo(sys, c, None)
  }

  /** `p.attach(cs)`: `attachTo(p)` on each in order; `p` among `cs` raises there. */
  function Attach(sys: Sys, p: CompId, cs: seq<CompId>): (r: Res)
    requires p in sys.comps && forall c | c in cs :: c in sys.comps
    ensures r.sys.world == sys.world && r.sys.comps.Keys == sys.comps.Keys && r.trace == []
    ensures r.error.None? <==> p !in cs
    decreases |cs|
  {
    if |cs| == 0 then Res(sys, [], None)
    else
      var r1 := AttachTo(sys, cs[0], Some(p));
      if r1.error.Some? then r1 else Attach(r1.sys, p, cs[1..])
  }

  /** Sets `parent_` to `undefined` on every listed component. */
  function ClearParents(m: map<CompId, Instance>, cs: seq<CompId>): (m': map<CompId, Instance>)
    ensures m'.Keys == m.Keys
    ensures forall d | d in m :: m'[d] == if d in cs then m[d].(parent := None) else m[d]
    decreases |cs|
  {
    if |cs| == 0 then m
    else if cs[0] in m then ClearParents(m[cs[0] := m[cs[0]].(parent := None)], cs[1..])
    else ClearParents(m, cs[1..])
  }

  /** `p.detachAll()`. */
  function DetachAll(sys: Sys, p: CompId): (r: Res)
    requires p in sys.comps
    ensures r.error.None? && r.trace == [] && r.sys.world == sys.world
    ensures r.sys.comps.Keys == sys.comps.Keys && r.sys.comps[p].children == []
    ensures forall c | c in sys.comps[p].children && c in sys.comps :: r.sys.comps[c].parent.None?
    ensures Released(sys.comps, r.sys.comps, p)
  {
    var m := ClearParents(sys.comps, sys.comps[p].children);
    Res(sys.(comps := m[p := m[p].(children := [])]), [], None)
  }

  /** `attachTo` keeps the hierarchy consistent; afterwards `p` lists `c`. */
  lemma AttachToTree(sys: Sys, c: CompId, p: Option<CompId>)
    requires c in sys.comps && (p.Some? ==> p.value in sys.comps) && Tree(sys.comps)
    ensures Tree(AttachTo(sys, c, p).sys.comps)
    ensures p.Some? && p != Some(c) ==> c in AttachTo(sys, c, p).sys.comps[p.value].children
  {
    var x := sys.comps[c];
    if p != Some(c) && x.parent != p {
      var m := AttachTo(sys, c, p).sys.comps;
      MovedParents(sys.comps, m, c, p);
      MovedChildren(sys.comps, m, c, p);
      MovedNoDup(sys.comps, m, c, p);
    }
  }

  lemma MovedParents(m0: map<CompId, Instance>, m: map<CompId, Instance>, c: CompId, p: Option<CompId>)
    requires c in m0 && (p.Some? ==> p.value in m0) && ParentsList(m0) && p != Some(c) && m0[c].parent != p && Moved(m0, m, c, p)
    ensures ParentsList(m)
  {
    forall d | d in m && m[d].parent.Some?
      ensures m[d].parent.value in m && d in m[m[d].parent.value].children
    {
      if d != c {
        var q := m0[d].parent.value;
        assert d in m0[q].children;
        if Some(q) == m0[c].parent {
          assert d in ArrayExt.Without(m0[q].children, c);
        }
      }
    }
  }

  lemma MovedChildren(m0: map<CompId, Instance>, m: map<CompId, Instance>, c: CompId, p: Option<CompId>)
    requires c in m0 && ChildrenName(m0) && p != Some(c) && m0[c].parent != p && Moved(m0, m, c, p)
    ensures ChildrenName(m)
  {
    var from := m0[c].parent;
    forall q, d | q in m && d in m[q].children
      ensures d in m && m[d].parent == Some(q)
    {
      assert m[q] == MovedNode(m0[q], q, c, from, p);
      MovedNodeChild(m0[q], q, c, from, p, d);
      if d == c {
        assert m[c] == MovedNode(m0[c], c, c, from, p);
      } else {
        assert m0[d].parent == Some(q);
        assert m[d] == MovedNode(m0[d], d, c, from, p);
      }
    }
  }

  /** A child of a node after the move was its child before, or is `c` arriving at `to`. */
  lemma MovedNodeChild(y: Instance, q: CompId, c: CompId, from: Option<CompId>, to: Option<CompId>, d: CompId)
    requires d in MovedNode(y, q, c, from, to).children
    ensures (d == c && Some(q) == to) || (d in y.children && (Some(q) == from ==> d != c))
  {
    if Some(q) == from {
      Registry.WithoutMembers(y.children, c, d);
    }
  }

  lemma MovedNoDup(m0: map<CompId, Instance>, m: map<CompId, Instance>, c: CompId, p: Option<CompId>)
    requires c in m0 && ChildrenName(m0) && ChildrenNoDup(m0) && p != Some(c) && m0[c].parent != p && Moved(m0, m, c, p)
    ensures ChildrenNoDup(m)
  {
    forall q | q in m
      ensures NoDup(m[q].children)
    {
      var a := if Some(q) == m0[c].parent then ArrayExt.Without(m0[q].children, c) else m0[q].children;
      assert NoDup(a) by {
        if Some(q) == m0[c].parent { Registry.WithoutNoDup(m0[q].children, c); }
      }
      if Some(q) == p {
        assert c !in a;
        AppendNoDup(a, c);
      }
    }
  }

  lemma AppendNoDup(a: seq<CompId>, c: CompId)
    requires NoDup(a) && c !in a
    ensures NoDup(a + [c])
  {
    var s := a + [c];
    assert forall i | 0 <= i < |a| :: s[i] == a[i];
  }

  /** `attach(cs)` keeps the hierarchy consistent, and when it returns normally every listed
      component is a child of `p`. */
  lemma {:induction false} AttachTree(sys: Sys, p: CompId, cs: seq<CompId>)
    requires p in sys.comps && (forall c | c in cs :: c in sys.comps) && Tree(sys.comps)
    ensures Tree(Attach(sys, p, cs).sys.comps)
    ensures Attach(sys, p, cs).error.None? ==> forall c | c in cs :: c in Attach(sys, p, cs).sys.comps[p].children
    decreases |cs|
  {
    if |cs| > 0 {
      var r1 := AttachTo(sys, cs[0], Some(p));
      AttachToTree(sys, cs[0], Some(p));
      if r1.error.None? {
        AttachTree(r1.sys, p, cs[1..]);
        var r := Attach(r1.sys, p, cs[1..]);
        if r.error.None? {
          assert cs[0] in r.sys.comps[p].children by {
            assert r.sys.comps[cs[0]].parent == Some(p) by {
              StaysAttached(r1.sys, p, cs[1..], cs[0]);
            }
          }
          assert forall c | c in cs :: c == cs[0] || c in cs[1..];
        }
      }
    }
  }

  /** Attaching other components to `p` never takes away `c`'s parent `p`. */
  lemma {:induction false} StaysAttached(sys: Sys, p: CompId, cs: seq<CompId>, c: CompId)
    requires p in sys.comps && (forall d | d in cs :: d in sys.comps) && c in sys.comps && sys.comps[c].parent == Some(p)
    ensures Attach(sys, p, cs).sys.comps[c].parent == Some(p)
    decreases |cs|
  {
    if |cs| > 0 {
      var r1 := AttachTo(sys, cs[0], Some(p));
      if r1.error.None? {
        if cs[0] != c && sys.comps[cs[0]].parent != Some(p) {
          assert r1.sys.comps[c] == MovedNode(sys.comps[c], c, cs[0], sys.comps[cs[0]].parent, Some(p));
        }
        StaysAttached(r1.sys, p, cs[1..], c);
      }
    }
  }

  /** `detach()` keeps the hierarchy consistent, and the former parent no longer lists `c`. */
  lemma DetachTree(sys: Sys, c: CompId)
    requires c in sys.comps && Tree(sys.comps)
    ensures Tree(Detach(sys, c).sys.comps)
    ensures forall q | q in sys.comps :: c !in Detach(sys, c).sys.comps[q].children
  {
    AttachToTree(sys, c, None);
  }

  /** `m` is `m0` after `p` let go of all its children. */
  ghost predicate Released(m0: map<CompId, Instance>, m: map<CompId, Instance>, p: CompId)
    requires p in m0
  {
    && m.Keys == m0.Keys
    && forall d | d in m0 ::
      m[d] == m0[d].(parent := if d in m0[p].children then None else m0[d].parent,
                     children := if d == p then [] else m0[d].children)
  }

  /** `detachAll()` keeps the hierarchy consistent. */
  lemma DetachAllTree(sys: Sys, p: CompId)
    requires p in sys.comps && Tree(sys.comps)
    ensures Tree(DetachAll(sys, p).sys.comps)
  {
    var m := DetachAll(sys, p).sys.comps;
    assert Released(sys.comps, m, p);
    ReleasedParents(sys.comps, m, p);
    ReleasedChildren(sys.comps, m, p);
  }

  lemma ReleasedParents(m0: map<CompId, Instance>, m: map<CompId, Instance>, p: CompId)
    requires p in m0 && ParentsList(m0) && Released(m0, m, p)
    ensures ParentsList(m)
  {
    forall d | d in m && m[d].parent.Some?
      ensures m[d].parent.value in m && d in m[m[d].parent.value].children
    {
      assert d !in m0[p].children && m0[d].parent == m[d].parent;
      var q := m0[d].parent.value;
      assert d in m0[q].children;
      assert q != p;
    }
  }

  lemma ReleasedChildren(m0: map<CompId, Instance>, m: map<CompId, Instance>, p: CompId)
    requires p in m0 && ChildrenName(m0) && Released(m0, m, p)
    ensures ChildrenName(m)
  {
    forall q, d | q in m && d in m[q].children
      ensures d in m && m[d].parent == Some(q)
    {
      assert q != p && d in m0[q].children;
      assert m0[d].parent == Some(q);
      assert d !in m0[p].children;
    }
  }

  /** A second `detachAll()` changes nothing. */
  lemma DetachAllTwice(sys: Sys, p: CompId)
    requires p in sys.comps
    ensures var r := DetachAll(sys, p); DetachAll(r.sys, p) == Res(r.sys, [], None)
  {
    var r := DetachAll(sys, p);
    var m := ClearParents(r.sys.comps, []);
    assert m == r.sys.comps;
    assert m[p := m[p].(children := [])] == m;
  }

  // ---------------------------------------------------------------------------------------
  // Destroy

  /** Neither being destroyed nor destroyed. */
  predicate Alive(x: Instance) {
    !x.destroying && !x.destroyed
  }

  ghost function Live(sys: Sys): set<CompId> {
    set c | c in sys.comps && Alive(sys.comps[c])
  }

  /** What a destroy step may do: change only components it leaves not alive, and on the
      stream side only drop subscriptions. */
  ghost predicate Settles(s: Sys, s': Sys) {
    && s'.comps.Keys == s.comps.Keys
    && (forall d | d in s.comps && !Alive(s.comps[d]) :: s'.comps[d] == s.comps[d])
    && (forall d | d in s.comps && Alive(s'.comps[d]) :: s'.comps[d] == s.comps[d])
    && Live(s') <= Live(s)
    && Quiets(s.world, s'.world)
  }

  /** The stream world only loses subscriptions. */
  ghost predicate Quiets(w: Streams.World, w': Streams.World) {
    && w' == w.(reg := w'.reg)
    && w'.reg.queues.Keys == w.reg.queues.Keys
    && w'.reg.queuedBy.Keys <= w.reg.queuedBy.Keys
    && (Registry.Consistent(w.reg) ==> Registry.Consistent(w'.reg))
    && (forall t, g | Registry.Subscribed(w'.reg, t, g) :: Registry.Subscribed(w.reg, t, g))
  }

  /** `this.enumMethods(_.off)`: `_.off(fn, name, def)` on every method and stream member. */
  function OffMethods(r: Registry.Registry, ms: seq<FnId>): (r': Registry.Registry)
    ensures r'.queues.Keys == r.queues.Keys
    ensures forall m | m in ms :: m !in r'.queuedBy
    ensures r'.queuedBy.Keys <= r.queuedBy.Keys
    decreases |ms|
  {
    if |ms| == 0 then r
    else OffMethods(Registry.Off(r, ms[0], Registry.NonFunction), ms[1..])
  }

  lemma {:induction false} OffMethodsQuiets(w: Streams.World, ms: seq<FnId>)
    ensures Quiets(w, w.(reg := OffMethods(w.reg, ms)))
    decreases |ms|
  {
    if |ms| > 0 {
      var r1 := Registry.Off(w.reg, ms[0], Registry.NonFunction);
      OffMethodsQuiets(w.(reg := r1), ms[1..]);
      if Registry.Consistent(w.reg) { Registry.OffConsistent(w.reg, ms[0], Registry.NonFunction); }
      forall t, g | Registry.Subscribed(r1, t, g) ensures Registry.Subscribed(w.reg, t, g) {
        Registry.OffOnlyRemoves(w.reg, ms[0], Registry.NonFunction, t, g);
      }
    }
  }

  /** The calls of the traits' `destroy` methods, in `$traits` order. */
  function TraitDestroys(ts: seq<Trait>): (cs: seq<Streams.Call>)
    ensures forall c | c in cs :: c.args == [] && exists t | t in ts :: t.destroy == Some(c.fn)
    ensures forall t | t in ts && t.destroy.Some? :: Streams.Call(t.destroy.value, []) in cs
  {
    if |ts| == 0 then []
    else (if ts[0].destroy.Some? then [Streams.Call(ts[0].destroy.value, [])] else []) + TraitDestroys(ts[1..])
  }

  /** `x` at the end of a successful destroy. */
  function Finished(x: Instance): Instance {
    x.(children := [], destroying := false, parent := None, destroyed := true)
  }

  /** `c.destroy()`: `beforeDestroy` (the guards, unbinding, the children), the definition's
      own `destroy`, then `afterDestroy` (the traits' `destroy`, then the flags). */
  function Destroy(sys: Sys, c: CompId): (r: Res)
    requires c in sys.comps
    ensures Settles(sys, r.sys)
    ensures sys.comps[c].destroyed ==> r == Res(sys, [], Some(AlreadyDestroyed))
    ensures sys.comps[c].destroying && !sys.comps[c].destroyed ==> r == Res(sys, [], Some(RecursiveDestroy))
    ensures Alive(sys.comps[c]) && r.error.Some? ==> r.sys.comps[c] == sys.comps[c].(destroying := true)
    ensures r.error.None? ==> r.sys.comps[c] == Finished(sys.comps[c])
    ensures r.error.None? ==> forall m | m in sys.comps[c].methods :: m !in r.sys.world.reg.queuedBy
    ensures r.error.None? ==> forall d | d in sys.comps[c].children && d in sys.comps :: r.sys.comps[d].destroyed
    ensures r.error.None? ==>
      var tail := [Streams.Call(sys.comps[c].ownDestroy, [])] + TraitDestroys(sys.comps[c].traits);
      |r.trace| >= |tail| && r.trace[|r.trace| - |tail|..] == tail
    decreases Live(sys), 0, 0
  {
    var x := sys.comps[c];
    if x.destroyed then Res(sys, [], Some(AlreadyDestroyed))
    else if x.destroying then Res(sys, [], Some(RecursiveDestroy))
    else
      OffMethodsQuiets(sys.world, x.methods);
      var s1 := Sys(sys.comps[c := x.(destroying := true)], sys.world.(reg := OffMethods(sys.world.reg, x.methods)));
      assert Live(s1) == Live(sys) - {c};
      var rc := DestroyChildren(s1, x.children);
      if rc.error.Some? then rc
      else
        var tail := [Streams.Call(x.ownDestroy, [])] + TraitDestroys(x.traits);
        var r := Res(rc.sys.(comps := rc.sys.comps[c := Finished(x)]), rc.trace + tail, None);
        assert r.trace[|r.trace| - |tail|..] == tail;
        assert Live(r.sys) == Live(rc.sys);
        r
  }

  /** `_.each(this.children_, _.method('destroy'))`: the first exception ends the loop. */
  function DestroyChildren(s: Sys, cs: seq<CompId>): (r: Res)
    ensures Settles(s, r.sys)
    ensures r.error.None? ==> forall d | d in cs && d in s.comps :: r.sys.comps[d].destroyed
    ensures (exists d | d in cs && d in s.comps :: !Alive(s.comps[d])) ==> r.error.Some?
    decreases Live(s), 1, |cs|
  {
    if |cs| == 0 then Res(s, [], None)
    else if cs[0] !in s.comps then DestroyChildren(s, cs[1..])
    else
      var r1 := Destroy(s, cs[0]);
      if r1.error.Some? then r1
      else
        var r2 := DestroyChildren(r1.sys, cs[1..]);
        Res(r2.sys, r1.trace + r2.trace, r2.error)
  }

  /** The loop of `destroyAll()`: `c.parent_ = undefined; c.destroy()` for each child in
      order; the first exception ends it. */
  function DestroyEach(s: Sys, cs: seq<CompId>): (r: Res)
    ensures r.sys.comps.Keys == s.comps.Keys && Quiets(s.world, r.sys.world)
    ensures forall d | d in s.comps && s.comps[d].destroyed :: r.sys.comps[d].destroyed
    ensures forall d | d in s.comps && s.comps[d].destroyed && s.comps[d].parent.None? ::
      r.sys.comps[d].destroyed && r.sys.comps[d].parent.None?
    ensures r.error.None? ==> forall d | d in cs && d in s.comps :: r.sys.comps[d].destroyed && r.sys.comps[d].parent.None?
    decreases |cs|
  {
    if |cs| == 0 then Res(s, [], None)
    else if cs[0] !in s.comps then DestroyEach(s, cs[1..])
    else
      var s1 := s.(comps := s.comps[cs[0] := s.comps[cs[0]].(parent := None)]);
      var r1 := Destroy(s1, cs[0]);
      if r1.error.Some? then r1
      else
        var r2 := DestroyEach(r1.sys, cs[1..]);
        Res(r2.sys, r1.trace + r2.trace, r2.error)
  }

  /** `p.destroyAll()`. */
  function DestroyAll(sys: Sys, p: CompId): (r: Res)
    requires p in sys.comps
    ensures r.sys.comps.Keys == sys.comps.Keys && Quiets(sys.world, r.sys.world)
    ensures r.error.None? ==> r.sys.comps[p].children == []
    ensures r.error.None? ==> forall c | c in sys.comps[p].children && c in sys.comps ::
      r.sys.comps[c].destroyed && r.sys.comps[c].parent.None?
  {
    var r := DestroyEach(sys, sys.comps[p].children);
    if r.error.Some? then r
    else Res(r.sys.(comps := r.sys.comps[p := r.sys.comps[p].(children := [])]), r.trace, None)
  }

  /** A second `destroyAll()` changes nothing and calls nothing. */
  lemma DestroyAllTwice(sys: Sys, p: CompId)
    requires p in sys.comps && DestroyAll(sys, p).error.None?
    ensures var r := DestroyAll(sys, p); DestroyAll(r.sys, p) == Res(r.sys, [], None)
  {
    var r := DestroyAll(sys, p);
    assert r.sys.comps[p := r.sys.comps[p].(children := [])] == r.sys.comps;
  }

  /** After `destroy()`, none of the component's methods or stream members is subscribed to
      any stream. */
  lemma DestroyUnsubscribes(sys: Sys, c: CompId)
    requires c in sys.comps && Registry.Consistent(sys.world.reg) && Destroy(sys, c).error.None?
    ensures forall m, s | m in sys.comps[c].methods :: !Registry.Subscribed(Destroy(sys, c).sys.world.reg, s, m)
  {
    var r := Destroy(sys, c).sys.world.reg;
    forall m | m in sys.comps[c].methods ensures forall s :: !Registry.Subscribed(r, s, m) {
      Registry.UnindexedUnsubscribed(r, m);
    }
  }

  /** A destroyed component's method is not called by a later publish on a `trigger` whose
      subscribers are ordinary callbacks. */
  lemma DestroyedMethodNotCalled(sys: Sys, c: CompId, t: FnId, args: seq<Val>)
    requires c in sys.comps && Registry.Consistent(sys.world.reg) && Destroy(sys, c).error.None?
    requires var w := Destroy(sys, c).sys.world;
      Streams.IsStream(w, t) && w.policies[t] == Streams.Trigger && Streams.AllPlain(w, Registry.QueueOf(w.reg, t))
    ensures var w := Destroy(sys, c).sys.world;
      forall k | 0 <= k < |Streams.Write(w, t, args).trace| :: Streams.Write(w, t, args).trace[k].fn !in sys.comps[c].methods
  {
    var w := Destroy(sys, c).sys.world;
    DestroyUnsubscribes(sys, c);
    Streams.TriggerPublish(w, t, args);
    var q := Registry.QueueOf(w.reg, t);
    forall k | 0 <= k < |q| ensures q[k] !in sys.comps[c].methods {
      assert Registry.Subscribed(w.reg, t, q[k]);
    }
  }

  /** Destroying a child and then its parent raises: `afterDestroy` does not take the child
      out of the parent's `children_`, and the parent's destroy reaches it again. */
  lemma DestroyChildThenParent(sys: Sys, p: CompId, c: CompId)
    requires p in sys.comps && c in sys.comps && c in sys.comps[p].children
    requires Destroy(sys, c).error.None?
    ensures Destroy(Destroy(sys, c).sys, p).error.Some?
  {
    var s1 := Destroy(sys, c).sys;
    if Alive(s1.comps[p]) {
      assert s1.comps[p] == sys.comps[p];
      var s2 := s1.(comps := s1.comps[p := s1.comps[p].(destroying := true)], world := s1.world.(reg := OffMethods(s1.world.reg, s1.comps[p].methods)));
      assert c != p;
      assert c in s1.comps[p].children && !Alive(s2.comps[c]);
    }
  }

  /** A destroy that raised part-way leaves the component marked as being destroyed, so
      every later `destroy()` raises the recursion error. */
  lemma DestroyFailureSticks(sys: Sys, c: CompId)
    requires c in sys.comps && Alive(sys.comps[c]) && Destroy(sys, c).error.Some?
    ensures Destroy(Destroy(sys, c).sys, c) == Res(Destroy(sys, c).sys, [], Some(RecursiveDestroy))
  {
  }

  /** A second `destroy()` raises and changes nothing. */
  lemma DestroyTwice(sys: Sys, c: CompId)
    requires c in sys.comps && Destroy(sys, c).error.None?
    ensures Destroy(Destroy(sys, c).sys, c) == Res(Destroy(sys, c).sys, [], Some(AlreadyDestroyed))
  {
  }

  /** `q` with every occurrence of every element of `ms` removed. */
  function WithoutAll(q: seq<FnId>, ms: seq<FnId>): (r: seq<FnId>)
    ensures forall g :: g in r <==> g in q && g !in ms
    decreases |ms|
  {
    if |ms| == 0 then q else WithoutAll(ArrayExt.Without(q, ms[0]), ms[1..])
  }

  /** Unbinding the members takes exactly the members out of every queue. */
  lemma {:induction false} OffMethodsQueues(r: Registry.Registry, ms: seq<FnId>, t: FnId)
    requires Registry.Consistent(r)
    ensures Registry.QueueOf(OffMethods(r, ms), t) == WithoutAll(Registry.QueueOf(r, t), ms)
    decreases |ms|
  {
    if |ms| > 0 {
      var r1 := Registry.Off(r, ms[0], Registry.NonFunction);
      Registry.OffNonFunction(r, ms[0]);
      Registry.OffConsistent(r, ms[0], Registry.NonFunction);
      OffMethodsQueues(r1, ms[1..], t);
    }
  }

  /** Destroying a component without children takes its members out of every queue and
      nothing else: subscribers of the component's own streams stay subscribed. */
  lemma DestroyLeafQueues(sys: Sys, c: CompId, t: FnId)
    requires c in sys.comps && Alive(sys.comps[c]) && sys.comps[c].children == []
    requires Registry.Consistent(sys.world.reg)
    ensures Destroy(sys, c).error.None?
    ensures Registry.QueueOf(Destroy(sys, c).sys.world.reg, t) == WithoutAll(Registry.QueueOf(sys.world.reg, t), sys.comps[c].methods)
  {
    var x := sys.comps[c];
    OffMethodsQueues(sys.world.reg, x.methods, t);
  }

  /** A subscriber of one of the component's streams that is not itself a member of the
      component is still subscribed after the component is destroyed. */
  lemma DestroyKeepsOwnStreamSubscribers(sys: Sys, c: CompId, s: FnId, g: FnId)
    requires c in sys.comps && Alive(sys.comps[c]) && sys.comps[c].children == []
    requires Registry.Consistent(sys.world.reg)
    requires s in sys.comps[c].methods && Registry.Subscribed(sys.world.reg, s, g) && g !in sys.comps[c].methods
    ensures Registry.Subscribed(Destroy(sys, c).sys.world.reg, s, g)
  {
    DestroyLeafQueues(sys, c, s);
  }

  // ---------------------------------------------------------------------------------------
  // Init

  /** Calling one stream with one argument. */
  function Apply(w: Streams.World, a: Action): (o: Streams.Outcome)
    requires Streams.IsStream(w, a.stream)
    ensures o.world.reg.queues.Keys == w.reg.queues.Keys && o.world.policies.Keys == w.policies.Keys
    ensures o.world.behaviours == w.behaviours
    ensures forall t | t in w.policies && w.policies[t].Barrier? && w.policies[t].already ::
      o.world.policies[t] == w.policies[t]
  {
    match a
    case Subscribe(s, f) => Streams.Read(w, s, f)
    case Publish(s, v) => Streams.WriteKeepsOpenBarriers(w, s, [v]); Streams.Write(w, s, [v])
  }

  /** Performs the actions in order; an exception ends the run. */
  function RunActions(w: Streams.World, acts: seq<Action>): (o: Streams.Outcome)
    requires forall a | a in acts :: Streams.IsStream(w, a.stream)
    ensures o.world.reg.queues.Keys == w.reg.queues.Keys && o.world.policies.Keys == w.policies.Keys
    ensures o.world.behaviours == w.behaviours
    ensures forall t | t in w.policies && w.policies[t].Barrier? && w.policies[t].already ::
      o.world.policies[t] == w.policies[t]
    decreases |acts|
  {
    if |acts| == 0 then Streams.Outcome(w, [], false)
    else
      var o1 := Apply(w, acts[0]);
      if o1.thrown then o1
      else
        assert forall a | a in acts[1..] :: a in acts && Streams.IsStream(w, a.stream);
        assert forall a | a in acts[1..] :: a.stream in o1.world.policies.Keys && a.stream in o1.world.reg.queues.Keys;
        var o2 := RunActions(o1.world, acts[1..]);
        Streams.Outcome(o2.world, o1.trace + o2.trace, o2.thrown)
  }

  /** A hook hands control on: an ordinary method always does (`asContinuation`), a CPS one
      only if it calls its continuation. */
  predicate Completes(h: Hook) {
    h.Sync? || h.completes
  }

  /** One call of each hook, in order. */
  function HookCalls(hs: seq<Hook>): (cs: seq<Streams.Call>)
    ensures |cs| == |hs| && forall i | 0 <= i < |hs| :: cs[i] == Streams.Call(hs[i].fn, [])
  {
    seq(|hs|, i requires 0 <= i < |hs| => Streams.Call(hs[i].fn, []))
  }

  /** The `beforeInit` methods of the traits that have one, in `$traits` order. */
  function BeforeHooks(ts: seq<Trait>): (hs: seq<Hook>)
    ensures forall h | h in hs :: exists t | t in ts :: t.beforeInit == Some(h)
    ensures forall t | t in ts && t.beforeInit.Some? :: t.beforeInit.value in hs
  {
    if |ts| == 0 then []
    else (if ts[0].beforeInit.Some? then [ts[0].beforeInit.value] else []) + BeforeHooks(ts[1..])
  }

  /** The `afterInit` methods of the traits that have one, in `$traits` order. */
  function AfterHooks(ts: seq<Trait>): (hs: seq<Hook>)
    ensures forall h | h in hs :: exists t | t in ts :: t.afterInit == Some(h)
    ensures forall t | t in ts && t.afterInit.Some? :: t.afterInit.value in hs
  {
    if |ts| == 0 then []
    else (if ts[0].afterInit.Some? then [ts[0].afterInit.value] else []) + AfterHooks(ts[1..])
  }

  /** The traits' `beforeInit` methods follow `$traits` order: those of two runs of traits,
      one after the other, are the first run's followed by the second's. */
  lemma {:induction false} BeforeHooksConcat(a: seq<Trait>, b: seq<Trait>)
    ensures BeforeHooks(a + b) == BeforeHooks(a) + BeforeHooks(b)
    decreases |a|
  {
    if |a| > 0 {
      assert (a + b)[0] == a[0] && (a + b)[1..] == a[1..] + b;
      BeforeHooksConcat(a[1..], b);
    } else {
      assert a + b == b;
    }
  }

  /** The traits' `afterInit` methods follow `$traits` order. */
  lemma {:induction false} AfterHooksConcat(a: seq<Trait>, b: seq<Trait>)
    ensures AfterHooks(a + b) == AfterHooks(a) + AfterHooks(b)
    decreases |a|
  {
    if |a| > 0 {
      assert (a + b)[0] == a[0] && (a + b)[1..] == a[1..] + b;
      AfterHooksConcat(a[1..], b);
    } else {
      assert a + b == b;
    }
  }

  /** The traits' `destroy` methods are called in `$traits` order. */
  lemma {:induction false} TraitDestroysConcat(a: seq<Trait>, b: seq<Trait>)
    ensures TraitDestroys(a + b) == TraitDestroys(a) + TraitDestroys(b)
    decreases |a|
  {
    if |a| > 0 {
      assert (a + b)[0] == a[0] && (a + b)[1..] == a[1..] + b;
      TraitDestroysConcat(a[1..], b);
    } else {
      assert a + b == b;
    }
  }

  /** One trait contributes its own lifecycle methods, if it has them. */
  lemma TraitMethodsSingle(t: Trait)
    ensures BeforeHooks([t]) == if t.beforeInit.Some? then [t.beforeInit.value] else []
    ensures AfterHooks([t]) == if t.afterInit.Some? then [t.afterInit.value] else []
    ensures TraitDestroys([t]) == if t.destroy.Some? then [Streams.Call(t.destroy.value, [])] else []
  {
    assert [t][1..] == [];
  }

  /** The calls a chain made and whether its final continuation was reached. */
  datatype Chain = Chain(trace: seq<Streams.Call>, reached: bool)

  /** The position of the first hook that does not hand control on, `|hs|` if none. */
  function FirstStuck(hs: seq<Hook>): (k: nat)
    ensures k <= |hs| && (forall j | 0 <= j < k :: Completes(hs[j])) && (k < |hs| ==> !Completes(hs[k]))
  {
    if |hs| == 0 || !Completes(hs[0]) then 0 else FirstStuck(hs[1..]) + 1
  }

  /** How many hooks of a chain run. */
  function Ran(hs: seq<Hook>, cps: bool): nat {
    if !cps || FirstStuck(hs) == |hs| then |hs| else FirstStuck(hs) + 1
  }

  /** `callTraitsMethod(name, then)`: in CPS style (`cps`) the chain stops at the first hook
      that does not call its continuation; in sequential style every hook runs. */
  function RunChain(hs: seq<Hook>, cps: bool): (c: Chain)
    ensures |c.trace| <= |hs| && (!cps ==> c.reached)
    ensures c.reached ==> |c.trace| == |hs|
    decreases |hs|
  {
    if |hs| == 0 then Chain([], true)
    else
      var first := [Streams.Call(hs[0].fn, [])];
      if cps && !Completes(hs[0]) then Chain(first, false)
      else
        var rest := RunChain(hs[1..], cps);
        Chain(first + rest.trace, rest.reached)
  }

  /** A chain reaches its end exactly when it is sequential or every hook completes. */
  lemma {:induction false} RunChainReached(hs: seq<Hook>, cps: bool)
    ensures RunChain(hs, cps).reached <==> !cps || forall h | h in hs :: Completes(h)
    decreases |hs|
  {
    if |hs| > 0 && !(cps && !Completes(hs[0])) {
      RunChainReached(hs[1..], cps);
      assert forall h | h in hs :: h == hs[0] || h in hs[1..];
    }
  }

  /** A chain calls its hooks in order up to and including the first that does not complete
      (all of them in sequential style). */
  lemma {:induction false} RunChainTrace(hs: seq<Hook>, cps: bool)
    ensures Ran(hs, cps) <= |hs| && RunChain(hs, cps).trace == HookCalls(hs[..Ran(hs, cps)])
    decreases |hs|
  {
    if |hs| > 0 {
      var first := [Streams.Call(hs[0].fn, [])];
      if cps && !Completes(hs[0]) {
        assert hs[..1] == [hs[0]];
      } else {
        RunChainTrace(hs[1..], cps);
        assert Ran(hs, cps) == Ran(hs[1..], cps) + 1;
        assert hs[..Ran(hs, cps)] == [hs[0]] + hs[1..][..Ran(hs[1..], cps)];
        assert HookCalls(hs[..Ran(hs, cps)]) == first + HookCalls(hs[1..][..Ran(hs[1..], cps)]);
      }
    }
  }

  /** A chain calls its hooks in order up to and including the first that does not complete
      (all of them in sequential style), and reaches its end exactly when it is sequential or
      every hook completes. */
  lemma RunChainSpec(hs: seq<Hook>, cps: bool)
    ensures RunChain(hs, cps).reached <==> !cps || forall h | h in hs :: Completes(h)
    ensures Ran(hs, cps) <= |hs| && RunChain(hs, cps).trace == HookCalls(hs[..Ran(hs, cps)])
  {
    RunChainReached(hs, cps);
    RunChainTrace(hs, cps);
  }

  /** What `init()` needs of the component's streams. */
  predicate InitReady(w: Streams.World, x: Instance) {
    && Streams.IsStream(w, x.initialized) && w.policies[x.initialized].Barrier?
    && forall a | a in x.afterInitActions :: Streams.IsStream(w, a.stream)
  }

  /** The init chain reaches `_afterInit`: always in sequential style; in CPS style when every
      `beforeInit` hook and the own `init` call their continuations. */
  predicate ReachesAfterInit(x: Instance) {
    !x.ownInit.Cps? || ((forall h | h in BeforeHooks(x.traits) :: Completes(h)) && Completes(x.ownInit))
  }

  /** `c.init()`: the chain `_beforeInit`, own `init`, `_afterInit`, in CPS style when the
      prototype's `init` takes arguments. `_beforeInit` raises on an open `initialized`, then
      runs the traits' `beforeInit` chain, whose end continues to the own `init`. */
  function Init(sys: Sys, c: CompId): (r: Res)
    requires c in sys.comps && InitReady(sys.world, sys.comps[c])
    ensures r.sys.comps == sys.comps
    ensures InitReady(r.sys.world, sys.comps[c])
    ensures sys.world.policies[sys.comps[c].initialized].already ==> r == Res(sys, [], Some(AlreadyInitialized))
    ensures !sys.world.policies[sys.comps[c].initialized].already && ReachesAfterInit(sys.comps[c]) ==>
      r.sys.world.policies[sys.comps[c].initialized] == Streams.Barrier(true, Bool(true))
    ensures !sys.world.policies[sys.comps[c].initialized].already && !ReachesAfterInit(sys.comps[c]) ==>
      r.sys == sys && r.error.None?
  {
    var x := sys.comps[c];
    if sys.world.policies[x.initialized].already then Res(sys, [], Some(AlreadyInitialized))
    else
      var cps := x.ownInit.Cps?;
      var b := RunChain(BeforeHooks(x.traits), cps);
      RunChainSpec(BeforeHooks(x.traits), cps);
      var own := [Streams.Call(x.ownInit.fn, [])];
      if !b.reached then Res(sys, b.trace, None)
      else if cps && !Completes(x.ownInit) then Res(sys, b.trace + own, None)
      else
        var a := AfterInit(sys, x);
        Res(a.sys, b.trace + own + a.trace, a.error)
  }

  /** `_afterInit`: the traits' `afterInit` chain is started, `initialized` is opened whether
      or not that chain completed, and then the `cfg[name + 'Change']` listeners are bound. */
  function AfterInit(sys: Sys, x: Instance): (r: Res)
    requires InitReady(sys.world, x) && !sys.world.policies[x.initialized].already
    ensures r.sys.comps == sys.comps && InitReady(r.sys.world, x)
    ensures r.sys.world.policies[x.initialized] == Streams.Barrier(true, Bool(true))
  {
    var a := RunChain(AfterHooks(x.traits), x.ownInit.Cps?);
    var o := OpenAndBind(sys.world, x);
    Res(sys.(world := o.world), a.trace + o.trace, if o.thrown then Some(Raised) else None)
  }

  /** `this.initialized(true)`, then the `<name>Change` bindings, unless a subscriber of
      `initialized` raised. */
  function OpenAndBind(w: Streams.World, x: Instance): (o: Streams.Outcome)
    requires InitReady(w, x) && !w.policies[x.initialized].already
    ensures InitReady(o.world, x)
    ensures o.world.policies[x.initialized] == Streams.Barrier(true, Bool(true))
  {
    var o1 := Streams.Write(w, x.initialized, [Bool(true)]);
    InitializedOpens(w, x.initialized);
    if o1.thrown then o1
    else
      var p := RunActions(o1.world, x.afterInitActions);
      Streams.Outcome(p.world, o1.trace + p.trace, p.thrown)
  }

  /** `_afterInit` calls the `afterInit` chain first; when the subscribers waiting on
      `initialized` are ordinary callbacks, they are called next, with `true`. */
  lemma AfterInitTrace(sys: Sys, x: Instance)
    requires InitReady(sys.world, x) && !sys.world.policies[x.initialized].already
    ensures var r := AfterInit(sys, x); var a := RunChain(AfterHooks(x.traits), x.ownInit.Cps?).trace;
      a <= r.trace
    ensures Streams.AllPlain(sys.world, Registry.QueueOf(sys.world.reg, x.initialized)) ==>
      var r := AfterInit(sys, x); var a := RunChain(AfterHooks(x.traits), x.ownInit.Cps?).trace;
      var q := Streams.Calls(Registry.QueueOf(sys.world.reg, x.initialized), [Bool(true)]);
      a + q <= r.trace
  {
    var a := RunChain(AfterHooks(x.traits), x.ownInit.Cps?).trace;
    var o := OpenAndBind(sys.world, x);
    assert (a + o.trace)[..|a|] == a;
    if Streams.AllPlain(sys.world, Registry.QueueOf(sys.world.reg, x.initialized)) {
      var q := Streams.Calls(Registry.QueueOf(sys.world.reg, x.initialized), [Bool(true)]);
      InitializedOpens(sys.world, x.initialized);
      var o1 := Streams.Write(sys.world, x.initialized, [Bool(true)]);
      var p := RunActions(o1.world, x.afterInitActions);
      assert o.trace == q + p.trace;
      assert (a + (q + p.trace))[..|a| + |q|] == a + q;
    }
  }

  /** `this.initialized(true)` on a closed barrier latches `true`; waiting ordinary
      subscribers are called with it. */
  lemma InitializedOpens(w: Streams.World, s: FnId)
    requires Streams.IsStream(w, s) && w.policies[s].Barrier? && !w.policies[s].already
    ensures Streams.Write(w, s, [Bool(true)]).world.policies[s] == Streams.Barrier(true, Bool(true))
    ensures Streams.AllPlain(w, Registry.QueueOf(w.reg, s)) ==>
      var o := Streams.Write(w, s, [Bool(true)]);
      o.trace == Streams.Calls(Registry.QueueOf(w.reg, s), [Bool(true)]) && !o.thrown
  {
    Streams.BarrierLatches(w, s, [Bool(true)]);
    if Streams.AllPlain(w, Registry.QueueOf(w.reg, s)) {
      Streams.BarrierOpens(w, s, [Bool(true)]);
    }
  }

  /** A second `init()` raises: the first one opened `initialized`. */
  lemma InitTwice(sys: Sys, c: CompId)
    requires c in sys.comps && InitReady(sys.world, sys.comps[c]) && ReachesAfterInit(sys.comps[c])
    ensures var r := Init(sys, c); Init(r.sys, c) == Res(r.sys, [], Some(AlreadyInitialized))
  {
  }

  /** In sequential style the calls are: every trait's `beforeInit` in `$traits` order, the
      own `init`, every trait's `afterInit`, then the subscribers waiting on `initialized`,
      which are called with `true`. */
  lemma InitSequentialOrder(sys: Sys, c: CompId)
    requires c in sys.comps && InitReady(sys.world, sys.comps[c])
    requires var x := sys.comps[c]; !x.ownInit.Cps? && !sys.world.policies[x.initialized].already
    requires Streams.AllPlain(sys.world, Registry.QueueOf(sys.world.reg, sys.comps[c].initialized))
    ensures var x := sys.comps[c]; var r := Init(sys, c);
      var calls := HookCalls(BeforeHooks(x.traits)) + [Streams.Call(x.ownInit.fn, [])] + HookCalls(AfterHooks(x.traits))
        + Streams.Calls(Registry.QueueOf(sys.world.reg, x.initialized), [Bool(true)]);
      calls <= r.trace
  {
    var x := sys.comps[c];
    var bs := BeforeHooks(x.traits);
    var hs := AfterHooks(x.traits);
    SequentialChain(bs);
    InitReached(sys, c);
    var a := AfterInit(sys, x);
    var q := Streams.Calls(Registry.QueueOf(sys.world.reg, x.initialized), [Bool(true)]);
    AfterInitSequential(sys, x);
    var x0 := HookCalls(bs) + [Streams.Call(x.ownInit.fn, [])];
    assert Init(sys, c).trace == x0 + a.trace;
    PrefixAppend(x0, a.trace, HookCalls(hs), q);
  }

  /** A prefix of `t` stays a prefix after `x` is put in front of both. */
  lemma PrefixAppend<T>(x: seq<T>, t: seq<T>, h: seq<T>, q: seq<T>)
    requires h + q <= t
    ensures x + h + q <= x + t
  {
    PrefixConcat(x, t, h + q);
    assert x + (h + q) == x + h + q;
  }

  /** In sequential style `_afterInit` calls every `afterInit` hook, then the subscribers
      waiting on `initialized`. */
  lemma AfterInitSequential(sys: Sys, x: Instance)
    requires InitReady(sys.world, x) && !sys.world.policies[x.initialized].already && !x.ownInit.Cps?
    requires Streams.AllPlain(sys.world, Registry.QueueOf(sys.world.reg, x.initialized))
    ensures var a := AfterInit(sys, x);
      var u := HookCalls(AfterHooks(x.traits)) + Streams.Calls(Registry.QueueOf(sys.world.reg, x.initialized), [Bool(true)]);
      u <= a.trace
  {
    SequentialChain(AfterHooks(x.traits));
    AfterInitTrace(sys, x);
  }

  /** In CPS style a chain whose every hook completes calls each once, in order. */
  lemma CompletedChain(hs: seq<Hook>)
    requires FirstStuck(hs) == |hs|
    ensures RunChain(hs, true).trace == HookCalls(hs) && RunChain(hs, true).reached
  {
    RunChainSpec(hs, true);
    assert hs[..|hs|] == hs;
    assert forall h | h in hs :: Completes(h);
  }

  /** In sequential style a chain calls every hook once, in order. */
  lemma SequentialChain(hs: seq<Hook>)
    ensures RunChain(hs, false).trace == HookCalls(hs)
  {
    RunChainSpec(hs, false);
    assert hs[..Ran(hs, false)] == hs;
  }

  /** In CPS style a `beforeInit` hook that never calls its continuation ends the chain there:
      the later hooks and the own `init` are not called and `initialized` stays closed. */
  lemma InitCpsBeforeStuck(sys: Sys, c: CompId)
    requires c in sys.comps && InitReady(sys.world, sys.comps[c])
    requires var x := sys.comps[c]; x.ownInit.Cps? && !sys.world.policies[x.initialized].already
    requires var hs := BeforeHooks(sys.comps[c].traits); FirstStuck(hs) < |hs|
    ensures var hs := BeforeHooks(sys.comps[c].traits);
      Init(sys, c) == Res(sys, HookCalls(hs[..FirstStuck(hs) + 1]), None)
  {
    var hs := BeforeHooks(sys.comps[c].traits);
    RunChainSpec(hs, true);
    assert !Completes(hs[FirstStuck(hs)]);
  }

  /** In CPS style an own `init` that never calls its continuation leaves the traits'
      `afterInit` uncalled and `initialized` closed. */
  lemma InitCpsOwnStuck(sys: Sys, c: CompId)
    requires c in sys.comps && InitReady(sys.world, sys.comps[c])
    requires var x := sys.comps[c]; x.ownInit.Cps? && !x.ownInit.completes && !sys.world.policies[x.initialized].already
    requires var hs := BeforeHooks(sys.comps[c].traits); FirstStuck(hs) == |hs|
    ensures var x := sys.comps[c];
      Init(sys, c) == Res(sys, HookCalls(BeforeHooks(x.traits)) + [Streams.Call(x.ownInit.fn, [])], None)
  {
    CompletedChain(BeforeHooks(sys.comps[c].traits));
  }

  /** In CPS style an `afterInit` hook that never calls its continuation stops the later
      `afterInit` hooks, yet `initialized` opens all the same: `_afterInit` opens it as soon as
      the chain has been started. */
  lemma InitCpsAfterStuck(sys: Sys, c: CompId)
    requires c in sys.comps && InitReady(sys.world, sys.comps[c])
    requires var x := sys.comps[c]; x.ownInit.Cps? && x.ownInit.completes && !sys.world.policies[x.initialized].already
    requires var hs := BeforeHooks(sys.comps[c].traits); FirstStuck(hs) == |hs|
    requires var hs := AfterHooks(sys.comps[c].traits); FirstStuck(hs) < |hs|
    ensures var x := sys.comps[c]; var r := Init(sys, c); var hs := AfterHooks(x.traits);
      var calls := HookCalls(BeforeHooks(x.traits)) + [Streams.Call(x.ownInit.fn, [])] + HookCalls(hs[..FirstStuck(hs) + 1]);
      && r.sys.world.policies[x.initialized] == Streams.Barrier(true, Bool(true))
      && calls <= r.trace
  {
    var x := sys.comps[c];
    var bs := BeforeHooks(x.traits);
    CompletedChain(bs);
    InitReached(sys, c);
    var a := AfterInit(sys, x);
    AfterInitStuck(sys, x);
    var x0 := HookCalls(bs) + [Streams.Call(x.ownInit.fn, [])];
    assert Init(sys, c).trace == x0 + a.trace;
    PrefixConcat(x0, a.trace, HookCalls(AfterHooks(x.traits)[..FirstStuck(AfterHooks(x.traits)) + 1]));
  }

  /** In CPS style `_afterInit` calls its chain up to the first `afterInit` hook that does not
      complete. */
  lemma AfterInitStuck(sys: Sys, x: Instance)
    requires InitReady(sys.world, x) && !sys.world.policies[x.initialized].already && x.ownInit.Cps?
    requires var hs := AfterHooks(x.traits); FirstStuck(hs) < |hs|
    ensures var a := AfterInit(sys, x); var hs := AfterHooks(x.traits);
      var u := HookCalls(hs[..FirstStuck(hs) + 1]);
      u <= a.trace
  {
    var hs := AfterHooks(x.traits);
    AfterInitTrace(sys, x);
    RunChainSpec(hs, true);
    assert Ran(hs, true) == FirstStuck(hs) + 1;
    assert RunChain(hs, x.ownInit.Cps?).trace == HookCalls(hs[..FirstStuck(hs) + 1]);
    assert RunChain(hs, x.ownInit.Cps?).trace <= AfterInit(sys, x).trace;
  }

  /** Once `_afterInit` is reached, `init()` is the two first steps of the chain followed by
      `_afterInit`. */
  lemma InitReached(sys: Sys, c: CompId)
    requires c in sys.comps && InitReady(sys.world, sys.comps[c])
    requires var x := sys.comps[c]; ReachesAfterInit(x) && !sys.world.policies[x.initialized].already
    ensures var x := sys.comps[c]; var a := AfterInit(sys, x);
      Init(sys, c) == Res(a.sys, RunChain(BeforeHooks(x.traits), x.ownInit.Cps?).trace + [Streams.Call(x.ownInit.fn, [])] + a.trace, a.error)
  {
  }

  lemma PrefixConcat<T>(x: seq<T>, t: seq<T>, u: seq<T>)
    requires u <= t
    ensures x + u <= x + t
  {
    assert (x + t)[..|x + u|] == x + t[..|u|];
  }

  // ---------------------------------------------------------------------------------------
  // Construction: configuration, stream members, deferred init

  /** A configuration entry: a function or another value. */
  datatype CfgVal = Value(v: Val) | Function(f: FnId)

  type Cfg = map<string, CfgVal>

  predicate CfgTruthy(x: CfgVal) {
    x.Function? || Truthy(x.v)
  }

  /** `_.extend(_.cloneDeep($defaults), cfg)`: the caller's entries override the defaults. */
  function Effective(defaults: Option<Cfg>, cfg: Cfg): (e: Cfg)
    ensures e.Keys == cfg.Keys + (if defaults.Some? then defaults.value.Keys else {})
    ensures forall k | k in cfg :: e[k] == cfg[k]
    ensures defaults.Some? ==> forall k | k in defaults.value && k !in cfg :: e[k] == defaults.value[k]
  {
    if defaults.Some? then defaults.value + cfg else cfg
  }

  datatype StreamKind = TriggerKind | TriggerOnceKind | ObservableKind | BarrierKind

  /** A member of `$definition` as the constructor sees it. An `$observableProperty` gets the
      observable `id` (its `<name>Change` stream); a stream member is the stream `id`. The
      subject is the argument given to the tag (`$trigger(atDefinition)`,
      `$observableProperty(value)`), which may be a function; the listeners are the default
      listeners the trait merge collected, which need not be functions (another contributor's
      stream declaration is an object), and `listener` the one given to
      `$observableProperty(value, listener)`. */
  datatype Decl =
    | PropertyDecl(name: string, subject: CfgVal, reference: bool, id: FnId, listeners: seq<CfgVal>, listener: Option<FnId>)
    | StreamDecl(name: string, kind: StreamKind, subject: CfgVal, id: FnId, listeners: seq<CfgVal>)
    | OtherDecl(name: string)

  function ChangeName(n: string): string {
    n + "Change"
  }

  /** `excludeFromCfg`, queried with `in`: `init`, the names it inherits, every `<name>Change` stream, every stream member. The
      property's own name is not among them. */
  function Excluded(ds: seq<Decl>): (x: set<string>) {
    {"init"} + ObjectPrototypeNames + (set d | d in ds && d.PropertyDecl? :: ChangeName(d.name)) + (set d | d in ds && d.StreamDecl? :: d.name)
  }

  /** The entries `_.each(cfg, ...)` assigns onto the instance. */
  function Applied(e: Cfg, ds: seq<Decl>): (a: Cfg) {
    map k | k in e && k !in Excluded(ds) :: e[k]
  }

  /** `cfg.init === false || $defaults.init === false`, on the effective configuration. */
  predicate Deferred(defaults: Option<Cfg>, e: Cfg) {
    || ("init" in e && e["init"] == Value(Bool(false)))
    || (defaults.Some? && "init" in defaults.value && defaults.value["init"] == Value(Bool(false)))
  }

  /** `stream.call(this, x)` with one configuration value. */
  function ActionOf(s: FnId, x: CfgVal): (a: Action)
    ensures a.stream == s
  {
    if x.Function? then Subscribe(s, x.f) else Publish(s, x.v)
  }

  /** The ids of the streams the declarations create. */
  function StreamIds(ds: seq<Decl>): set<FnId> {
    set d | d in ds && !d.OtherDecl? :: d.id
  }

  /** The steps of construction that call the streams. */
  datatype Phase =
    | DefaultValues   // an `$observableProperty` writes its default value; a trigger reads its subject
    | Setters         // a cfg entry for an `$observableProperty` goes through its setter
    | Listeners       // the initial stream listeners are subscribed
    | ChangeListeners // `_afterInit` binds `cfg[name + 'Change']`

  function PhaseActions(d: Decl, e: Cfg, ph: Phase): (acts: seq<Action>)
    ensures forall a | a in acts :: !d.OtherDecl? && a.stream == d.id
  {
    match d
    case OtherDecl(_) => []
    case PropertyDecl(n, subject, _, id, ls, l) =>
      (match ph
       case DefaultValues =>
         var x := if n in e then e[n] else subject;
         if x != Value(Undefined) then [ActionOf(id, x)] else []
       case Setters => if n in e then [ActionOf(id, e[n])] else []
       case Listeners => Subscribes(id, ls) + (if l.Some? then [Subscribe(id, l.value)] else [])
       case ChangeListeners =>
         if ChangeName(n) in e && CfgTruthy(e[ChangeName(n)]) then [ActionOf(id, e[ChangeName(n)])] else [])
    case StreamDecl(n, kind, subject, id, ls) =>
      match ph
      case DefaultValues => SubjectRead(kind, id, subject)
      case Listeners => Subscribes(id, ls) + (if n in e && CfgTruthy(e[n]) then [ActionOf(id, e[n])] else [])
      case _ => []
  }

  /** `_.trigger(subject)` and `_.triggerOnce(subject)` call the new stream with the subject:
      a function is subscribed. Any other subject is written to a stream nobody listens to
      yet, which changes nothing, and the model leaves that write out. `_.observable` keeps
      its subject as the start value and `_.barrier` ignores it. */
  function SubjectRead(kind: StreamKind, id: FnId, subject: CfgVal): (acts: seq<Action>)
    ensures acts != [] <==> subject.Function? && (kind == TriggerKind || kind == TriggerOnceKind)
    ensures forall a | a in acts :: a == Subscribe(id, subject.f)
  {
    if subject.Function? && (kind == TriggerKind || kind == TriggerOnceKind) then [Subscribe(id, subject.f)] else []
  }

  /** The value `_.observable(subject)` starts with. A function is not a value of the model,
      so a function subject stands as `undefined`. */
  function SubjectValue(x: CfgVal): (v: Val)
    ensures x.Value? ==> v == x.v
  {
    if x.Value? then x.v else Undefined
  }

  /** `v[0].call(this, v[1])` for each default listener, in merge order: the stream's front
      end subscribes a function and publishes any other value, a falsy one included. */
  function Subscribes(s: FnId, ls: seq<CfgVal>): (acts: seq<Action>)
    ensures |acts| == |ls|
    ensures forall i | 0 <= i < |ls| ::
      acts[i] == if ls[i].Function? then Subscribe(s, ls[i].f) else Publish(s, ls[i].v)
  {
    seq(|ls|, i requires 0 <= i < |ls| => ActionOf(s, ls[i]))
  }

  /** The default listeners are called on the stream in the order they were collected. */
  lemma SubscribesConcat(s: FnId, a: seq<CfgVal>, b: seq<CfgVal>)
    ensures Subscribes(s, a + b) == Subscribes(s, a) + Subscribes(s, b)
  {
    assert forall i | 0 <= i < |a| :: (a + b)[i] == a[i];
    assert forall i | |a| <= i < |a| + |b| :: (a + b)[i] == b[i - |a|];
  }

  /** One phase over every declaration, in definition order. */
  function Actions(ds: seq<Decl>, e: Cfg, ph: Phase): (acts: seq<Action>)
    ensures forall a | a in acts :: a.stream in StreamIds(ds)
  {
    if |ds| == 0 then []
    else
      var rest := Actions(ds[1..], e, ph);
      assert StreamIds(ds[1..]) <= StreamIds(ds) by {
        assert forall d | d in ds[1..] :: d in ds;
      }
      PhaseActions(ds[0], e, ph) + rest
  }

  /** The policy a declaration's stream starts with: `_.observable()` empty for a property,
      `_.observable(subject)` holding the subject, a closed barrier. */
  function StartPolicy(d: Decl): Streams.Policy
    requires !d.OtherDecl?
  {
    match d
    case PropertyDecl(_, _, reference, _, _, _) => Streams.Observable(false, Undefined, reference)
    case StreamDecl(_, kind, subject, _, _) =>
      match kind
      case TriggerKind => Streams.Trigger
      case TriggerOnceKind => Streams.TriggerOnce
      case ObservableKind => Streams.Observable(true, SubjectValue(subject), false)
      case BarrierKind => Streams.Barrier(false, Undefined)
  }

  /** No later declaration creates a stream with the id of `ds[i]`. */
  predicate LastWithId(ds: seq<Decl>, i: nat)
    requires i < |ds| && !ds[i].OtherDecl?
  {
    forall j | i < j < |ds| :: ds[j].OtherDecl? || ds[j].id != ds[i].id
  }

  /** Creates the declarations' streams, each with an empty queue and its start policy. */
  function CreateStreams(w: Streams.World, ds: seq<Decl>): (w': Streams.World)
    ensures forall s | s in StreamIds(ds) :: Streams.IsStream(w', s)
    ensures forall s | Streams.IsStream(w, s) :: Streams.IsStream(w', s)
    ensures w'.behaviours == w.behaviours && w'.groups == w.groups && w'.isEqual == w.isEqual
    ensures w'.reg.queuedBy == w.reg.queuedBy
    ensures forall i | 0 <= i < |ds| && !ds[i].OtherDecl? && LastWithId(ds, i) ::
      ds[i].id in w'.policies && w'.policies[ds[i].id] == StartPolicy(ds[i]) && Registry.QueueOf(w'.reg, ds[i].id) == []
    ensures forall s | s !in StreamIds(ds) ::
      (s in w'.policies <==> s in w.policies) && (s in w.policies ==> w'.policies[s] == w.policies[s])
      && (s in w'.reg.queues <==> s in w.reg.queues) && Registry.QueueOf(w'.reg, s) == Registry.QueueOf(w.reg, s)
    decreases |ds|
  {
    if |ds| == 0 then w
    else
      var w1 := CreateStream(w, ds[0]);
      assert StreamIds(ds) == StreamIds([ds[0]]) + StreamIds(ds[1..]) by {
        assert forall d | d in ds :: d == ds[0] || d in ds[1..];
      }
      assert forall i | 1 <= i < |ds| && !ds[i].OtherDecl? && LastWithId(ds, i) :: LastWithId(ds[1..], i - 1);
      CreateStreams(w1, ds[1..])
  }

  /** Creates one declaration's stream, with an empty queue and its start policy. */
  function CreateStream(w: Streams.World, d: Decl): (w': Streams.World)
    ensures forall s | Streams.IsStream(w, s) :: Streams.IsStream(w', s)
    ensures w'.behaviours == w.behaviours && w'.groups == w.groups && w'.isEqual == w.isEqual
    ensures w'.reg.queuedBy == w.reg.queuedBy
    ensures !d.OtherDecl? ==> Streams.IsStream(w', d.id) && w'.policies[d.id] == StartPolicy(d) && Registry.QueueOf(w'.reg, d.id) == []
    ensures forall s | s !in StreamIds([d]) ::
      (s in w'.policies <==> s in w.policies) && (s in w.policies ==> w'.policies[s] == w.policies[s])
      && (s in w'.reg.queues <==> s in w.reg.queues) && Registry.QueueOf(w'.reg, s) == Registry.QueueOf(w.reg, s)
  {
    if d.OtherDecl? then w
    else w.(policies := w.policies[d.id := StartPolicy(d)], reg := w.reg.(queues := w.reg.queues[d.id := []]))
  }

  /** What construction leaves: the stream world, the calls made, whether a listener raised,
      the entries assigned onto the instance, and whether `init()` is deferred. */
  datatype Built = Built(
    world: Streams.World, trace: seq<Streams.Call>, thrown: bool, applied: Cfg, deferred: bool,
    afterInit: seq<Action>)   // the `<name>Change` bindings `_afterInit` makes

  /** The constructor up to the `init()` decision: defaults, stream expansion with default
      values, cfg application, initial listeners. */
  function Construct(w: Streams.World, ds: seq<Decl>, defaults: Option<Cfg>, cfg: Cfg): (b: Built)
    ensures var e := Effective(defaults, cfg); b.applied == Applied(e, ds) && b.deferred == Deferred(defaults, e)
    ensures forall s | s in StreamIds(ds) :: Streams.IsStream(b.world, s)
    ensures b.world.behaviours == w.behaviours
  {
    var e := Effective(defaults, cfg);
    var o := Expand(w, ds, e);
    Built(o.world, o.trace, o.thrown, Applied(e, ds), Deferred(defaults, e), Actions(ds, e, ChangeListeners))
  }

  /** The stream part of construction: create the streams, write the default values, run the
      setters, subscribe the initial listeners. */
  function Expand(w: Streams.World, ds: seq<Decl>, e: Cfg): (o: Streams.Outcome)
    ensures forall s | s in StreamIds(ds) :: Streams.IsStream(o.world, s)
    ensures o.world.behaviours == w.behaviours
  {
    var w1 := CreateStreams(w, ds);
    var acts := Actions(ds, e, DefaultValues) + Actions(ds, e, Setters) + Actions(ds, e, Listeners);
    RunActions(w1, acts)
  }

  /** The entries assigned onto the instance are exactly the caller's and the defaults' entries
      that name no stream, no `<name>Change` stream, not `init` and nothing inherited; each
      carries the caller's value when the caller gave one, the default otherwise. */
  lemma ConstructApplies(w: Streams.World, ds: seq<Decl>, defaults: Option<Cfg>, cfg: Cfg)
    ensures var b := Construct(w, ds, defaults, cfg);
      && (forall k :: k in b.applied <==>
            (k in cfg || (defaults.Some? && k in defaults.value)) && k != "init" && k !in ObjectPrototypeNames
            && (forall d | d in ds && d.StreamDecl? :: d.name != k)
            && (forall d | d in ds && d.PropertyDecl? :: ChangeName(d.name) != k))
      && (forall k | k in b.applied :: b.applied[k] == if k in cfg then cfg[k] else defaults.value[k])
  {
    var b := Construct(w, ds, defaults, cfg);
    forall k ensures k in b.applied <==>
            (k in cfg || (defaults.Some? && k in defaults.value)) && k != "init" && k !in ObjectPrototypeNames
            && (forall d | d in ds && d.StreamDecl? :: d.name != k)
            && (forall d | d in ds && d.PropertyDecl? :: ChangeName(d.name) != k)
    {
      if k !in Excluded(ds) {
        assert forall d | d in ds && d.StreamDecl? :: d.name != k;
        assert forall d | d in ds && d.PropertyDecl? :: ChangeName(d.name) != k;
      }
    }
  }

  /** `init()` is deferred exactly when the caller or the defaults set `init: false`; a
      default of `init: false` cannot be overridden by the caller. */
  lemma ConstructDeferred(w: Streams.World, ds: seq<Decl>, defaults: Option<Cfg>, cfg: Cfg)
    ensures Construct(w, ds, defaults, cfg).deferred <==>
      || ("init" in cfg && cfg["init"] == Value(Bool(false)))
      || (defaults.Some? && "init" in defaults.value && defaults.value["init"] == Value(Bool(false)))
  {
  }

  /** The value an `$observableProperty` holds once constructed, when nothing listens to it:
      the caller's or the default configuration value (written twice, by the default write and
      by the setter), else the definition's subject unless that is `undefined`. A function,
      in the configuration or as the subject, is subscribed instead of stored. */
  lemma ConstructProperty(w: Streams.World, n: string, subject: CfgVal, reference: bool, id: FnId, defaults: Option<Cfg>, cfg: Cfg)
    ensures var e := Effective(defaults, cfg);
      var b := Construct(w, [PropertyDecl(n, subject, reference, id, [], None)], defaults, cfg);
      && b.trace == [] && !b.thrown
      && id in b.world.policies && b.world.policies[id] ==
           (if n in e && e[n].Value? then Streams.Observable(true, e[n].v, reference)
            else if n !in e && subject.Value? && subject.v != Undefined then Streams.Observable(true, subject.v, reference)
            else Streams.Observable(false, Undefined, reference))
      && (n in e && e[n].Function? ==> Registry.Subscribed(b.world.reg, id, e[n].f))
      && (n !in e && subject.Function? ==> Registry.Subscribed(b.world.reg, id, subject.f))
  {
    var d := PropertyDecl(n, subject, reference, id, [], None);
    ConstructSingle(w, d, defaults, cfg);
    PropertyRun(CreateStreams(w, [d]), d, Effective(defaults, cfg));
  }

  /** The three construction phases of a lone property on its freshly created stream. */
  lemma PropertyRun(w1: Streams.World, d: Decl, e: Cfg)
    requires d.PropertyDecl? && d.listeners == [] && d.listener == None
    requires Streams.IsStream(w1, d.id) && w1.policies[d.id] == Streams.Observable(false, Undefined, d.reference)
    requires Registry.QueueOf(w1.reg, d.id) == []
    ensures var o := RunActions(w1, PhaseActions(d, e, DefaultValues) + PhaseActions(d, e, Setters) + PhaseActions(d, e, Listeners));
      var n := d.name;
      && o.trace == [] && !o.thrown
      && d.id in o.world.policies && o.world.policies[d.id] ==
           (if n in e && e[n].Value? then Streams.Observable(true, e[n].v, d.reference)
            else if n !in e && d.subject.Value? && d.subject.v != Undefined then Streams.Observable(true, d.subject.v, d.reference)
            else Streams.Observable(false, Undefined, d.reference))
      && (n in e && e[n].Function? ==> Registry.Subscribed(o.world.reg, d.id, e[n].f))
      && (n !in e && d.subject.Function? ==> Registry.Subscribed(o.world.reg, d.id, d.subject.f))
  {
    var n := d.name;
    assert Subscribes(d.id, []) == [];
    var acts := PhaseActions(d, e, DefaultValues) + PhaseActions(d, e, Setters) + PhaseActions(d, e, Listeners);
    if n in e {
      var a := ActionOf(d.id, e[n]);
      assert acts == (if e[n] != Value(Undefined) then [a, a] else [a]);
      PropertyActions(w1, d.id, d.reference, a);
    } else if d.subject != Value(Undefined) {
      var a := ActionOf(d.id, d.subject);
      assert acts == [a];
      PropertyActions(w1, d.id, d.reference, a);
    } else {
      assert acts == [];
    }
  }

  /** One or two applications of the same action on a fresh, empty property stream. */
  lemma PropertyActions(w: Streams.World, id: FnId, reference: bool, a: Action)
    requires Streams.IsStream(w, id) && w.policies[id] == Streams.Observable(false, Undefined, reference)
    requires Registry.QueueOf(w.reg, id) == [] && a.stream == id
    ensures var p := if a.Publish? then Streams.Observable(true, a.v, reference) else w.policies[id];
      && RunActions(w, [a]).world.policies[id] == p && RunActions(w, [a]).trace == [] && !RunActions(w, [a]).thrown
      && RunActions(w, [a, a]).world.policies[id] == p && RunActions(w, [a, a]).trace == [] && !RunActions(w, [a, a]).thrown
      && (a.Subscribe? ==> Registry.Subscribed(RunActions(w, [a]).world.reg, id, a.f))
      && (a.Subscribe? ==> Registry.Subscribed(RunActions(w, [a, a]).world.reg, id, a.f))
  {
    PropertyActionOnce(w, id, reference, a);
    var o1 := Apply(w, a);
    var o2 := Apply(o1.world, a);
    if a.Publish? {
      assert Streams.AllPlain(o1.world, Registry.QueueOf(o1.world.reg, id));
      if Streams.SameValue(o1.world, o1.world.policies[id], a.v) {
        Streams.ObservableSameValue(o1.world, id, [a.v]);
      } else {
        Streams.ObservableNewValue(o1.world, id, [a.v]);
      }
    }
    assert [a, a][1..] == [a];
    assert RunActions(o1.world, [a]) == Streams.Outcome(o2.world, o2.trace, o2.thrown) by {
      assert [a][1..] == [];
    }
    assert RunActions(w, [a, a]) == Streams.Outcome(o2.world, o1.trace + o2.trace, o2.thrown);
  }

  /** One application of an action on a fresh, empty property stream: a write stores the
      value and calls nothing, a subscription queues the function. */
  lemma PropertyActionOnce(w: Streams.World, id: FnId, reference: bool, a: Action)
    requires Streams.IsStream(w, id) && w.policies[id] == Streams.Observable(false, Undefined, reference)
    requires Registry.QueueOf(w.reg, id) == [] && a.stream == id
    ensures var o := Apply(w, a);
      && RunActions(w, [a]) == Streams.Outcome(o.world, o.trace, o.thrown)
      && Streams.IsStream(o.world, id) && o.trace == [] && !o.thrown && o.world.isEqual == w.isEqual
      && o.world.policies[id] == (if a.Publish? then Streams.Observable(true, a.v, reference) else w.policies[id])
      && Registry.QueueOf(o.world.reg, id) == (if a.Subscribe? then [a.f] else [])
  {
    var o1 := Apply(w, a);
    assert RunActions(w, [a]) == Streams.Outcome(o1.world, o1.trace, o1.thrown) by {
      assert [a][1..] == [];
    }
    if a.Publish? {
      Streams.ObservableNewValue(w, id, [a.v]);
    }
  }

  /** A function given for a stream member in the configuration is subscribed to it; an
      observable calls it at once with its subject. */
  lemma ConstructStreamListener(w: Streams.World, n: string, kind: StreamKind, subject: Val, id: FnId, defaults: Option<Cfg>, cfg: Cfg, f: FnId)
    requires var e := Effective(defaults, cfg); n in e && e[n] == Function(f)
    requires Streams.BehaviourOf(w, f) == Streams.Plain
    ensures var d := StreamDecl(n, kind, Value(subject), id, []); var b := Construct(w, [d], defaults, cfg);
      && id in b.world.policies && !b.thrown
      && Registry.Subscribed(b.world.reg, id, f)
      && b.world.policies[id] == StartPolicy(d)
      && b.trace == (if kind == ObservableKind then [Streams.Call(f, [subject])] else [])
  {
    var e := Effective(defaults, cfg);
    var d := StreamDecl(n, kind, Value(subject), id, []);
    ConstructSingle(w, d, defaults, cfg);
    StreamPhases(d, e, Subscribe(id, f));
    StreamEntry(CreateStreams(w, [d]), d, Subscribe(id, f));
    assert SubjectValue(d.subject) == subject;
  }

  /** A truthy value given for a stream member in the configuration is published on it: a
      barrier opens with it, an observable takes it unless it equals the subject. */
  lemma ConstructStreamValue(w: Streams.World, n: string, kind: StreamKind, subject: Val, id: FnId, defaults: Option<Cfg>, cfg: Cfg, v: Val)
    requires var e := Effective(defaults, cfg); n in e && e[n] == Value(v) && Truthy(v)
    ensures var d := StreamDecl(n, kind, Value(subject), id, []); var b := Construct(w, [d], defaults, cfg);
      && id in b.world.policies && !b.thrown && b.trace == []
      && b.world.policies[id] == EntryPolicy(w, kind, subject, v)
  {
    var e := Effective(defaults, cfg);
    var d := StreamDecl(n, kind, Value(subject), id, []);
    var w1 := CreateStreams(w, [d]);
    ConstructSingle(w, d, defaults, cfg);
    StreamPhases(d, e, Publish(id, v));
    StreamEntry(w1, d, Publish(id, v));
    assert SubjectValue(d.subject) == subject && w1.isEqual == w.isEqual;
  }

  /** A default listener that is not a function, such as another contributor's stream
      declaration, is written to the stream instead of subscribed: a barrier opens with it, an
      observable takes it unless it equals the subject. */
  lemma ConstructStreamDefaultValue(w: Streams.World, n: string, kind: StreamKind, subject: Val, id: FnId, defaults: Option<Cfg>, cfg: Cfg, v: Val)
    requires var e := Effective(defaults, cfg); n !in e || !CfgTruthy(e[n])
    requires Truthy(v)
    ensures var d := StreamDecl(n, kind, Value(subject), id, [Value(v)]); var b := Construct(w, [d], defaults, cfg);
      && id in b.world.policies && !b.thrown && b.trace == []
      && b.world.policies[id] == EntryPolicy(w, kind, subject, v)
  {
    var e := Effective(defaults, cfg);
    var d := StreamDecl(n, kind, Value(subject), id, [Value(v)]);
    var w1 := CreateStreams(w, [d]);
    ConstructSingle(w, d, defaults, cfg);
    DefaultValuePhases(d, e, v);
    StreamEntry(w1, d, Publish(id, v));
    assert SubjectValue(d.subject) == subject && w1.isEqual == w.isEqual;
  }

  /** Without default listeners, a stream member's construction calls are the read of its
      subject, for a trigger given a function, then its configuration entry's. */
  lemma StreamPhases(d: Decl, e: Cfg, a: Action)
    requires d.StreamDecl? && d.listeners == [] && d.name in e && CfgTruthy(e[d.name]) && a == ActionOf(d.id, e[d.name])
    ensures PhaseActions(d, e, DefaultValues) + PhaseActions(d, e, Setters) + PhaseActions(d, e, Listeners)
      == SubjectRead(d.kind, d.id, d.subject) + [a]
    ensures d.subject.Value? ==>
      PhaseActions(d, e, DefaultValues) + PhaseActions(d, e, Setters) + PhaseActions(d, e, Listeners) == [a]
  {
    assert Subscribes(d.id, []) == [];
    if d.subject.Value? {
      assert SubjectRead(d.kind, d.id, d.subject) == [];
    }
  }

  /** A stream member with a value subject, one default listener that is a value, and no
      truthy configuration entry has one construction call: the write of that value. */
  lemma DefaultValuePhases(d: Decl, e: Cfg, v: Val)
    requires d.StreamDecl? && d.subject.Value? && d.listeners == [Value(v)]
    requires d.name !in e || !CfgTruthy(e[d.name])
    ensures PhaseActions(d, e, DefaultValues) + PhaseActions(d, e, Setters) + PhaseActions(d, e, Listeners) == [Publish(d.id, v)]
  {
    assert Subscribes(d.id, [Value(v)]) == [Publish(d.id, v)];
    assert SubjectRead(d.kind, d.id, d.subject) == [];
  }

  /** A missing or falsy configuration entry leaves a stream member as its definition made it. */
  lemma ConstructStreamIgnored(w: Streams.World, n: string, kind: StreamKind, subject: Val, id: FnId, defaults: Option<Cfg>, cfg: Cfg)
    requires var e := Effective(defaults, cfg); n !in e || !CfgTruthy(e[n])
    ensures var d := StreamDecl(n, kind, Value(subject), id, []); var b := Construct(w, [d], defaults, cfg);
      && id in b.world.policies && !b.thrown && b.trace == []
      && b.world.policies[id] == StartPolicy(d)
  {
    var e := Effective(defaults, cfg);
    var d := StreamDecl(n, kind, Value(subject), id, []);
    ConstructSingle(w, d, defaults, cfg);
    assert Subscribes(id, []) == [];
    assert PhaseActions(d, e, DefaultValues) == [] && PhaseActions(d, e, Setters) == [];
    assert PhaseActions(d, e, Listeners) == [];
    var w1 := CreateStreams(w, [d]);
    assert RunActions(w1, []) == Streams.Outcome(w1, [], false);
  }

  /** `$trigger(fn)` and `$triggerOnce(fn)`: the subject is subscribed when the stream is
      created, ahead of a function the configuration gives for the member, and neither is
      called during construction. */
  lemma ConstructTriggerSubject(w: Streams.World, n: string, kind: StreamKind, id: FnId, defaults: Option<Cfg>, cfg: Cfg, f: FnId, g: FnId)
    requires kind == TriggerKind || kind == TriggerOnceKind
    requires var e := Effective(defaults, cfg); n !in e || e[n] == Function(g)
    ensures var e := Effective(defaults, cfg);
      var d := StreamDecl(n, kind, Function(f), id, []); var b := Construct(w, [d], defaults, cfg);
      && id in b.world.policies && !b.thrown && b.trace == []
      && b.world.policies[id] == StartPolicy(d) && id in b.world.reg.queues
      && Registry.QueueOf(b.world.reg, id) == [f] + (if n in e && g != f then [g] else [])
  {
    var e := Effective(defaults, cfg);
    var d := StreamDecl(n, kind, Function(f), id, []);
    ConstructSingle(w, d, defaults, cfg);
    TriggerSubjectPhases(d, e, f, g);
    TriggerSubjectRun(CreateStreams(w, [d]), id, f, g, n in e);
  }

  /** Subscribing the subject, then possibly a second function, to a fresh trigger queues
      them in that order and calls nothing. */
  lemma TriggerSubjectRun(w1: Streams.World, id: FnId, f: FnId, g: FnId, second: bool)
    requires Streams.IsStream(w1, id) && (w1.policies[id] == Streams.Trigger || w1.policies[id] == Streams.TriggerOnce)
    requires Registry.QueueOf(w1.reg, id) == []
    ensures var o := RunActions(w1, [Subscribe(id, f)] + (if second then [Subscribe(id, g)] else []));
      && !o.thrown && o.trace == [] && o.world.policies == w1.policies
      && Registry.QueueOf(o.world.reg, id) == [f] + (if second && g != f then [g] else [])
  {
    var rest := if second then [Subscribe(id, g)] else [];
    TriggerSubscribe(w1, id, f, rest);
    var w2 := w1.(reg := Registry.ScheduleRead(w1.reg, id, f));
    assert Registry.QueueOf(w2.reg, id) == [f];
    if second {
      TriggerSubscribe(w2, id, g, []);
      assert [Subscribe(id, g)] + [] == rest;
      var w3 := w2.(reg := Registry.ScheduleRead(w2.reg, id, g));
      assert Registry.QueueOf(w3.reg, id) == [f] + (if g != f then [g] else []);
    }
  }

  /** A publish with no arguments on a trigger whose queue is two ordinary callbacks. */
  lemma TriggerCallsBoth(w0: Streams.World, w: Streams.World, id: FnId, f: FnId, g: FnId)
    requires id in w.policies && w.policies[id] == Streams.Trigger && id in w.reg.queues
    requires Registry.QueueOf(w.reg, id) == [f] + [g] && w.behaviours == w0.behaviours
    requires Streams.BehaviourOf(w0, f) == Streams.Plain && Streams.BehaviourOf(w0, g) == Streams.Plain
    ensures Streams.Write(w, id, []).trace == [Streams.Call(f, []), Streams.Call(g, [])]
  {
    assert Streams.AllPlain(w, [f] + [g]);
    Streams.TriggerPublish(w, id, []);
  }

  /** The construction calls of a trigger declared with a function and no default listeners. */
  lemma TriggerSubjectPhases(d: Decl, e: Cfg, f: FnId, g: FnId)
    requires d.StreamDecl? && (d.kind == TriggerKind || d.kind == TriggerOnceKind)
    requires d.subject == Function(f) && d.listeners == [] && (d.name !in e || e[d.name] == Function(g))
    ensures PhaseActions(d, e, DefaultValues) + PhaseActions(d, e, Setters) + PhaseActions(d, e, Listeners)
      == [Subscribe(d.id, f)] + (if d.name in e then [Subscribe(d.id, g)] else [])
  {
    assert Subscribes(d.id, []) == [];
  }

  /** Subscribing to a trigger queues the function and calls nothing; the run goes on from there. */
  lemma TriggerSubscribe(w: Streams.World, id: FnId, f: FnId, rest: seq<Action>)
    requires Streams.IsStream(w, id) && (w.policies[id] == Streams.Trigger || w.policies[id] == Streams.TriggerOnce)
    requires forall a | a in rest :: a.stream == id
    ensures var w' := w.(reg := Registry.ScheduleRead(w.reg, id, f));
      RunActions(w, [Subscribe(id, f)] + rest) == RunActions(w', rest)
      && (rest == [] ==> RunActions(w', rest) == Streams.Outcome(w', [], false))
  {
    var acts := [Subscribe(id, f)] + rest;
    assert acts[0] == Subscribe(id, f) && acts[1..] == rest;
  }

  /** Construction followed by `this.mouseMoved()` from `init`: the trigger's subject and the
      configuration's listener are both called, in that order, with no arguments. */
  lemma InitStreamsFromConfig(w: Streams.World, n: string, id: FnId, defaults: Option<Cfg>, cfg: Cfg, f: FnId, g: FnId)
    requires var e := Effective(defaults, cfg); n in e && e[n] == Function(g) && g != f
    requires Streams.BehaviourOf(w, f) == Streams.Plain && Streams.BehaviourOf(w, g) == Streams.Plain
    ensures var b := Construct(w, [StreamDecl(n, TriggerKind, Function(f), id, [])], defaults, cfg);
      Streams.IsStream(b.world, id) && Streams.Write(b.world, id, []).trace == [Streams.Call(f, []), Streams.Call(g, [])]
  {
    var d := StreamDecl(n, TriggerKind, Function(f), id, []);
    var b := Construct(w, [d], defaults, cfg);
    ConstructTriggerSubject(w, n, TriggerKind, id, defaults, cfg, f, g);
    TriggerCallsBoth(w, b.world, id, f, g);
  }

  /** The policy a truthy configuration value leaves on a fresh stream of the given kind. */
  function EntryPolicy(w: Streams.World, kind: StreamKind, subject: Val, v: Val): Streams.Policy {
    match kind
    case BarrierKind => Streams.Barrier(true, v)
    case ObservableKind =>
      if w.isEqual(subject, v) then Streams.Observable(true, subject, false) else Streams.Observable(true, v, false)
    case TriggerKind => Streams.Trigger
    case TriggerOnceKind => Streams.TriggerOnce
  }

  /** Construction with one declaration: create its stream, then run its three phases. */
  lemma ConstructSingle(w: Streams.World, d: Decl, defaults: Option<Cfg>, cfg: Cfg)
    requires !d.OtherDecl?
    ensures var e := Effective(defaults, cfg); var w1 := CreateStreams(w, [d]);
      && w1 == w.(policies := w.policies[d.id := StartPolicy(d)], reg := w.reg.(queues := w.reg.queues[d.id := []]))
      && var o := RunActions(w1, PhaseActions(d, e, DefaultValues) + PhaseActions(d, e, Setters) + PhaseActions(d, e, Listeners));
      var b := Construct(w, [d], defaults, cfg);
      b.world == o.world && b.trace == o.trace && b.thrown == o.thrown
  {
    var e := Effective(defaults, cfg);
    assert [d][1..] == [];
    assert CreateStreams(w, [d]) == CreateStreams(CreateStream(w, d), []) == CreateStream(w, d);
    forall ph: Phase ensures Actions([d], e, ph) == PhaseActions(d, e, ph) {
      assert Actions([d], e, ph) == PhaseActions(d, e, ph) + Actions([d][1..], e, ph);
    }
    var o := Expand(w, [d], e);
    assert o == RunActions(CreateStream(w, d),
      PhaseActions(d, e, DefaultValues) + PhaseActions(d, e, Setters) + PhaseActions(d, e, Listeners));
    assert Construct(w, [d], defaults, cfg).world == o.world;
  }

  /** One configuration entry applied to a fresh stream nobody listens to. */
  lemma StreamEntry(w1: Streams.World, d: Decl, a: Action)
    requires d.StreamDecl? && Streams.IsStream(w1, d.id) && w1.policies[d.id] == StartPolicy(d)
    requires Registry.QueueOf(w1.reg, d.id) == [] && a.stream == d.id
    requires a.Subscribe? ==> Streams.BehaviourOf(w1, a.f) == Streams.Plain
    requires a.Publish? ==> Truthy(a.v)
    ensures var o := RunActions(w1, [a]);
      && d.id in o.world.policies && !o.thrown
      && (a.Subscribe? ==>
            && Registry.Subscribed(o.world.reg, d.id, a.f) && o.world.policies[d.id] == StartPolicy(d)
            && o.trace == (if d.kind == ObservableKind then [Streams.Call(a.f, [SubjectValue(d.subject)])] else []))
      && (a.Publish? ==> o.trace == [] && o.world.policies[d.id] == EntryPolicy(w1, d.kind, SubjectValue(d.subject), a.v))
  {
    var o1 := Apply(w1, a);
    assert RunActions(w1, [a]) == Streams.Outcome(o1.world, o1.trace, o1.thrown) by {
      assert [a][1..] == [];
    }
    assert Streams.AllPlain(w1, Registry.QueueOf(w1.reg, d.id));
    match d.kind
    case BarrierKind =>
      if a.Publish? {
        Streams.BarrierOpens(w1, d.id, [a.v]);
      }
    case ObservableKind =>
      if a.Publish? {
        if Streams.SameValue(w1, w1.policies[d.id], a.v) {
          Streams.ObservableSameValue(w1, d.id, [a.v]);
        } else {
          Streams.ObservableNewValue(w1, d.id, [a.v]);
        }
      } else {
        Streams.ObservableRead(w1, d.id, a.f);
      }
    case TriggerKind =>
      if a.Publish? {
        Streams.TriggerPublish(w1, d.id, [a.v]);
      }
    case TriggerOnceKind =>
  }

  /** Each binding `_afterInit` makes is a truthy `<name>Change` entry of the configuration,
      given to the observable of property `name`; every such entry is bound. */
  lemma {:induction false} ChangeBindings(ds: seq<Decl>, e: Cfg)
    ensures forall a | a in Actions(ds, e, ChangeListeners) ::
      exists d | d in ds && d.PropertyDecl? :: ChangeName(d.name) in e && CfgTruthy(e[ChangeName(d.name)]) && a == ActionOf(d.id, e[ChangeName(d.name)])
    ensures forall d | d in ds && d.PropertyDecl? && ChangeName(d.name) in e && CfgTruthy(e[ChangeName(d.name)]) ::
      ActionOf(d.id, e[ChangeName(d.name)]) in Actions(ds, e, ChangeListeners)
  {
    if |ds| > 0 {
      ChangeBindings(ds[1..], e);
      assert Actions(ds, e, ChangeListeners) == PhaseActions(ds[0], e, ChangeListeners) + Actions(ds[1..], e, ChangeListeners);
      forall d | d in ds ensures d == ds[0] || d in ds[1..] {
      }
      forall a | a in Actions(ds, e, ChangeListeners)
        ensures exists d | d in ds && d.PropertyDecl? :: ChangeName(d.name) in e && CfgTruthy(e[ChangeName(d.name)]) && a == ActionOf(d.id, e[ChangeName(d.name)])
      {
        if a in PhaseActions(ds[0], e, ChangeListeners) {
          assert ds[0] in ds;
        } else {
          var d :| d in ds[1..] && d.PropertyDecl? && ChangeName(d.name) in e && CfgTruthy(e[ChangeName(d.name)]) && a == ActionOf(d.id, e[ChangeName(d.name)]);
          assert d in ds;
        }
      }
    }
  }
}

=== FILE: js.dfy ===
/** JavaScript values as the core sees them: the payloads published on streams, the
    configuration entries handed to a component, and the `undefined`/truthiness rules the
    code branches on. Functions are not values here; they are identified by `FnId`. */
module Js {

  /** Identity of a JavaScript function object (a callback, a bound method or a stream). */
  type FnId = nat

  datatype Option<T> = None | Some(value: T)

  /** A non-function JavaScript value. `Ref` stands for an object compared by identity. */
  datatype Val =
    | Undefined
    | Null
    | Bool(b: bool)
    | Num(n: int)
    | Str(s: string)
    | Ref(id: nat)

  /** JavaScript truthiness (`if (x)`, `x || y`); NaN is not a modelled number. */
  predicate Truthy(v: Val) {
    match v
    case Undefined => false
    case Null => false
    case Bool(b) => b
    case Num(n) => n != 0
    case Str(s) => s != ""
    case Ref(_) => true
  }

  /** The first argument of a call, `undefined` when the call had none. */
  function First(args: seq<Val>): (v: Val)
    ensures |args| == 0 ==> v == Undefined
    ensures |args| > 0 ==> v == args[0]
  {
    if |args| == 0 then Undefined else args[0]
  }

  /** The names an object literal inherits from `Object.prototype`: `in` finds them, and so
      does a property read. */
  const ObjectPrototypeNames: set<string> := {
    "constructor", "hasOwnProperty", "isPrototypeOf", "propertyIsEnumerable", "toLocaleString",
    "toString", "valueOf", "__proto__", "__defineGetter__", "__defineSetter__",
    "__lookupGetter__", "__lookupSetter__"}

  /** A sequence in which no element occurs twice. */
  predicate NoDup<T(==)>(s: seq<T>) {
    forall i, j | 0 <= i < j < |s| :: s[i] != s[j]
  }
}

=== FILE: registry.dfy ===
/** The subscription registry under every stream of base/dynamic/stream.js: each stream owns a
    queue of subscribed functions, and each subscribed function carries `queuedBy`, the list of
    queues it sits in. Both sides are keyed by function identity; a stream is a function too, so
    a stream can itself sit in other streams' queues. */
module Registry {
  import opened Js
  import ArrayExt

  datatype Registry = Registry(
    queues: map<FnId, seq<FnId>>,   // stream -> its queue, in subscription order
    queuedBy: map<FnId, seq<FnId>>  // function -> streams whose queue holds it (`fn.queuedBy`)
  )

  /** The queue of stream `s` (empty for anything that is not a stream). */
  function QueueOf(r: Registry, s: FnId): seq<FnId> {
    if s in r.queues then r.queues[s] else []
  }

  /** `fn.queuedBy`, read as empty when the property is absent. */
  function QueuedBy(r: Registry, f: FnId): seq<FnId> {
    if f in r.queuedBy then r.queuedBy[f] else []
  }

  /** No queue holds a function twice, and the reverse index agrees with the queues both ways. */
  ghost predicate Consistent(r: Registry) {
    QueuesNoDup(r) && IndexNoDup(r) && QueuesIndexed(r) && IndexQueued(r)
  }

  ghost predicate QueuesNoDup(r: Registry) {
    forall s | s in r.queues :: NoDup(r.queues[s])
  }

  ghost predicate IndexNoDup(r: Registry) {
    forall f | f in r.queuedBy :: NoDup(r.queuedBy[f])
  }

  /** Every queued function lists the queue in its `queuedBy`. */
  ghost predicate QueuesIndexed(r: Registry) {
    forall s, f | s in r.queues && f in r.queues[s] :: f in r.queuedBy && s in r.queuedBy[f]
  }

  /** Every queue a function lists in its `queuedBy` holds it. */
  ghost predicate IndexQueued(r: Registry) {
    forall f, s | f in r.queuedBy && s in r.queuedBy[f] :: s in r.queues && f in r.queues[s]
  }

  /** `f` is subscribed to `s`, seen from the queue. */
  predicate Subscribed(r: Registry, s: FnId, f: FnId) {
    f in QueueOf(r, s)
  }

  /** The registry with no streams and no subscriptions. */
  function Empty(): (r: Registry)
    ensures Consistent(r)
  {
    Registry(map[], map[])
  }

  /** Registers a new stream with an empty queue. */
  function AddStream(r: Registry, s: FnId): (r': Registry)
    requires s !in r.queues && s !in r.queuedBy
    ensures Consistent(r) ==> Consistent(r')
    ensures QueueOf(r', s) == []
    ensures forall t | t != s :: QueueOf(r', t) == QueueOf(r, t)
    ensures forall g :: QueuedBy(r', g) == QueuedBy(r, g)
  {
    Registry(r.queues[s := []], r.queuedBy)
  }

  /** Removes `x` from the list `m[k]` for every key `k` listed in `keys`. Both `queue.off()`
      (on every subscriber's `queuedBy`) and `_.off(fn)` (on every queue in `fn.queuedBy`) do
      this, with `Array.remove`. */
  function Strip(m: map<FnId, seq<FnId>>, keys: seq<FnId>, x: FnId): (m': map<FnId, seq<FnId>>)
    ensures m'.Keys == m.Keys
    ensures forall k | k in m :: m'[k] == if k in keys then ArrayExt.Without(m[k], x) else m[k]
    decreases |keys|
  {
    if |keys| == 0 then m
    else
      var k := keys[0];
      if k in m then
        ArrayExt.WithoutIdempotent(m[k], x);
        Strip(m[k := ArrayExt.Without(m[k], x)], keys[1..], x)
      else Strip(m, keys[1..], x)
  }

  /** `scheduleRead(fn)` of stream `s`: appends `fn` to the queue and `s` to `fn.queuedBy`,
      unless `fn` is already queued, in which case nothing changes. */
  function ScheduleRead(r: Registry, s: FnId, f: FnId): (r': Registry)
    requires s in r.queues
    ensures Subscribed(r', s, f)
    ensures Consistent(r) ==> s in QueuedBy(r', f)
    ensures Subscribed(r, s, f) ==> r' == r
    ensures !Subscribed(r, s, f) ==>
      QueueOf(r', s) == QueueOf(r, s) + [f] && QueuedBy(r', f) == QueuedBy(r, f) + [s]
    ensures forall t | t != s :: QueueOf(r', t) == QueueOf(r, t)
    ensures forall g | g != f :: QueuedBy(r', g) == QueuedBy(r, g)
    ensures r'.queues.Keys == r.queues.Keys
  {
    if f in r.queues[s] then r
    else Registry(r.queues[s := r.queues[s] + [f]], r.queuedBy[f := QueuedBy(r, f) + [s]])
  }

  /** `queue.off()` of stream `s`: every subscriber forgets `s` in its `queuedBy`, and the
      queue is emptied. An empty queue is left alone (the `this.length` guard). */
  function QueueOffAll(r: Registry, s: FnId): (r': Registry)
    ensures QueueOf(r', s) == []
    ensures forall t | t != s :: QueueOf(r', t) == QueueOf(r, t)
    ensures forall g :: QueuedBy(r', g) == (if g in QueueOf(r, s) then ArrayExt.Without(QueuedBy(r, g), s) else QueuedBy(r, g))
    ensures r'.queues.Keys == r.queues.Keys && r'.queuedBy.Keys == r.queuedBy.Keys
  {
    if |QueueOf(r, s)| == 0 then r
    else Registry(r.queues[s := []], Strip(r.queuedBy, r.queues[s], s))
  }

  /** `queue.off(fn)` of stream `s`: drops `fn` from the queue and `s` from `fn.queuedBy`. It
      does nothing on an empty queue or when `fn` has no `queuedBy`. */
  function QueueOffOne(r: Registry, s: FnId, f: FnId): (r': Registry)
    ensures QueueOf(r', s) == if f in r.queuedBy then ArrayExt.Without(QueueOf(r, s), f) else QueueOf(r, s)
    ensures QueuedBy(r', f) ==
      if f in r.queuedBy && |QueueOf(r, s)| > 0 then ArrayExt.Without(QueuedBy(r, f), s) else QueuedBy(r, f)
    ensures forall t | t != s :: QueueOf(r', t) == QueueOf(r, t)
    ensures forall g | g != f :: QueuedBy(r', g) == QueuedBy(r, g)
    ensures r'.queues.Keys == r.queues.Keys && r'.queuedBy.Keys == r.queuedBy.Keys
  {
    if |QueueOf(r, s)| == 0 || f !in r.queuedBy then r
    else Registry(r.queues[s := ArrayExt.Without(r.queues[s], f)],
                  r.queuedBy[f := ArrayExt.Without(r.queuedBy[f], s)])
  }

  /** The arguments after the first one of `_.off(fn, ...)`: none, one function, or a
      non-function (what `enumMethods` passes: the member's name). */
  datatype OffWhat = Everything | Listener(f: FnId) | NonFunction

  /** `queue.off(...)` dispatched on its arguments. */
  function QueueOff(r: Registry, s: FnId, what: OffWhat): Registry {
    match what
    case Everything => QueueOffAll(r, s)
    case Listener(f) => QueueOffOne(r, s, f)
    case NonFunction => r
  }

  /** `_.off(fn, ...)`: when `fn` is a stream, its queue is cleared (no argument) or loses the
      one given listener; then, whatever the arguments, when `fn` has a `queuedBy` it is removed
      from every queue listed there and `queuedBy` is deleted. */
  function Off(r: Registry, fn: FnId, what: OffWhat): (r': Registry)
    ensures r'.queues.Keys == r.queues.Keys
    ensures r'.queuedBy.Keys == r.queuedBy.Keys - {fn}
    ensures fn !in r'.queuedBy
    // every other queue loses `fn` exactly when `fn.queuedBy` lists it; so does `fn`'s own
    // queue when `fn` is no stream or the second argument is no function
    ensures forall s | s != fn || fn !in r.queues || what.NonFunction? ::
      QueueOf(r', s) == if s in QueuedBy(r, fn) then ArrayExt.Without(QueueOf(r, s), fn) else QueueOf(r, s)
    // `fn.queue.off()` empties the stream's own queue and un-indexes its subscribers
    ensures fn in r.queues && what.Everything? ==> QueueOf(r', fn) == []
    ensures fn in r.queues && what.Everything? ==> forall g | g != fn ::
      QueuedBy(r', g) == if g in QueueOf(r, fn) then ArrayExt.Without(QueuedBy(r, g), fn) else QueuedBy(r, g)
    // `fn.queue.off(f)` touches only `f` besides `fn`
    ensures fn in r.queues && what.Listener? && what.f != fn ==>
      var q := if what.f in r.queuedBy then ArrayExt.Without(QueueOf(r, fn), what.f) else QueueOf(r, fn);
      QueueOf(r', fn) == if fn in QueuedBy(r, fn) then ArrayExt.Without(q, fn) else q
    ensures forall g | g != fn && (fn !in r.queues || what.NonFunction? || (what.Listener? && g != what.f)) ::
      QueuedBy(r', g) == QueuedBy(r, g)
  {
    var r1 := if fn in r.queues then QueueOff(r, fn, what) else r;
    assert r1.queuedBy.Keys == r.queuedBy.Keys;
    assert forall s | s != fn :: s in QueuedBy(r1, fn) <==> s in QueuedBy(r, fn) by {
      forall s | s != fn ensures s in QueuedBy(r1, fn) <==> s in QueuedBy(r, fn) {
        WithoutMembers(QueuedBy(r, fn), fn, s);
      }
    }
    assert what.Listener? && what.f != fn ==> QueuedBy(r1, fn) == QueuedBy(r, fn);
    if fn in r1.queuedBy then Detach(r1, fn) else r1
  }

  /** The `queuedBy` half of `_.off(fn)`: `fn` leaves every queue it lists, and its
      `queuedBy` is deleted. */
  function Detach(r: Registry, fn: FnId): (r': Registry)
    requires fn in r.queuedBy
    ensures r'.queues.Keys == r.queues.Keys
    ensures forall s :: QueueOf(r', s) == if s in r.queuedBy[fn] then ArrayExt.Without(QueueOf(r, s), fn) else QueueOf(r, s)
    ensures fn !in r'.queuedBy && forall g | g != fn :: QueuedBy(r', g) == QueuedBy(r, g)
  {
    Registry(Strip(r.queues, r.queuedBy[fn], fn), r.queuedBy - {fn})
  }

  lemma {:induction false} WithoutNoDup(s: seq<FnId>, x: FnId)
    requires NoDup(s)
    ensures NoDup(ArrayExt.Without(s, x))
  {
    if |s| > 0 {
      assert NoDup(s[1..]) by {
        forall i, j | 0 <= i < j < |s[1..]| ensures s[1..][i] != s[1..][j] {
          assert s[1..][i] == s[i + 1] && s[1..][j] == s[j + 1];
        }
      }
      WithoutNoDup(s[1..], x);
      var w := ArrayExt.Without(s[1..], x);
      if s[0] != x {
        assert s[0] !in s[1..];
        assert s[0] !in w;
        var c := [s[0]] + w;
        forall i, j | 0 <= i < j < |c| ensures c[i] != c[j] {
          if i == 0 { assert c[j] == w[j - 1]; } else { assert c[i] == w[i - 1] && c[j] == w[j - 1]; }
        }
      }
    }
  }

  lemma WithoutMembers(s: seq<FnId>, x: FnId, y: FnId)
    ensures y in ArrayExt.Without(s, x) <==> y in s && y != x
  {
    var w := ArrayExt.Without(s, x);
    if y in s && y != x {
      var i :| 0 <= i < |s| && s[i] == y;
    }
    if y in w {
      var i :| 0 <= i < |w| && w[i] == y;
    }
  }

  /** Subscribing keeps the registry consistent. */
  lemma ScheduleReadConsistent(r: Registry, s: FnId, f: FnId)
    requires Consistent(r) && s in r.queues
    ensures Consistent(ScheduleRead(r, s, f))
  {
    if f !in r.queues[s] {
      var r' := ScheduleRead(r, s, f);
      assert s !in QueuedBy(r, f);
      assert NoDup(r.queues[s] + [f]);
      assert NoDup(QueuedBy(r, f) + [s]);
      forall t, g | t in r'.queues && g in r'.queues[t] ensures g in r'.queuedBy && t in r'.queuedBy[g] {
        if t == s && g == f {
        } else {
          assert g in r.queues[t];
        }
      }
    }
  }

  /** `queue.off()` keeps the registry consistent. */
  lemma QueueOffAllConsistent(r: Registry, s: FnId)
    requires Consistent(r)
    ensures Consistent(QueueOffAll(r, s))
  {
    var r' := QueueOffAll(r, s);
    if |QueueOf(r, s)| > 0 {
      var q := r.queues[s];
      forall g | g in r'.queuedBy ensures NoDup(r'.queuedBy[g]) {
        if g in q { WithoutNoDup(r.queuedBy[g], s); }
      }
      forall t, g | t in r'.queues && g in r'.queues[t] ensures g in r'.queuedBy && t in r'.queuedBy[g] {
        assert t != s;
        if g in q { WithoutMembers(r.queuedBy[g], s, t); }
      }
      forall g, t | g in r'.queuedBy && t in r'.queuedBy[g] ensures t in r'.queues && g in r'.queues[t] {
        if g in q { WithoutMembers(r.queuedBy[g], s, t); }
      }
    }
  }

  /** `queue.off(fn)` keeps the registry consistent. */
  lemma QueueOffOneConsistent(r: Registry, s: FnId, f: FnId)
    requires Consistent(r)
    ensures Consistent(QueueOffOne(r, s, f))
  {
    if |QueueOf(r, s)| > 0 && f in r.queuedBy {
      var q, b := r.queues[s], r.queuedBy[f];
      var q', b' := ArrayExt.Without(q, f), ArrayExt.Without(b, s);
      var qs, bs := r.queues[s := q'], r.queuedBy[f := b'];
      assert QueueOffOne(r, s, f) == Registry(qs, bs);
      WithoutNoDup(q, f);
      WithoutNoDup(b, s);
      assert forall t | t in qs :: NoDup(qs[t]);
      assert forall g | g in bs :: NoDup(bs[g]);
      forall t, g | t in qs && g in qs[t] ensures g in bs && t in bs[g] {
        if t == s {
          WithoutMembers(q, f, g);
          assert g in r.queues[t] && g != f;
        } else {
          assert g in r.queues[t];
          if g == f { WithoutMembers(b, s, t); }
        }
      }
      forall g, t | g in bs && t in bs[g] ensures t in qs && g in qs[t] {
        if g == f {
          WithoutMembers(b, s, t);
          assert t in r.queuedBy[g] && t != s;
        } else {
          assert t in r.queuedBy[g];
          if t == s { WithoutMembers(q, f, g); }
        }
      }
    }
  }

  /** The second half of `_.off`: removing `fn` everywhere its `queuedBy` points keeps a
      consistent registry consistent and leaves `fn` in no queue. */
  lemma DetachConsistent(r: Registry, fn: FnId)
    requires Consistent(r) && fn in r.queuedBy
    ensures Consistent(Detach(r, fn))
    ensures forall t :: !Subscribed(Detach(r, fn), t, fn)
  {
    DetachQueues(r, fn);
    DetachForward(r, fn);
    DetachBack(r, fn);
    var r' := Detach(r, fn);
    assert IndexNoDup(r') by {
      forall g | g in r'.queuedBy ensures NoDup(r'.queuedBy[g]) { assert r'.queuedBy[g] == r.queuedBy[g]; }
    }
  }

  lemma DetachQueues(r: Registry, fn: FnId)
    requires Consistent(r) && fn in r.queuedBy
    ensures QueuesNoDup(Detach(r, fn))
    ensures forall t :: !Subscribed(Detach(r, fn), t, fn)
  {
    var ks := r.queuedBy[fn];
    var qs := Detach(r, fn).queues;
    forall t | t in r.queues ensures NoDup(qs[t]) && fn !in qs[t] {
      if t in ks {
        WithoutNoDup(r.queues[t], fn);
      } else {
        assert qs[t] == r.queues[t];
      }
    }
  }

  lemma DetachForward(r: Registry, fn: FnId)
    requires QueuesIndexed(r) && fn in r.queuedBy
    ensures QueuesIndexed(Detach(r, fn))
  {
    var r' := Detach(r, fn);
    forall t, g | t in r'.queues && g in r'.queues[t] ensures g in r'.queuedBy && t in r'.queuedBy[g] {
      DetachKeeps(r, fn, t, g);
    }
  }

  /** A function still queued on `t` after the detach was queued there before, and is not `fn`. */
  lemma DetachKeeps(r: Registry, fn: FnId, t: FnId, g: FnId)
    requires QueuesIndexed(r) && fn in r.queuedBy
    requires t in Detach(r, fn).queues && g in Detach(r, fn).queues[t]
    ensures g in r.queues[t] && g != fn
    ensures g in Detach(r, fn).queuedBy && t in Detach(r, fn).queuedBy[g]
  {
    var r' := Detach(r, fn);
    var q := r.queues[t];
    assert QueueOf(r', t) == r'.queues[t] && QueueOf(r, t) == q;
    if t in r.queuedBy[fn] {
      WithoutMembers(q, fn, g);
    } else {
      assert fn !in q;
    }
    assert QueuedBy(r', g) == QueuedBy(r, g);
  }

  lemma DetachBack(r: Registry, fn: FnId)
    requires Consistent(r) && fn in r.queuedBy
    ensures IndexQueued(Detach(r, fn))
  {
    var ks := r.queuedBy[fn];
    var r' := Detach(r, fn);
    forall g, t | g in r'.queuedBy && t in r'.queuedBy[g] ensures t in r'.queues && g in r'.queues[t] {
      assert t in r.queuedBy[g] && g != fn;
      assert g in r.queues[t];
      if t in ks { WithoutMembers(r.queues[t], fn, g); }
    }
  }

  /** `_.off` keeps the registry consistent, whatever it is called with. */
  lemma OffConsistent(r: Registry, fn: FnId, what: OffWhat)
    requires Consistent(r)
    ensures Consistent(Off(r, fn, what))
  {
    var r1 := if fn in r.queues then QueueOff(r, fn, what) else r;
    if fn in r.queues {
      match what
      case Everything => QueueOffAllConsistent(r, fn);
      case Listener(f) => QueueOffOneConsistent(r, fn, f);
      case NonFunction =>
    }
    if fn in r1.queuedBy { DetachConsistent(r1, fn); }
  }

  /** `_.off(fn)` on a plain callback removes it from exactly the queues it sat in, drops its
      `queuedBy`, and changes no other function's `queuedBy`. */
  lemma OffCallback(r: Registry, fn: FnId)
    requires Consistent(r) && fn !in r.queues
    ensures forall s :: QueueOf(Off(r, fn, Everything), s) == ArrayExt.Without(QueueOf(r, s), fn)
    ensures forall s :: !Subscribed(Off(r, fn, Everything), s, fn)
    ensures QueuedBy(Off(r, fn, Everything), fn) == []
    ensures forall g | g != fn :: QueuedBy(Off(r, fn, Everything), g) == QueuedBy(r, g)
  {
    var r' := Off(r, fn, Everything);
    forall s ensures QueueOf(r', s) == ArrayExt.Without(QueueOf(r, s), fn) {
      if fn in r.queuedBy && s in r.queues && s !in r.queuedBy[fn] {
        ArrayExt.WithoutAbsent(r.queues[s], fn);
      } else if s in r.queues && fn !in r.queuedBy {
        ArrayExt.WithoutAbsent(r.queues[s], fn);
      }
    }
  }

  /** `_.off` on a callback that is not subscribed anywhere changes no subscription. */
  lemma OffUnsubscribedNoop(r: Registry, fn: FnId, what: OffWhat)
    requires fn !in r.queues && QueuedBy(r, fn) == []
    ensures Off(r, fn, what).queues == r.queues
    ensures forall g :: QueuedBy(Off(r, fn, what), g) == QueuedBy(r, g)
  {
  }

  /** `_.off(stream)` empties the stream's queue, and every function that was in it forgets
      that stream in its `queuedBy`. */
  lemma OffStream(r: Registry, s: FnId)
    requires Consistent(r) && s in r.queues && s !in r.queuedBy
    ensures QueueOf(Off(r, s, Everything), s) == []
    ensures forall g :: QueuedBy(Off(r, s, Everything), g) == (if g in QueueOf(r, s) then ArrayExt.Without(QueuedBy(r, g), s) else QueuedBy(r, g))
    ensures forall t | t != s :: QueueOf(Off(r, s, Everything), t) == QueueOf(r, t)
  {
    var r1 := QueueOffAll(r, s);
    assert s !in r.queues[s];
    assert s !in r1.queuedBy;
  }

  /** An element of a duplicate-free queue occurs neither before nor after its position. */
  lemma NoDupMiddle(a: seq<FnId>, x: FnId, b: seq<FnId>)
    requires NoDup(a + ([x] + b))
    ensures x !in a && x !in b
  {
    var s := a + ([x] + b);
    assert s[|a|] == x;
    forall i | 0 <= i < |a| ensures a[i] != x { assert s[i] == a[i]; }
    forall i | 0 <= i < |b| ensures b[i] != x { assert s[|a| + 1 + i] == b[i]; }
  }

  /** `stream.off(fn)`, i.e. `_.off(stream, fn)`, for a stream that is not itself subscribed
      anywhere: exactly `fn` leaves the queue. */
  lemma OffListener(r: Registry, s: FnId, f: FnId)
    requires Consistent(r) && s in r.queues && s !in r.queuedBy && Subscribed(r, s, f)
    ensures QueueOf(Off(r, s, Listener(f)), s) == ArrayExt.Without(QueueOf(r, s), f)
    ensures !Subscribed(Off(r, s, Listener(f)), s, f)
    ensures s !in QueuedBy(Off(r, s, Listener(f)), f)
    ensures forall t | t != s :: QueueOf(Off(r, s, Listener(f)), t) == QueueOf(r, t)
  {
    assert f in r.queuedBy;
    var r1 := QueueOffOne(r, s, f);
    assert s !in r1.queuedBy by {
      if s == f { } else { assert QueuedBy(r1, s) == QueuedBy(r, s); }
    }
  }

  /** `_.off(stream, fn)` also runs the `queuedBy` half on the stream itself: when the stream
      sits in another stream's queue, unsubscribing one listener from it also unsubscribes the
      stream from that other queue. */
  lemma OffListenerAlsoDetachesStream(r: Registry, s: FnId, f: FnId, t: FnId)
    requires Consistent(r) && s in r.queues && s != f && Subscribed(r, t, s)
    ensures !Subscribed(Off(r, s, Listener(f)), t, s)
  {
    var r1 := QueueOffOne(r, s, f);
    assert Off(r, s, Listener(f)) == if s in r1.queuedBy then Detach(r1, s) else r1;
    QueueOffOneConsistent(r, s, f);
    assert s in r1.queuedBy by {
      assert s in r.queuedBy && t in QueuedBy(r, s);
      assert QueuedBy(r1, s) == QueuedBy(r, s);
    }
    DetachQueues(r1, s);
  }

  /** `_.off` only ever removes subscriptions. */
  lemma OffOnlyRemoves(r: Registry, fn: FnId, what: OffWhat, t: FnId, g: FnId)
    requires Subscribed(Off(r, fn, what), t, g)
    ensures Subscribed(r, t, g)
  {
    var r1 := if fn in r.queues then QueueOff(r, fn, what) else r;
    assert Subscribed(r1, t, g) by {
      if fn in r1.queuedBy && t in r1.queues && t in r1.queuedBy[fn] {
        WithoutMembers(r1.queues[t], fn, g);
      }
    }
    if fn in r.queues && t == fn && what.Listener? && what.f in r.queuedBy {
      WithoutMembers(QueueOf(r, fn), what.f, g);
    }
  }

  /** After `stream.off(f)`, `f` is no longer subscribed to the stream. */
  lemma OffListenerRemoves(r: Registry, s: FnId, f: FnId)
    requires Consistent(r) && s in r.queues
    ensures !Subscribed(Off(r, s, Listener(f)), s, f)
  {
    if f in r.queuedBy && f != s {
      WithoutMembers(QueueOf(r, s), f, f);
    }
  }

  /** `stream.off(f)` for an `f` that was never subscribed, on a stream that is not itself
      subscribed anywhere, changes nothing. */
  lemma OffListenerNoop(r: Registry, s: FnId, f: FnId)
    requires f !in r.queuedBy && s !in r.queuedBy
    ensures Off(r, s, Listener(f)) == r
  {
  }

  /** `_.off(fn, name, def)`, the call `enumMethods(_.off)` makes: whether or not `fn` is a
      stream, its own queue is left as it is, and `fn` leaves every queue it sat in. */
  lemma OffNonFunction(r: Registry, fn: FnId)
    requires Consistent(r)
    ensures forall s :: QueueOf(Off(r, fn, NonFunction), s) == ArrayExt.Without(QueueOf(r, s), fn)
    ensures forall s :: !Subscribed(Off(r, fn, NonFunction), s, fn)
  {
    var r' := Off(r, fn, NonFunction);
    forall s ensures QueueOf(r', s) == ArrayExt.Without(QueueOf(r, s), fn) {
      if fn in r.queuedBy && s in r.queues && s !in r.queuedBy[fn] {
        ArrayExt.WithoutAbsent(r.queues[s], fn);
      } else if s in r.queues && fn !in r.queuedBy {
        ArrayExt.WithoutAbsent(r.queues[s], fn);
      }
    }
  }

  /** In a consistent registry a function without `queuedBy` sits in no queue. */
  lemma UnindexedUnsubscribed(r: Registry, f: FnId)
    requires Consistent(r) && f !in r.queuedBy
    ensures forall s :: !Subscribed(r, s, f)
  {
  }
}

=== FILE: streams.dfy ===
/** The stream primitives of base/dynamic/stream.js. A stream is a function: called with a
    function it subscribes it (a "read"), called with values it publishes them (a "write").
    Four retention policies sit on the shared registry: `trigger`, `triggerOnce`, `barrier`
    and `observable`. Callbacks are function ids; what a callback does when invoked is given by
    its `Behaviour`, and a publish yields the trace of calls it made, in order. */
module Streams {
  import opened Js
  import ArrayExt
  import Registry

  /** The retention policy of a stream, with the state it keeps. */
  datatype Policy =
    | Trigger
    | TriggerOnce
    | Barrier(already: bool, value: Val)
    | Observable(hasValue: bool, value: Val, trackReference: bool)

  /** What an invoked function does. Functions with no entry are opaque user callbacks that
      return normally. The wrappers are the closures `once`, `when` and `allTriggered` create. */
  datatype Behaviour =
    | Plain
    | Throws                                            // raises: the dispatch is abandoned
    | OnceWrapper(owner: FnId, target: FnId)              // `once(target)` on stream `owner`
    | WhenWrapper(owner: FnId, pred: Val -> bool, target: FnId)  // `when(pred, target)`
    | AllWrapper(group: nat, trigger: FnId)             // `allTriggered` listener on `trigger`

  /** The shared state of one `allTriggered(triggers, target)` call. */
  datatype Group = Group(triggers: seq<FnId>, triggered: seq<FnId>, target: Option<FnId>)

  /** One call of a user function, with its arguments. */
  datatype Call = Call(fn: FnId, args: seq<Val>)

  datatype World = World(
    reg: Registry.Registry,
    policies: map<FnId, Policy>,
    behaviours: map<FnId, Behaviour>,
    groups: map<nat, Group>,
    isEqual: (Val, Val) -> bool     // `_.isEqual`, deep equality
  )

  /** The world after a step, the calls it made, and whether an exception escaped. */
  datatype Outcome = Outcome(world: World, trace: seq<Call>, thrown: bool)

  predicate IsStream(w: World, s: FnId) {
    s in w.policies && s in w.reg.queues
  }

  /** A stream whose subscribers are called at once with `value`: an open barrier or an
      observable holding a value. */
  predicate HoldsValue(p: Policy) {
    (p.Barrier? && p.already) || (p.Observable? && p.hasValue)
  }

  predicate IsObservable(w: World, s: FnId) {
    IsStream(w, s) && w.policies[s].Observable?
  }

  function BehaviourOf(w: World, f: FnId): Behaviour {
    if f in w.behaviours then w.behaviours[f] else Plain
  }

  /** `f` names a new function object: nothing refers to it yet. */
  ghost predicate Fresh(w: World, f: FnId) {
    && f !in w.behaviours && f !in w.policies && f !in w.reg.queues && f !in w.reg.queuedBy
    && forall s | s in w.reg.queues :: f !in w.reg.queues[s]
  }

  /** What a step may change: subscriptions and `allTriggered` groups, never the set of
      streams, their policies, or which function does what. */
  ghost predicate Frame(w: World, w': World) {
    && w'.policies == w.policies
    && w'.behaviours == w.behaviours
    && w'.reg.queues.Keys == w.reg.queues.Keys
    && w'.isEqual == w.isEqual
    && w'.groups.Keys == w.groups.Keys
    && forall g | g in w.groups :: w'.groups[g].triggers == w.groups[g].triggers
  }

  /** `_.union(triggered, [t])`. */
  function AddOnce(xs: seq<FnId>, t: FnId): seq<FnId> {
    if t in xs then xs else xs + [t]
  }

  /** Calling `f` as an ordinary function raises. */
  predicate Raises(w: World, f: FnId) {
    BehaviourOf(w, f) == Throws
  }

  /** The listener for `t` completes group `gr` while its `then` is still pending. */
  predicate Completes(gr: Group, t: FnId) {
    gr.target.Some? && |AddOnce(gr.triggered, t)| == |gr.triggers|
  }

  /** The group after its listener for `t` ran: `t` is recorded, and a completed group forgets
      `then` once that call has returned (`then = undefined` is skipped when `then` raises). */
  function Fire(gr: Group, t: FnId, raises: bool): Group {
    Group(gr.triggers, AddOnce(gr.triggered, t), if Completes(gr, t) && !raises then None else gr.target)
  }

  /** Calls function `f` with `args`. A wrapper calls its `target` as an ordinary function,
      after its own bookkeeping, and an exception from `target` escapes the wrapper. */
  function Invoke(w: World, f: FnId, args: seq<Val>): (o: Outcome)
    ensures Frame(w, o.world)
  {
    match BehaviourOf(w, f)
    case Plain => Outcome(w, [Call(f, args)], false)
    case Throws => Outcome(w, [Call(f, args)], true)
    case OnceWrapper(s, target) =>
      Outcome(w.(reg := Registry.Off(w.reg, s, Registry.Listener(f))), [Call(target, [First(args)])], Raises(w, target))
    case WhenWrapper(s, pred, target) =>
      if pred(First(args)) then
        Outcome(w.(reg := Registry.Off(w.reg, s, Registry.Listener(f))), [Call(target, [First(args)])], Raises(w, target))
      else Outcome(w, [], false)
    case AllWrapper(g, t) =>
      if g !in w.groups then Outcome(w, [], false)
      else
        var gr := w.groups[g];
        var fires := Completes(gr, t);
        var raises := fires && Raises(w, gr.target.value);
        Outcome(w.(groups := w.groups[g := Fire(gr, t, raises)]), if fires then [Call(gr.target.value, [])] else [], raises)
  }

  /** Calls every function of the snapshot `sched` in order with `args`; an exception stops
      the loop (there is no try/catch around it). */
  function Dispatch(w: World, sched: seq<FnId>, args: seq<Val>): (o: Outcome)
    ensures Frame(w, o.world)
    decreases |sched|
  {
    if |sched| == 0 then Outcome(w, [], false)
    else
      var o1 := Invoke(w, sched[0], args);
      if o1.thrown then o1
      else
        var o2 := Dispatch(o1.world, sched[1..], args);
        Outcome(o2.world, o1.trace + o2.trace, o2.thrown)
  }

  /** `commitPendingReads(flush, args...)`: snapshot the queue, empty it when flushing, then
      call every function of the snapshot. */
  function Commit(w: World, s: FnId, flush: bool, args: seq<Val>): (o: Outcome)
    ensures Frame(w, o.world)
  {
    var sched := Registry.QueueOf(w.reg, s);
    var w1 := if flush then w.(reg := Registry.QueueOffAll(w.reg, s)) else w;
    Dispatch(w1, sched, args)
  }

  /** Publishing `args` on stream `s`. */
  function Write(w: World, s: FnId, args: seq<Val>): (o: Outcome)
    requires IsStream(w, s)
    ensures o.world.reg.queues.Keys == w.reg.queues.Keys && o.world.policies.Keys == w.policies.Keys
    ensures o.world.behaviours == w.behaviours && o.world.groups.Keys == w.groups.Keys
  {
    match w.policies[s]
    case Trigger => Commit(w, s, false, args)
    case TriggerOnce => Commit(w, s, true, args)
    case Barrier(already, value) =>
      var p := if already then Barrier(true, value) else Barrier(true, First(args));
      Commit(w.(policies := w.policies[s := p]), s, true, [p.value])
    case Observable(hasValue, value, trackReference) =>
      var x := First(args);
      var same := if trackReference then value == x else w.isEqual(value, x);
      if !hasValue || !same then
        Commit(w.(policies := w.policies[s := Observable(true, x, trackReference)]), s, false,
               if hasValue then [x, value] else [x])
      else Outcome(w, [], false)
  }

  /** Subscribing `f` to stream `s`. An open barrier calls `f` at once and does not queue it;
      an observable holding a value calls `f` with it and then queues it as well. */
  function Read(w: World, s: FnId, f: FnId): (o: Outcome)
    requires IsStream(w, s)
    ensures o.world.reg.queues.Keys == w.reg.queues.Keys
    ensures o.world.policies == w.policies && o.world.behaviours == w.behaviours
    ensures o.world.groups.Keys == w.groups.Keys
    ensures forall g | g in w.groups :: o.world.groups[g].triggers == w.groups[g].triggers
  {
    match w.policies[s]
    case Trigger => Outcome(w.(reg := Registry.ScheduleRead(w.reg, s, f)), [], false)
    case TriggerOnce => Outcome(w.(reg := Registry.ScheduleRead(w.reg, s, f)), [], false)
    case Barrier(already, value) =>
      if already then Invoke(w, f, [value])
      else Outcome(w.(reg := Registry.ScheduleRead(w.reg, s, f)), [], false)
    case Observable(hasValue, value, _) =>
      var o := if hasValue then Invoke(w, f, [value]) else Outcome(w, [], false);
      if o.thrown then o
      else Outcome(o.world.(reg := Registry.ScheduleRead(o.world.reg, s, f)), o.trace, false)
  }

  /** `stream.once(then)`: subscribes a new wrapper `wid` that unsubscribes itself and then
      calls `target` with the first argument. */
  function Once(w: World, s: FnId, target: FnId, wid: FnId): (o: Outcome)
    requires IsStream(w, s) && Fresh(w, wid)
    ensures o.world.policies == w.policies
    ensures o.world.behaviours == w.behaviours[wid := OnceWrapper(s, target)]
    ensures !HoldsValue(w.policies[s]) ==>
      o.trace == [] && !o.thrown && Registry.QueueOf(o.world.reg, s) == Registry.QueueOf(w.reg, s) + [wid]
    ensures HoldsValue(w.policies[s]) ==>
      o.trace == [Call(target, [w.policies[s].value])] && (o.thrown <==> Raises(w, target))
  {
    Read(w.(behaviours := w.behaviours[wid := OnceWrapper(s, target)]), s, wid)
  }

  /** `observable.when(pred, target)` as the source has it: the wrapper goes through an
      ordinary read, so a matching current value fires it before it is queued. */
  function When(w: World, s: FnId, pred: Val -> bool, target: FnId, wid: FnId): (o: Outcome)
    requires IsObservable(w, s) && Fresh(w, wid)
    ensures o.world.policies == w.policies
    ensures o.world.behaviours == w.behaviours[wid := WhenWrapper(s, pred, target)]
    ensures var p := w.policies[s]; !(p.hasValue && pred(p.value)) ==>
      o.trace == [] && !o.thrown && Registry.QueueOf(o.world.reg, s) == Registry.QueueOf(w.reg, s) + [wid]
    ensures var p := w.policies[s]; p.hasValue && pred(p.value) ==>
      o.trace == [Call(target, [p.value])] && (o.thrown <==> Raises(w, target))
  {
    Read(w.(behaviours := w.behaviours[wid := WhenWrapper(s, pred, target)]), s, wid)
  }

  /** `observable.force(value)`: forgets that a value is held and writes `value`, or the
      current value when `value` is falsy. */
  function Force(w: World, s: FnId, arg: Val): (o: Outcome)
    requires IsObservable(w, s)
    ensures var p := w.policies[s];
      o.world.policies == w.policies[s := Observable(true, if Truthy(arg) then arg else p.value, p.trackReference)]
    ensures o.world.behaviours == w.behaviours
  {
    var p := w.policies[s];
    var x := if Truthy(arg) then arg else p.value;
    Write(w.(policies := w.policies[s := Observable(false, p.value, p.trackReference)]), s, [x])
  }

  /** Subscribes the listeners `wids[i]` of group `g` to `triggers[i]`, in order. */
  function SubscribeAll(w: World, triggers: seq<FnId>, wids: seq<FnId>): (o: Outcome)
    requires |wids| == |triggers|
    requires forall t | t in triggers :: t in w.policies && t in w.reg.queues
    ensures o.world.policies == w.policies && o.world.behaviours == w.behaviours
    ensures o.world.reg.queues.Keys == w.reg.queues.Keys
    ensures o.world.groups.Keys == w.groups.Keys
    ensures forall g | g in w.groups :: o.world.groups[g].triggers == w.groups[g].triggers
    decreases |triggers|
  {
    if |triggers| == 0 then Outcome(w, [], false)
    else
      var o1 := Read(w, triggers[0], wids[0]);
      if o1.thrown then o1
      else
        var o2 := SubscribeAll(o1.world, triggers[1..], wids[1..]);
        Outcome(o2.world, o1.trace + o2.trace, o2.thrown)
  }

  /** `_.allTriggered(triggers, then)`: `target` runs once every trigger has fired at least once;
      with no triggers it runs at once (and an absent `target` raises). */
  function AllTriggered(w: World, triggers: seq<FnId>, target: Option<FnId>, g: nat, wids: seq<FnId>): (o: Outcome)
    requires |wids| == |triggers| && NoDup(wids) && g !in w.groups
    requires forall t | t in triggers :: t in w.policies && t in w.reg.queues
    requires forall f | f in wids :: Fresh(w, f)
    ensures |triggers| > 0 ==> o.world.policies == w.policies
    ensures |triggers| > 0 ==> o.world.behaviours == w.behaviours + Listeners(g, triggers, wids)
    ensures |triggers| > 0 ==> g in o.world.groups && o.world.groups[g].triggers == triggers
  {
    if |triggers| == 0 then
      if target.Some? then Outcome(w, [Call(target.value, [])], Raises(w, target.value)) else Outcome(w, [], true)
    else
      var w1 := w.(groups := w.groups[g := Group(triggers, [], target)], behaviours := w.behaviours + Listeners(g, triggers, wids));
      SubscribeAll(w1, triggers, wids)
  }

  /** The listener `wids[i]` of group `g` on `triggers[i]`, for every `i`. */
  function Listeners(g: nat, triggers: seq<FnId>, wids: seq<FnId>): (m: map<FnId, Behaviour>)
    requires |wids| == |triggers| && NoDup(wids)
    ensures m.Keys == set f | f in wids
    ensures forall i | 0 <= i < |wids| :: m[wids[i]] == AllWrapper(g, triggers[i])
    decreases |wids|
  {
    if |wids| == 0 then map[]
    else
      assert NoDup(wids[1..]) by {
        forall i, j | 0 <= i < j < |wids[1..]| ensures wids[1..][i] != wids[1..][j] {
          assert wids[1..][i] == wids[i + 1] && wids[1..][j] == wids[j + 1];
        }
      }
      assert forall f | f in wids[1..] :: f != wids[0];
      Listeners(g, triggers[1..], wids[1..])[wids[0] := AllWrapper(g, triggers[0])]
  }

  // ---------------------------------------------------------------------------------------
  // Dispatch

  /** Every function of `fs` is an ordinary callback. */
  predicate AllPlain(w: World, fs: seq<FnId>) {
    forall f | f in fs :: BehaviourOf(w, f) == Plain
  }

  /** One call of each function of `fs`, in order, all with `args`. */
  function Calls(fs: seq<FnId>, args: seq<Val>): (cs: seq<Call>)
    ensures |cs| == |fs|
    ensures forall i | 0 <= i < |fs| :: cs[i] == Call(fs[i], args)
  {
    seq(|fs|, i requires 0 <= i < |fs| => Call(fs[i], args))
  }

  /** Publishing to ordinary callbacks calls each of them once, in subscription order, with
      the published arguments, and changes nothing. */
  lemma {:induction false} DispatchPlain(w: World, sched: seq<FnId>, args: seq<Val>)
    requires AllPlain(w, sched)
    ensures Dispatch(w, sched, args) == Outcome(w, Calls(sched, args), false)
    decreases |sched|
  {
    if |sched| > 0 {
      DispatchPlain(w, sched[1..], args);
      assert Calls(sched, args) == [Call(sched[0], args)] + Calls(sched[1..], args);
    }
  }

  /** Ordinary callbacks at the front of the snapshot are called first and leave the world
      as it was for the rest. */
  lemma {:induction false} DispatchPlainPrefix(w: World, pre: seq<FnId>, rest: seq<FnId>, args: seq<Val>)
    requires AllPlain(w, pre)
    ensures Dispatch(w, pre + rest, args) ==
      var o := Dispatch(w, rest, args); Outcome(o.world, Calls(pre, args) + o.trace, o.thrown)
    decreases |pre|
  {
    var o := Dispatch(w, rest, args);
    if |pre| > 0 {
      assert (pre + rest)[0] == pre[0] && (pre + rest)[1..] == pre[1..] + rest;
      DispatchPlainPrefix(w, pre[1..], rest, args);
      assert Invoke(w, pre[0], args) == Outcome(w, [Call(pre[0], args)], false);
      assert Calls(pre, args) + o.trace == [Call(pre[0], args)] + (Calls(pre[1..], args) + o.trace);
    } else {
      assert pre + rest == rest && Calls(pre, args) == [];
    }
  }

  /** A callback that raises ends the publish: the callbacks after it are not called. */
  lemma DispatchStopsAtThrow(w: World, pre: seq<FnId>, t: FnId, post: seq<FnId>, args: seq<Val>)
    requires AllPlain(w, pre) && BehaviourOf(w, t) == Throws
    ensures Dispatch(w, pre + [t] + post, args) == Outcome(w, Calls(pre + [t], args), true)
  {
    assert pre + [t] + post == pre + ([t] + post);
    DispatchPlainPrefix(w, pre, [t] + post, args);
    assert Calls(pre + [t], args) == Calls(pre, args) + [Call(t, args)];
  }

  // ---------------------------------------------------------------------------------------
  // The retention policies

  /** `trigger`: every publish reaches every subscriber, and the subscribers stay. */
  lemma TriggerPublish(w: World, s: FnId, args: seq<Val>)
    requires IsStream(w, s) && w.policies[s] == Trigger && AllPlain(w, Registry.QueueOf(w.reg, s))
    ensures Write(w, s, args) == Outcome(w, Calls(Registry.QueueOf(w.reg, s), args), false)
  {
    DispatchPlain(w, Registry.QueueOf(w.reg, s), args);
  }

  /** `triggerOnce`: a publish reaches the current subscribers and unsubscribes them, so the
      next publish reaches none of them. */
  lemma TriggerOncePublish(w: World, s: FnId, args: seq<Val>, args': seq<Val>)
    requires IsStream(w, s) && w.policies[s] == TriggerOnce && AllPlain(w, Registry.QueueOf(w.reg, s))
    ensures var o := Write(w, s, args);
      && o.trace == Calls(Registry.QueueOf(w.reg, s), args) && !o.thrown
      && Registry.QueueOf(o.world.reg, s) == []
      && IsStream(o.world, s)
      && Write(o.world, s, args').trace == []
  {
    var w1 := w.(reg := Registry.QueueOffAll(w.reg, s));
    assert AllPlain(w1, Registry.QueueOf(w.reg, s));
    DispatchPlain(w1, Registry.QueueOf(w.reg, s), args);
  }

  /** `triggerOnce` subscriptions are consumed by the publish that follows them: `f` subscribed
      before the first publish hears only it, `f'` subscribed after it hears only the second. */
  lemma TriggerOnceFlushLaw(w: World, s: FnId, f: FnId, f': FnId, a: seq<Val>, b: seq<Val>)
    requires IsStream(w, s) && w.policies[s] == TriggerOnce && Registry.QueueOf(w.reg, s) == []
    requires BehaviourOf(w, f) == Plain && BehaviourOf(w, f') == Plain
    ensures var o1 := Write(Read(w, s, f).world, s, a);
      && o1.trace == [Call(f, a)]
      && Write(Read(o1.world, s, f').world, s, b).trace == [Call(f', b)]
  {
    var w1 := Read(w, s, f).world;
    assert Registry.QueueOf(w1.reg, s) == [f];
    TriggerOncePublish(w1, s, a, b);
    var o1 := Write(w1, s, a);
    var w2 := Read(o1.world, s, f').world;
    assert Registry.QueueOf(w2.reg, s) == [f'];
    TriggerOncePublish(w2, s, b, b);
  }

  /** `barrier`, first publish: the first argument is latched, the subscribers are called with
      it and unsubscribed. */
  lemma BarrierOpens(w: World, s: FnId, args: seq<Val>)
    requires IsStream(w, s) && w.policies[s].Barrier? && !w.policies[s].already
    requires AllPlain(w, Registry.QueueOf(w.reg, s))
    ensures var o := Write(w, s, args);
      && o.world.policies[s] == Barrier(true, First(args))
      && o.trace == Calls(Registry.QueueOf(w.reg, s), [First(args)]) && !o.thrown
      && Registry.QueueOf(o.world.reg, s) == []
  {
    var w1 := w.(policies := w.policies[s := Barrier(true, First(args))]);
    var w2 := w1.(reg := Registry.QueueOffAll(w1.reg, s));
    assert AllPlain(w2, Registry.QueueOf(w.reg, s));
    DispatchPlain(w2, Registry.QueueOf(w.reg, s), [First(args)]);
  }

  /** `barrier`, first publish: the first argument is latched, whoever is subscribed. */
  lemma BarrierLatches(w: World, s: FnId, args: seq<Val>)
    requires IsStream(w, s) && w.policies[s].Barrier? && !w.policies[s].already
    ensures Write(w, s, args).world.policies[s] == Barrier(true, First(args))
  {
  }

  /** `barrier`, once open: later publishes keep the latched value, whatever they carry. */
  lemma BarrierKeepsFirstValue(w: World, s: FnId, args: seq<Val>)
    requires IsStream(w, s) && w.policies[s].Barrier? && w.policies[s].already
    ensures Write(w, s, args).world.policies[s] == w.policies[s]
  {
  }

  /** `barrier`, once open: a late subscriber is called at once with the latched value and is
      not queued. */
  lemma BarrierLateRead(w: World, s: FnId, f: FnId)
    requires IsStream(w, s) && w.policies[s].Barrier? && w.policies[s].already
    requires BehaviourOf(w, f) == Plain
    ensures Read(w, s, f) == Outcome(w, [Call(f, [w.policies[s].value])], false)
  {
  }

  /** A publish changes no policy but its own stream's, and an open barrier stays as it is. */
  lemma WriteKeepsOpenBarriers(w: World, s: FnId, args: seq<Val>)
    requires IsStream(w, s)
    ensures forall t | t in w.policies && t != s :: Write(w, s, args).world.policies[t] == w.policies[t]
    ensures forall t | t in w.policies && w.policies[t].Barrier? && w.policies[t].already ::
      Write(w, s, args).world.policies[t] == w.policies[t]
  {
  }

  /** Whether `x` counts as the value an observable already holds. */
  predicate SameValue(w: World, p: Policy, x: Val)
    requires p.Observable?
  {
    if p.trackReference then p.value == x else w.isEqual(p.value, x)
  }

  /** `observable`: publishing the value it already holds does nothing at all. */
  lemma ObservableSameValue(w: World, s: FnId, args: seq<Val>)
    requires IsObservable(w, s) && w.policies[s].hasValue && SameValue(w, w.policies[s], First(args))
    ensures Write(w, s, args) == Outcome(w, [], false)
  {
  }

  /** `observable`: publishing a new value stores it and calls the subscribers with the new
      value and, when there was one, the previous value; they stay subscribed. */
  lemma ObservableNewValue(w: World, s: FnId, args: seq<Val>)
    requires IsObservable(w, s) && AllPlain(w, Registry.QueueOf(w.reg, s))
    requires !w.policies[s].hasValue || !SameValue(w, w.policies[s], First(args))
    ensures var p := w.policies[s]; var o := Write(w, s, args);
      && o.world.policies[s] == Observable(true, First(args), p.trackReference)
      && o.trace == Calls(Registry.QueueOf(w.reg, s), if p.hasValue then [First(args), p.value] else [First(args)])
      && o.world.reg == w.reg && !o.thrown
  {
    var p := w.policies[s];
    var w1 := w.(policies := w.policies[s := Observable(true, First(args), p.trackReference)]);
    assert AllPlain(w1, Registry.QueueOf(w.reg, s));
    DispatchPlain(w1, Registry.QueueOf(w.reg, s), if p.hasValue then [First(args), p.value] else [First(args)]);
  }

  /** `observable`: a subscriber is called at once with the held value, then queued. */
  lemma ObservableRead(w: World, s: FnId, f: FnId)
    requires IsObservable(w, s) && w.policies[s].hasValue && BehaviourOf(w, f) == Plain
    ensures var o := Read(w, s, f);
      && o.trace == [Call(f, [w.policies[s].value])] && !o.thrown
      && Registry.Subscribed(o.world.reg, s, f)
  {
  }

  /** `force` with a falsy argument publishes the held value again, to every subscriber, even
      though it has not changed; the subscribers hear only that value. */
  lemma ForceRepublishes(w: World, s: FnId, arg: Val)
    requires IsObservable(w, s) && !Truthy(arg) && AllPlain(w, Registry.QueueOf(w.reg, s))
    ensures var p := w.policies[s]; var o := Force(w, s, arg);
      && o.trace == Calls(Registry.QueueOf(w.reg, s), [p.value])
      && o.world.policies[s] == Observable(true, p.value, p.trackReference)
  {
    var p := w.policies[s];
    var w1 := w.(policies := w.policies[s := Observable(false, p.value, p.trackReference)]);
    ObservableNewValue(w1, s, [p.value]);
  }

  // ---------------------------------------------------------------------------------------
  // The world invariant

  /** The registry is consistent, the streams are exactly the functions with a queue, and an
      open barrier has nobody queued. */
  ghost predicate Consistent(w: World) {
    && Registry.Consistent(w.reg)
    && w.policies.Keys == w.reg.queues.Keys
    && OpenBarriersEmpty(w)
  }

  ghost predicate OpenBarriersEmpty(w: World) {
    forall s | s in w.policies && w.policies[s].Barrier? && w.policies[s].already :: Registry.QueueOf(w.reg, s) == []
  }

  /** Unsubscribing keeps the invariant. */
  lemma OffKeepsConsistent(w: World, fn: FnId, what: Registry.OffWhat)
    requires Consistent(w)
    ensures Consistent(w.(reg := Registry.Off(w.reg, fn, what)))
  {
    var r' := Registry.Off(w.reg, fn, what);
    Registry.OffConsistent(w.reg, fn, what);
    forall s | s in w.policies && w.policies[s].Barrier? && w.policies[s].already
      ensures Registry.QueueOf(r', s) == []
    {
      if |Registry.QueueOf(r', s)| > 0 {
        Registry.OffOnlyRemoves(w.reg, fn, what, s, Registry.QueueOf(r', s)[0]);
      }
    }
  }

  lemma InvokeConsistent(w: World, f: FnId, args: seq<Val>)
    requires Consistent(w)
    ensures Consistent(Invoke(w, f, args).world)
  {
    match BehaviourOf(w, f)
    case OnceWrapper(s, _) => OffKeepsConsistent(w, s, Registry.Listener(f));
    case WhenWrapper(s, pred, _) => if pred(First(args)) { OffKeepsConsistent(w, s, Registry.Listener(f)); }
    case _ =>
  }

  lemma {:induction false} DispatchConsistent(w: World, sched: seq<FnId>, args: seq<Val>)
    requires Consistent(w)
    ensures Consistent(Dispatch(w, sched, args).world)
    decreases |sched|
  {
    if |sched| > 0 {
      InvokeConsistent(w, sched[0], args);
      DispatchConsistent(Invoke(w, sched[0], args).world, sched[1..], args);
    }
  }

  /** Publishing keeps the invariant. */
  lemma WriteConsistent(w: World, s: FnId, args: seq<Val>)
    requires Consistent(w) && IsStream(w, s)
    ensures Consistent(Write(w, s, args).world)
  {
    var p := w.policies[s];
    var flush := p.TriggerOnce? || p.Barrier?;
    var w0 := match p
      case Barrier(already, value) =>
        w.(policies := w.policies[s := if already then Barrier(true, value) else Barrier(true, First(args))])
      case Observable(_, _, tr) => w.(policies := w.policies[s := Observable(true, First(args), tr)])
      case _ => w;
    var w1 := if flush then w0.(reg := Registry.QueueOffAll(w0.reg, s)) else w0;
    if flush { Registry.QueueOffAllConsistent(w0.reg, s); }
    assert Consistent(w1);
    if p.Observable? && p.hasValue && SameValue(w, p, First(args)) {
    } else {
      var sched := Registry.QueueOf(w.reg, s);
      var a := match p
        case Barrier(already, value) => [if already then value else First(args)]
        case Observable(hv, v, _) => if hv then [First(args), v] else [First(args)]
        case _ => args;
      DispatchConsistent(w1, sched, a);
    }
  }

  /** Subscribing keeps the invariant. */
  lemma ReadConsistent(w: World, s: FnId, f: FnId)
    requires Consistent(w) && IsStream(w, s)
    ensures Consistent(Read(w, s, f).world)
  {
    var p := w.policies[s];
    if p.Barrier? && p.already {
      InvokeConsistent(w, f, [p.value]);
    } else if p.Observable? {
      var o := if p.hasValue then Invoke(w, f, [p.value]) else Outcome(w, [], false);
      if p.hasValue { InvokeConsistent(w, f, [p.value]); }
      if !o.thrown { Registry.ScheduleReadConsistent(o.world.reg, s, f); }
    } else {
      Registry.ScheduleReadConsistent(w.reg, s, f);
    }
  }

  // ---------------------------------------------------------------------------------------
  // once, when

  /** The wrapper `when` creates unsubscribes itself when its predicate matches. */
  lemma WhenWrapperUnsubscribes(w: World, wid: FnId, args: seq<Val>)
    requires Consistent(w) && BehaviourOf(w, wid).WhenWrapper?
    requires IsStream(w, BehaviourOf(w, wid).owner) && BehaviourOf(w, wid).pred(First(args))
    ensures var b := BehaviourOf(w, wid); var o := Invoke(w, wid, args);
      && o.trace == [Call(b.target, [First(args)])]
      && !Registry.Subscribed(o.world.reg, b.owner, wid)
  {
    Registry.OffListenerRemoves(w.reg, BehaviourOf(w, wid).owner, wid);
  }

  /** A publish whose snapshot is ordinary callbacks followed by `f` calls them, then `f`. */
  lemma DispatchLast(w: World, q: seq<FnId>, f: FnId, args: seq<Val>)
    requires AllPlain(w, q)
    ensures var o := Dispatch(w, q + [f], args); var i := Invoke(w, f, args);
      o.world == i.world && o.trace == Calls(q, args) + i.trace && o.thrown == i.thrown
  {
    DispatchPlainPrefix(w, q, [f], args);
    var i := Invoke(w, f, args);
    if !i.thrown {
      assert Dispatch(i.world, [], args) == Outcome(i.world, [], false);
      assert i.trace + [] == i.trace;
    }
  }

  /** Subscribing a new function to a stream with no immediate call appends it to the queue. */
  lemma ScheduleFresh(w: World, s: FnId, wid: FnId)
    requires IsStream(w, s) && Fresh(w, wid)
    ensures Registry.QueueOf(Registry.ScheduleRead(w.reg, s, wid), s) == Registry.QueueOf(w.reg, s) + [wid]
    ensures wid !in Registry.QueueOf(w.reg, s)
  {
    assert wid !in w.reg.queues[s];
  }

  /** A publish on a `trigger` whose queue ends with a `once` wrapper calls the other
      subscribers, then `target`, and leaves the queue without the wrapper. */
  lemma OnceWrapperFires(w: World, s: FnId, q: seq<FnId>, target: FnId, wid: FnId, a: seq<Val>)
    requires Registry.Consistent(w.reg) && IsStream(w, s) && w.policies[s] == Trigger && s !in w.reg.queuedBy
    requires Registry.QueueOf(w.reg, s) == q + [wid] && wid !in q && AllPlain(w, q)
    requires BehaviourOf(w, wid) == OnceWrapper(s, target)
    ensures var o := Write(w, s, a);
      && o.trace == Calls(q, a) + [Call(target, [First(a)])]
      && o.world == w.(reg := o.world.reg)
      && Registry.QueueOf(o.world.reg, s) == q
      && o.thrown == Raises(w, target)
  {
    DispatchLast(w, q, wid, a);
    var r2 := Registry.Off(w.reg, s, Registry.Listener(wid));
    Registry.OffListener(w.reg, s, wid);
    ArrayExt.WithoutConcat(q, [wid], wid);
    ArrayExt.WithoutAbsent(q, wid);
    assert ArrayExt.Without([wid], wid) == [];
    assert Write(w, s, a).world == w.(reg := r2);
  }

  /** Dispatch runs on a snapshot: a `once` wrapper in the middle of the queue removes itself
      while the publish is under way, and the subscribers after it are still called, in order. */
  lemma OnceWrapperMid(w: World, s: FnId, q: seq<FnId>, post: seq<FnId>, target: FnId, wid: FnId, a: seq<Val>)
    requires Registry.Consistent(w.reg) && IsStream(w, s) && w.policies[s] == Trigger && s !in w.reg.queuedBy
    requires Registry.QueueOf(w.reg, s) == q + ([wid] + post) && AllPlain(w, q) && AllPlain(w, post)
    requires BehaviourOf(w, wid) == OnceWrapper(s, target) && !Raises(w, target)
    ensures var o := Write(w, s, a);
      && !o.thrown
      && o.trace == Calls(q, a) + [Call(target, [First(a)])] + Calls(post, a)
      && o.world == w.(reg := o.world.reg)
      && Registry.QueueOf(o.world.reg, s) == q + post
  {
    Registry.NoDupMiddle(q, wid, post);
    var w1 := w.(reg := Registry.Off(w.reg, s, Registry.Listener(wid)));
    Registry.OffListener(w.reg, s, wid);
    assert Invoke(w, wid, a) == Outcome(w1, [Call(target, [First(a)])], false);
    assert AllPlain(w1, post);
    DispatchAround(w, q, wid, post, a);
    ArrayExt.WithoutMiddle(q, wid, post);
  }

  /** A snapshot of ordinary callbacks around one function `f` that returns normally: the
      callbacks before `f` see the world as it was, the ones after it see the world `f` left. */
  lemma DispatchAround(w: World, q: seq<FnId>, f: FnId, post: seq<FnId>, a: seq<Val>)
    requires AllPlain(w, q) && !Invoke(w, f, a).thrown && AllPlain(Invoke(w, f, a).world, post)
    ensures var i := Invoke(w, f, a);
      Dispatch(w, q + ([f] + post), a) == Outcome(i.world, Calls(q, a) + i.trace + Calls(post, a), false)
  {
    var i := Invoke(w, f, a);
    DispatchPlainPrefix(w, q, [f] + post, a);
    assert ([f] + post)[0] == f && ([f] + post)[1..] == post;
    DispatchPlain(i.world, post, a);
    assert Dispatch(w, [f] + post, a) == Outcome(i.world, i.trace + Calls(post, a), false);
  }

  /** A `once` wrapper whose `target` raises: the wrapper has already unsubscribed itself, the
      exception escapes the publish, and the subscribers queued after the wrapper are skipped. */
  lemma OnceTargetRaises(w: World, s: FnId, q: seq<FnId>, post: seq<FnId>, target: FnId, wid: FnId, a: seq<Val>)
    requires Registry.Consistent(w.reg) && IsStream(w, s) && w.policies[s] == Trigger
    requires Registry.QueueOf(w.reg, s) == q + [wid] + post && AllPlain(w, q)
    requires BehaviourOf(w, wid) == OnceWrapper(s, target) && Raises(w, target)
    ensures var o := Write(w, s, a);
      && o.thrown
      && o.trace == Calls(q, a) + [Call(target, [First(a)])]
      && !Registry.Subscribed(o.world.reg, s, wid)
  {
    assert q + [wid] + post == q + ([wid] + post);
    DispatchPlainPrefix(w, q, [wid] + post, a);
    Registry.OffListenerRemoves(w.reg, s, wid);
  }

  /** `once` on a `trigger`: the wrapper is queued after the existing subscribers; the next
      publish calls `target` after them and unsubscribes the wrapper, so the publish after that
      reaches only the other subscribers. */
  lemma OnceOnTrigger(w: World, s: FnId, target: FnId, wid: FnId, a: seq<Val>, b: seq<Val>)
    requires Consistent(w) && IsStream(w, s) && w.policies[s] == Trigger && Fresh(w, wid)
    requires s !in w.reg.queuedBy && AllPlain(w, Registry.QueueOf(w.reg, s))
    ensures var q := Registry.QueueOf(w.reg, s);
      var o0 := Once(w, s, target, wid);
      var o1 := Write(o0.world, s, a);
      var o2 := Write(o1.world, s, b);
      && o0.trace == []
      && o1.trace == Calls(q, a) + [Call(target, [First(a)])]
      && o2.trace == Calls(q, b)
  {
    var q := Registry.QueueOf(w.reg, s);
    var wb := w.(behaviours := w.behaviours[wid := OnceWrapper(s, target)]);
    ScheduleFresh(w, s, wid);
    var w1 := wb.(reg := Registry.ScheduleRead(w.reg, s, wid));
    assert Once(w, s, target, wid) == Outcome(w1, [], false);
    assert AllPlain(w1, q);
    Registry.ScheduleReadConsistent(w.reg, s, wid);
    assert s !in w1.reg.queuedBy by {
      assert Registry.QueuedBy(w1.reg, s) == Registry.QueuedBy(w.reg, s);
    }
    OnceWrapperFires(w1, s, q, target, wid, a);
    var o1 := Write(w1, s, a);
    assert AllPlain(o1.world, q);
    TriggerPublish(o1.world, s, b);
  }

  /** `when` on an observable whose current value matches, as written: `target` is called at
      once, but the wrapper's self-unsubscription runs before it is queued, so it is queued
      anyway; a later, different, matching value calls `target` a second time. */
  lemma WhenReplayFiresAgain(w: World, s: FnId, pred: Val -> bool, target: FnId, wid: FnId, x: Val)
    requires Consistent(w) && IsObservable(w, s) && Fresh(w, wid) && s !in w.reg.queuedBy
    requires w.policies[s].hasValue && pred(w.policies[s].value)
    requires AllPlain(w, Registry.QueueOf(w.reg, s))
    requires pred(x) && !SameValue(w, w.policies[s], x) && !Raises(w, target)
    ensures var v := w.policies[s].value;
      var o0 := When(w, s, pred, target, wid);
      var o1 := Write(o0.world, s, [x]);
      && o0.trace == [Call(target, [v])]
      && Registry.Subscribed(o0.world.reg, s, wid)
      && o1.trace == Calls(Registry.QueueOf(w.reg, s), [x, v]) + [Call(target, [x])]
  {
    var p := w.policies[s];
    var q := Registry.QueueOf(w.reg, s);
    var w1 := ReplayRead(w, s, WhenWrapper(s, pred, target), target, wid);
    ReplayWrite(w1, s, q, wid, x, p.value);
  }

  /** The fix for `WhenReplayFiresAgain`: a matching current value calls `target` directly and
      nothing is subscribed; otherwise the wrapper is subscribed as before. */
  function WhenFixed(w: World, s: FnId, pred: Val -> bool, target: FnId, wid: FnId): (o: Outcome)
    requires IsObservable(w, s) && Fresh(w, wid)
    ensures o.world.policies == w.policies
  {
    var p := w.policies[s];
    if p.hasValue && pred(p.value) then Outcome(w, [Call(target, [p.value])], Raises(w, target))
    else When(w, s, pred, target, wid)
  }

  /** `WhenFixed` fires for the current value at most once and then leaves nothing behind;
      when it does not fire, the wrapper waits in the queue and nothing is called. */
  lemma WhenFixedFiresOnce(w: World, s: FnId, pred: Val -> bool, target: FnId, wid: FnId)
    requires Consistent(w) && IsObservable(w, s) && Fresh(w, wid)
    ensures var p := w.policies[s]; var o := WhenFixed(w, s, pred, target, wid);
      && (p.hasValue && pred(p.value) ==>
            o.trace == [Call(target, [p.value])] && forall t :: !Registry.Subscribed(o.world.reg, t, wid))
      && (!(p.hasValue && pred(p.value)) ==>
            o.trace == [] && Registry.Subscribed(o.world.reg, s, wid) && BehaviourOf(o.world, wid) == WhenWrapper(s, pred, target))
  {
    var p := w.policies[s];
    if p.hasValue && pred(p.value) {
      forall t ensures !Registry.Subscribed(w.reg, t, wid) {
        if t in w.reg.queues { assert wid !in w.reg.queues[t]; }
      }
    }
  }

  /** `once` on an observable holding a value, as written: `target` is called with it, and the
      wrapper is queued anyway, so a later different value calls `target` again. */
  lemma OnceReplayFiresAgain(w: World, s: FnId, target: FnId, wid: FnId, x: Val)
    requires Consistent(w) && IsObservable(w, s) && Fresh(w, wid) && s !in w.reg.queuedBy
    requires w.policies[s].hasValue && AllPlain(w, Registry.QueueOf(w.reg, s))
    requires !SameValue(w, w.policies[s], x) && !Raises(w, target)
    ensures var v := w.policies[s].value;
      var o0 := Once(w, s, target, wid);
      var o1 := Write(o0.world, s, [x]);
      && o0.trace == [Call(target, [v])]
      && Registry.Subscribed(o0.world.reg, s, wid)
      && o1.trace == Calls(Registry.QueueOf(w.reg, s), [x, v]) + [Call(target, [x])]
  {
    var p := w.policies[s];
    var q := Registry.QueueOf(w.reg, s);
    var w1 := ReplayRead(w, s, OnceWrapper(s, target), target, wid);
    ReplayWrite(w1, s, q, wid, x, p.value);
  }

  /** A `once` or matching `when` wrapper read from an observable holding a value, when no
      one queued it yet: it calls `target` with the value, its `off` finds nothing to remove,
      and it is queued last. */
  lemma ReplayRead(w: World, s: FnId, b: Behaviour, target: FnId, wid: FnId) returns (w1: World)
    requires Consistent(w) && IsObservable(w, s) && Fresh(w, wid) && s !in w.reg.queuedBy
    requires w.policies[s].hasValue && !Raises(w, target)
    requires b == OnceWrapper(s, target) || (b.WhenWrapper? && b == WhenWrapper(s, b.pred, target) && b.pred(w.policies[s].value))
    ensures Read(w.(behaviours := w.behaviours[wid := b]), s, wid) == Outcome(w1, [Call(target, [w.policies[s].value])], false)
    ensures w1.policies == w.policies && w1.isEqual == w.isEqual && BehaviourOf(w1, wid) == b
    ensures forall f | f != wid :: BehaviourOf(w1, f) == BehaviourOf(w, f)
    ensures IsObservable(w1, s) && Registry.QueueOf(w1.reg, s) == Registry.QueueOf(w.reg, s) + [wid]
  {
    var wb := w.(behaviours := w.behaviours[wid := b]);
    Registry.OffListenerNoop(wb.reg, s, wid);
    assert Invoke(wb, wid, [w.policies[s].value]) == Outcome(wb, [Call(target, [w.policies[s].value])], false);
    ScheduleFresh(w, s, wid);
    w1 := wb.(reg := Registry.ScheduleRead(w.reg, s, wid));
  }

  /** A new value on an observable whose queue ends with a wrapper: the ordinary subscribers
      are called first, then the wrapper, with the new and the former value. */
  lemma ReplayWrite(w1: World, s: FnId, q: seq<FnId>, wid: FnId, x: Val, v: Val)
    requires IsObservable(w1, s) && w1.policies[s].hasValue && w1.policies[s].value == v
    requires Registry.QueueOf(w1.reg, s) == q + [wid] && AllPlain(w1, q)
    requires !SameValue(w1, w1.policies[s], x)
    ensures var p := w1.policies[s]; var w2 := w1.(policies := w1.policies[s := Observable(true, x, p.trackReference)]);
      Write(w1, s, [x]).trace == Calls(q, [x, v]) + Invoke(w2, wid, [x, v]).trace
  {
    var p := w1.policies[s];
    var w2 := w1.(policies := w1.policies[s := Observable(true, x, p.trackReference)]);
    assert Write(w1, s, [x]) == Dispatch(w2, q + [wid], [x, v]);
    assert AllPlain(w2, q);
    DispatchLast(w2, q, wid, [x, v]);
  }

  /** The fix for `OnceReplayFiresAgain`: an observable holding a value calls `target` with it
      and subscribes nothing. */
  function OnceFixed(w: World, s: FnId, target: FnId, wid: FnId): (o: Outcome)
    requires IsStream(w, s) && Fresh(w, wid)
    ensures o.world.policies == w.policies
  {
    var p := w.policies[s];
    if p.Observable? && p.hasValue then Outcome(w, [Call(target, [p.value])], Raises(w, target))
    else Once(w, s, target, wid)
  }

  /** `OnceFixed` never leaves a wrapper queued after it has called `target`: either `target`
      has been called and nothing is subscribed, or nothing has been called yet. */
  lemma OnceFixedFiresOnce(w: World, s: FnId, target: FnId, wid: FnId)
    requires Consistent(w) && IsStream(w, s) && Fresh(w, wid)
    ensures var o := OnceFixed(w, s, target, wid);
      || (|o.trace| == 1 && o.trace[0].fn == target && forall t :: !Registry.Subscribed(o.world.reg, t, wid))
      || (o.trace == [] && BehaviourOf(o.world, wid) == OnceWrapper(s, target))
  {
    var p := w.policies[s];
    var wb := w.(behaviours := w.behaviours[wid := OnceWrapper(s, target)]);
    if p.Barrier? && p.already {
      var r' := Registry.Off(wb.reg, s, Registry.Listener(wid));
      forall t ensures !Registry.Subscribed(r', t, wid) {
        if Registry.Subscribed(r', t, wid) {
          Registry.OffOnlyRemoves(wb.reg, s, Registry.Listener(wid), t, wid);
          assert false;
        }
      }
    } else if p.Observable? && p.hasValue {
      forall t ensures !Registry.Subscribed(w.reg, t, wid) {
        if t in w.reg.queues { assert wid !in w.reg.queues[t]; }
      }
    }
  }

  /** `_.off(f)` on a callback, then a publish on a `trigger`: every subscriber but `f` is
      called, in order. */
  lemma OffThenPublish(w: World, s: FnId, f: FnId, args: seq<Val>)
    requires Consistent(w) && IsStream(w, s) && w.policies[s] == Trigger && f !in w.reg.queues
    requires AllPlain(w, Registry.QueueOf(w.reg, s))
    ensures var w' := w.(reg := Registry.Off(w.reg, f, Registry.Everything));
      Write(w', s, args).trace == Calls(ArrayExt.Without(Registry.QueueOf(w.reg, s), f), args)
  {
    var w' := w.(reg := Registry.Off(w.reg, f, Registry.Everything));
    Registry.OffCallback(w.reg, f);
    TriggerPublish(w', s, args);
  }

  // ---------------------------------------------------------------------------------------
  // allTriggered

  /** A publish on a `triggerOnce` with one subscriber is that subscriber's call. */
  lemma TriggerOnceSingle(w: World, s: FnId, f: FnId, args: seq<Val>)
    requires IsStream(w, s) && w.policies[s] == TriggerOnce && Registry.QueueOf(w.reg, s) == [f]
    ensures Write(w, s, args) == Invoke(w.(reg := Registry.QueueOffAll(w.reg, s)), f, args)
  {
    var w1 := w.(reg := Registry.QueueOffAll(w.reg, s));
    var i := Invoke(w1, f, args);
    if !i.thrown {
      assert [f][1..] == [];
      assert Dispatch(i.world, [], args) == Outcome(i.world, [], false);
      assert i.trace + [] == i.trace;
      assert Dispatch(w1, [f], args) == Outcome(i.world, i.trace, false);
    }
  }

  /** Subscribing to a `triggerOnce` queues and calls nothing. */
  lemma TriggerOnceRead(w: World, s: FnId, f: FnId)
    requires IsStream(w, s) && w.policies[s] == TriggerOnce
    ensures Read(w, s, f) == Outcome(w.(reg := Registry.ScheduleRead(w.reg, s, f)), [], false)
  {
  }

  /** One listener of group `g`, for trigger `t`, runs with a `then` that returns: the group
      records `t`, and `then` is called, with no arguments, exactly when that completes the
      group. */
  lemma AllWrapperStep(w: World, f: FnId, g: nat, t: FnId, args: seq<Val>)
    requires BehaviourOf(w, f) == AllWrapper(g, t) && g in w.groups
    requires w.groups[g].target.Some? ==> !Raises(w, w.groups[g].target.value)
    ensures var gr := w.groups[g]; var o := Invoke(w, f, args);
      && !o.thrown && o.world == w.(groups := w.groups[g := Fire(gr, t, false)])
      && o.trace == if Completes(gr, t) then [Call(gr.target.value, [])] else []
  {
  }

  /** The listener that completes a group whose `then` raises: the exception escapes, and the
      group still holds `then`, because `then = undefined` is never reached. */
  lemma AllWrapperRaises(w: World, f: FnId, g: nat, t: FnId, args: seq<Val>)
    requires BehaviourOf(w, f) == AllWrapper(g, t) && g in w.groups && Completes(w.groups[g], t)
    requires Raises(w, w.groups[g].target.value)
    ensures var gr := w.groups[g]; var o := Invoke(w, f, args);
      && o.thrown && o.trace == [Call(gr.target.value, [])]
      && g in o.world.groups && o.world.groups[g].target == gr.target
  {
  }

  /** The group after its listeners for `fs` ran in turn with a `then` that returns, and how
      many times `then` was called. */
  function FireAll(gr: Group, fs: seq<FnId>): (Group, nat)
    decreases |fs|
  {
    if |fs| == 0 then (gr, 0)
    else
      var next := FireAll(Fire(gr, fs[0], false), fs[1..]);
      (next.0, next.1 + if Completes(gr, fs[0]) then 1 else 0)
  }

  /** `allTriggered(triggers, then)` over any order and repetition of firings `fs`: `then` is
      called once if the triggers are distinct and each of them has fired, and never otherwise
      (with a repeated trigger `triggered` never grows to `triggers.length`). */
  lemma AllTriggeredCallsOnce(triggers: seq<FnId>, target: FnId, fs: seq<FnId>)
    requires |triggers| > 0 && forall f | f in fs :: f in triggers
    ensures FireAll(Group(triggers, [], Some(target)), fs).1 ==
      if NoDup(triggers) && forall t | t in triggers :: t in fs then 1 else 0
  {
    FireAllCount(Group(triggers, [], Some(target)), fs);
  }

  /** The invariant behind `AllTriggeredCallsOnce`: `triggered` holds distinct triggers, and a
      pending `then` means the group is not yet complete. */
  lemma {:induction false} FireAllCount(gr: Group, fs: seq<FnId>)
    requires NoDup(gr.triggered) && forall x | x in gr.triggered :: x in gr.triggers
    requires forall f | f in fs :: f in gr.triggers
    requires gr.target.Some? ==> |gr.triggered| < |gr.triggers|
    ensures FireAll(gr, fs).1 ==
      if gr.target.Some? && NoDup(gr.triggers) && forall t | t in gr.triggers :: t in gr.triggered || t in fs then 1 else 0
    decreases |fs|
  {
    if |fs| == 0 {
      if gr.target.Some? && NoDup(gr.triggers) && forall t | t in gr.triggers :: t in gr.triggered || t in fs {
        DistinctCount(gr.triggered, gr.triggers);
        assert false;
      }
    } else {
      var f := fs[0];
      var gr1 := Fire(gr, f, false);
      var tr1 := gr1.triggered;
      assert NoDup(tr1) by {
        if f !in gr.triggered {
          forall i, j | 0 <= i < j < |tr1| ensures tr1[i] != tr1[j] {
            if j == |tr1| - 1 { assert tr1[i] in gr.triggered; }
          }
        }
      }
      assert forall x | x in tr1 :: x in gr.triggers;
      assert forall x :: x in fs <==> x == f || x in fs[1..] by {
        assert fs == [f] + fs[1..];
      }
      DistinctCount(tr1, gr.triggers);
      FireAllCount(gr1, fs[1..]);
      if Completes(gr, f) {
        assert forall t | t in gr.triggers :: t in gr.triggered || t in fs by {
          forall t | t in gr.triggers ensures t in gr.triggered || t in fs { assert t in tr1; }
        }
      } else {
        assert (forall t | t in gr.triggers :: t in tr1 || t in fs[1..]) <==>
               (forall t | t in gr.triggers :: t in gr.triggered || t in fs);
      }
    }
  }

  /** The set of elements of `s`. */
  function Elements<T>(s: seq<T>): set<T> {
    set x | x in s
  }

  /** A sequence has at most as many distinct elements as entries, as many exactly when no
      entry repeats. */
  lemma {:induction false} ElementsCount<T>(s: seq<T>)
    ensures |Elements(s)| <= |s|
    ensures |Elements(s)| == |s| <==> NoDup(s)
    decreases |s|
  {
    if |s| > 0 {
      var t := s[..|s| - 1];
      var last := s[|s| - 1];
      ElementsCount(t);
      assert s == t + [last];
      assert Elements(s) == Elements(t) + {last};
      if last in t {
        var i :| 0 <= i < |t| && t[i] == last;
        assert s[i] == s[|s| - 1];
      } else {
        assert NoDup(s) <==> NoDup(t) by {
          if NoDup(t) {
            forall i, j | 0 <= i < j < |s| ensures s[i] != s[j] {
              if j < |t| { assert s[i] == t[i] && s[j] == t[j]; } else { assert s[i] in t; }
            }
          }
          if NoDup(s) {
            forall i, j | 0 <= i < j < |t| ensures t[i] != t[j] { assert s[i] == t[i] && s[j] == t[j]; }
          }
        }
      }
    }
  }

  /** A subset is no larger than its superset, and equally large only when the two are equal. */
  lemma {:induction false} SubsetCount<T>(a: set<T>, b: set<T>)
    requires a <= b
    ensures |a| <= |b| && (|a| == |b| ==> a == b)
    decreases |b|
  {
    if a != b {
      var x :| x in b && x !in a;
      SubsetCount(a, b - {x});
    }
  }

  /** Distinct entries `xs` drawn from `ts` are no more than `ts`, and exactly as many when
      `ts` has no repeats and every entry of `ts` is among them. */
  lemma DistinctCount<T>(xs: seq<T>, ts: seq<T>)
    requires NoDup(xs) && forall x | x in xs :: x in ts
    ensures |xs| <= |ts|
    ensures |xs| == |ts| <==> NoDup(ts) && forall t | t in ts :: t in xs
  {
    ElementsCount(xs);
    ElementsCount(ts);
    SubsetCount(Elements(xs), Elements(ts));
    if |xs| == |ts| {
      assert Elements(xs) == Elements(ts);
      assert forall t | t in ts :: t in Elements(xs);
    }
    if NoDup(ts) && forall t | t in ts :: t in xs {
      assert Elements(ts) <= Elements(xs);
      assert Elements(ts) == Elements(xs);
    }
  }

  /** `allTriggered` over two fresh `triggerOnce` streams: subscribing calls nothing, the first
      stream firing calls nothing, and the second firing calls `target` with no arguments. */
  lemma AllTriggeredTwo(w: World, t1: FnId, t2: FnId, target: FnId, g: nat, a: FnId, b: FnId, x: seq<Val>, y: seq<Val>)
    requires IsStream(w, t1) && IsStream(w, t2) && t1 != t2
    requires w.policies[t1] == TriggerOnce && w.policies[t2] == TriggerOnce
    requires Registry.QueueOf(w.reg, t1) == [] && Registry.QueueOf(w.reg, t2) == []
    requires g !in w.groups && a != b && Fresh(w, a) && Fresh(w, b) && !Raises(w, target)
    ensures var o0 := AllTriggered(w, [t1, t2], Some(target), g, [a, b]);
      var o1 := Write(o0.world, t1, x);
      var o2 := Write(o1.world, t2, y);
      && o0.trace == [] && o1.trace == [] && o2.trace == [Call(target, [])]
      && g in o2.world.groups && o2.world.groups[g] == Group([t1, t2], [t1, t2], None)
  {
    var w0 := AllTriggeredSubscribed(w, t1, t2, target, g, a, b);
    var w1 := AllTriggeredFirst(w0, t1, t2, target, g, a, b, x);
    AllTriggeredSecond(w1, t1, t2, target, g, b, y);
  }

  /** The second firing in `AllTriggeredTwo`: every trigger has now fired, so `target` runs and
      the group forgets it. */
  lemma AllTriggeredSecond(w1: World, t1: FnId, t2: FnId, target: FnId, g: nat, b: FnId, y: seq<Val>)
    requires IsStream(w1, t2) && w1.policies[t2] == TriggerOnce && Registry.QueueOf(w1.reg, t2) == [b]
    requires BehaviourOf(w1, b) == AllWrapper(g, t2) && t1 != t2
    requires g in w1.groups && w1.groups[g] == Group([t1, t2], [t1], Some(target)) && !Raises(w1, target)
    ensures var o := Write(w1, t2, y);
      && o.trace == [Call(target, [])] && !o.thrown
      && g in o.world.groups && o.world.groups[g] == Group([t1, t2], [t1, t2], None)
  {
    TriggerOnceSingle(w1, t2, b, y);
    assert AddOnce([t1], t2) == [t1, t2];
  }

  /** The first firing in `AllTriggeredTwo`: `t1` is recorded, nothing is called. */
  lemma AllTriggeredFirst(w0: World, t1: FnId, t2: FnId, target: FnId, g: nat, a: FnId, b: FnId, x: seq<Val>) returns (w1: World)
    requires IsStream(w0, t1) && IsStream(w0, t2) && t1 != t2
    requires w0.policies[t1] == TriggerOnce && w0.policies[t2] == TriggerOnce
    requires Registry.QueueOf(w0.reg, t1) == [a] && Registry.QueueOf(w0.reg, t2) == [b]
    requires BehaviourOf(w0, a) == AllWrapper(g, t1) && BehaviourOf(w0, b) == AllWrapper(g, t2)
    requires g in w0.groups && w0.groups[g] == Group([t1, t2], [], Some(target))
    ensures Write(w0, t1, x) == Outcome(w1, [], false)
    ensures IsStream(w1, t2) && w1.policies[t2] == TriggerOnce && Registry.QueueOf(w1.reg, t2) == [b]
    ensures BehaviourOf(w1, b) == AllWrapper(g, t2)
    ensures g in w1.groups && w1.groups[g] == Group([t1, t2], [t1], Some(target))
    ensures w1.behaviours == w0.behaviours
  {
    TriggerOnceSingle(w0, t1, a, x);
    var r := Registry.QueueOffAll(w0.reg, t1);
    assert AddOnce([], t1) == [t1];
    assert |[t1]| != |[t1, t2]|;
    w1 := w0.(reg := r, groups := w0.groups[g := Group([t1, t2], [t1], Some(target))]);
  }

  /** The subscription step of `AllTriggeredTwo`: each stream queues its own listener. */
  lemma AllTriggeredSubscribed(w: World, t1: FnId, t2: FnId, target: FnId, g: nat, a: FnId, b: FnId) returns (w0: World)
    requires IsStream(w, t1) && IsStream(w, t2) && t1 != t2
    requires w.policies[t1] == TriggerOnce && w.policies[t2] == TriggerOnce
    requires Registry.QueueOf(w.reg, t1) == [] && Registry.QueueOf(w.reg, t2) == []
    requires g !in w.groups && a != b && Fresh(w, a) && Fresh(w, b)
    ensures AllTriggered(w, [t1, t2], Some(target), g, [a, b]) == Outcome(w0, [], false)
    ensures IsStream(w0, t1) && IsStream(w0, t2) && w0.policies == w.policies
    ensures Registry.QueueOf(w0.reg, t1) == [a] && Registry.QueueOf(w0.reg, t2) == [b]
    ensures BehaviourOf(w0, a) == AllWrapper(g, t1) && BehaviourOf(w0, b) == AllWrapper(g, t2)
    ensures g in w0.groups && w0.groups[g] == Group([t1, t2], [], Some(target))
    ensures !Raises(w, target) ==> !Raises(w0, target)
  {
    var ls := Listeners(g, [t1, t2], [a, b]);
    var w1 := AllTriggeredSetup(w, [t1, t2], Some(target), g, [a, b]);
    assert ls[a] == AllWrapper(g, t1) && ls[b] == AllWrapper(g, t2);
    w0 := SubscribeTwo(w1, t1, t2, a, b);
  }

  /** `allTriggered` on some triggers installs the group and its listeners, then subscribes
      each listener to its trigger. */
  lemma AllTriggeredSetup(w: World, triggers: seq<FnId>, target: Option<FnId>, g: nat, wids: seq<FnId>) returns (w1: World)
    requires |wids| == |triggers| > 0 && NoDup(wids) && g !in w.groups
    requires forall t | t in triggers :: t in w.policies && t in w.reg.queues
    requires forall f | f in wids :: Fresh(w, f)
    ensures w1 == w.(groups := w.groups[g := Group(triggers, [], target)], behaviours := w.behaviours + Listeners(g, triggers, wids))
    ensures AllTriggered(w, triggers, target, g, wids) == SubscribeAll(w1, triggers, wids)
    ensures forall f | f !in wids :: BehaviourOf(w1, f) == BehaviourOf(w, f)
  {
    w1 := w.(groups := w.groups[g := Group(triggers, [], target)], behaviours := w.behaviours + Listeners(g, triggers, wids));
  }

  /** Two listeners read from two empty `triggerOnce` streams: each is queued, nothing is called. */
  lemma SubscribeTwo(w: World, t1: FnId, t2: FnId, a: FnId, b: FnId) returns (w0: World)
    requires IsStream(w, t1) && IsStream(w, t2) && t1 != t2
    requires w.policies[t1] == TriggerOnce && w.policies[t2] == TriggerOnce
    requires Registry.QueueOf(w.reg, t1) == [] && Registry.QueueOf(w.reg, t2) == []
    ensures SubscribeAll(w, [t1, t2], [a, b]) == Outcome(w0, [], false)
    ensures w0.policies == w.policies && w0.behaviours == w.behaviours && w0.groups == w.groups
    ensures IsStream(w0, t1) && IsStream(w0, t2)
    ensures Registry.QueueOf(w0.reg, t1) == [a] && Registry.QueueOf(w0.reg, t2) == [b]
  {
    TriggerOnceRead(w, t1, a);
    var o1 := Read(w, t1, a);
    TriggerOnceRead(o1.world, t2, b);
    var o2 := Read(o1.world, t2, b);
    assert [t1, t2][1..] == [t2] && [a, b][1..] == [b];
    assert SubscribeAll(o1.world, [t2], [b]) == Outcome(o2.world, [], false) by {
      assert SubscribeAll(o2.world, [], []) == Outcome(o2.world, [], false);
    }
    w0 := o2.world;
  }

  /** `allTriggered` with no triggers calls `target` at once; without a `target` it raises. */
  lemma AllTriggeredNone(w: World, target: Option<FnId>, g: nat)
    requires g !in w.groups
    ensures var o := AllTriggered(w, [], target, g, []);
      && (target.Some? ==> o == Outcome(w, [Call(target.value, [])], Raises(w, target.value)))
      && (target.None? ==> o.thrown && o.trace == [])
  {
  }
}

=== FILE: traits.dfy ===
/** `Component.$impl.mergeTraitsMembers` of base/component.js: how a component's own definition
    and the definitions of its `$traits` are merged into one member per name. Several
    contributions of one name resolve to a single stream with the others as its default
    listeners; otherwise the own definition wins; a `$bindable` member picks up the
    `before<Name>`/`after<Name>` members of every contributor as hooks. */
module TraitMerge {
  import opened Js

  /** The `$`-tags a member declaration can carry that the merge looks at. */
  datatype Tag =
    | TriggerTag | TriggerOnceTag | BarrierTag | ObservableTag | ObservablePropertyTag
    | BindableTag
    | BuiltinTag
    | OtherTag(name: string)

  /** A member declaration. `id` is the identity of the declaration object, `isFunction` says
      whether the untagged value is a function, `truthy` whether the declaration is. */
  datatype Member = Member(id: nat, tags: set<Tag>, isFunction: bool, truthy: bool)

  datatype Entry = Entry(name: string, member: Member)

  /** A definition object, its keys in enumeration order. */
  type Definition = seq<Entry>

  const StreamTags: set<Tag> := {TriggerTag, TriggerOnceTag, BarrierTag, ObservableTag, ObservablePropertyTag}

  /** `Component.isStreamDefinition`. */
  predicate IsStreamDefinition(m: Member) {
    m.tags * StreamTags != {}
  }

  /** Entries taking part in the merge: `$builtin` members and `constructor` are omitted. */
  predicate Pooled(e: Entry) {
    BuiltinTag !in e.member.tags && e.name != "constructor"
  }

  /** The pooled members named `n` of one definition, in order. */
  function Named(d: Definition, n: string): (ms: seq<Member>)
    ensures forall i | 0 <= i < |d| && d[i].name == n && Pooled(d[i]) :: d[i].member in ms
    ensures forall m | m in ms :: exists i | 0 <= i < |d| :: d[i].name == n && Pooled(d[i]) && d[i].member == m
  {
    if |d| == 0 then []
    else
      var rest := Named(d[1..], n);
      assert forall i | 1 <= i < |d| :: d[i] == d[1..][i - 1];
      if d[0].name == n && Pooled(d[0]) then [d[0].member] + rest else rest
  }

  /** `pool[n]`: the pooled members named `n` of every contributor, the own definition first,
      then the traits in order. */
  function Pool(cs: seq<Definition>, n: string): (ms: seq<Member>)
  {
    if |cs| == 0 then []
    else
      assert forall k | 1 <= k < |cs| :: cs[k] == cs[1..][k - 1];
      Named(cs[0], n) + Pool(cs[1..], n)
  }

  /** `_.find(members, isStreamDefinition)`, as a position. */
  function FirstStream(ms: seq<Member>): (r: Option<nat>)
    ensures r.Some? ==> r.value < |ms| && IsStreamDefinition(ms[r.value])
    ensures r.Some? ==> forall j | 0 <= j < r.value :: !IsStreamDefinition(ms[j])
    ensures r.None? ==> forall j | 0 <= j < |ms| :: !IsStreamDefinition(ms[j])
  {
    if |ms| == 0 then None
    else if IsStreamDefinition(ms[0]) then Some(0)
    else
      match FirstStream(ms[1..])
      case None => None
      case Some(i) => Some(i + 1)
  }

  /** The members of `ms` other than the declaration `s` itself, in order. */
  function Others(ms: seq<Member>, s: Member): (ls: seq<Member>)
    ensures forall m :: m in ls <==> m in ms && m.id != s.id
  {
    if |ms| == 0 then []
    else if ms[0].id != s.id then [ms[0]] + Others(ms[1..], s) else Others(ms[1..], s)
  }

  /** The members of `ms` whose untagged value is a function. */
  function Functions(ms: seq<Member>): (fs: seq<Member>)
    ensures forall m :: m in fs <==> m in ms && m.isFunction
  {
    if |ms| == 0 then []
    else if ms[0].isFunction then [ms[0]] + Functions(ms[1..]) else Functions(ms[1..])
  }

  /** The position of the last `$bindable` member of `ms`: `bindables[name] = member` keeps
      the last one. */
  function LastBindable(ms: seq<Member>): (r: Option<nat>)
    ensures r.Some? ==> r.value < |ms| && BindableTag in ms[r.value].tags
    ensures r.Some? ==> forall k | r.value < k < |ms| :: BindableTag !in ms[k].tags
    ensures r.None? ==> forall k | 0 <= k < |ms| :: BindableTag !in ms[k].tags
  {
    if |ms| == 0 then None
    else if BindableTag in ms[|ms| - 1].tags then Some(|ms| - 1)
    else LastBindable(ms[..|ms| - 1])
  }

  /** A hook of `_.bindable`: the method that registers it (`onBefore`) and the prefix sibling
      members use (`before`). */
  datatype HookName = HookName(register: string, prefix: string)

  /** One hook with the functions bound to it. */
  datatype HookBinding = HookBinding(hook: string, fns: seq<Member>)

  /** A merged member: a declaration used as it is, a stream with its default listeners, or a
      bindable with its hooks. */
  datatype Merged =
    | Kept(member: Member)
    | Stream(canonical: Member, listeners: seq<Member>)
    | Bindable(subject: Member, hooks: seq<HookBinding>)

  function Upper(c: char): char {
    if 'a' <= c <= 'z' then (c as int - 32) as char else c
  }

  /** `name.capitalized`: the first character upper-cased, the rest as it was. */
  function Capitalize(s: string): (r: string)
    ensures |r| == |s| && (|s| > 0 ==> r[1..] == s[1..] && r[0] == Upper(s[0]))
  {
    if |s| == 0 then s else [Upper(s[0])] + s[1..]
  }

  /** For each hook whose `<prefix><Name>` occurs in the pool, that hook with the pooled
      members of that name that are functions. */
  function BoundHooks(cs: seq<Definition>, hooks: seq<HookName>, n: string): (bs: seq<HookBinding>)
    ensures |bs| <= |hooks|
    ensures forall b | b in bs :: exists h | h in hooks ::
      && b.hook == h.register
      && |Pool(cs, h.prefix + Capitalize(n))| > 0
      && b.fns == Functions(Pool(cs, h.prefix + Capitalize(n)))
  {
    if |hooks| == 0 then []
    else
      var p := Pool(cs, hooks[0].prefix + Capitalize(n));
      var rest := BoundHooks(cs, hooks[1..], n);
      if |p| > 0 then [HookBinding(hooks[0].register, Functions(p))] + rest else rest
  }

  /** The own definition's member named `n`. */
  function OwnMember(own: Definition, n: string): (r: Option<Member>)
    ensures r.Some? ==> exists i | 0 <= i < |own| :: own[i].name == n && own[i].member == r.value
    ensures r.None? ==> forall i | 0 <= i < |own| :: own[i].name != n
  {
    if |own| == 0 then None
    else if own[0].name == n then Some(own[0].member)
    else
      var r := OwnMember(own[1..], n);
      assert forall i | 1 <= i < |own| :: own[i] == own[1..][i - 1];
      r
  }

  /** Every name the merged definition has: the own definition's, and every pooled name. */
  function Names(own: Definition, traits: seq<Definition>): (ns: set<string>)
  {
    (set e | e in own :: e.name) + (set k, e | 0 <= k < |traits| && e in traits[k] && Pooled(e) :: e.name)
  }

  /** The pool holds every pooled member of every contributor. */
  lemma {:induction false} PoolContains(cs: seq<Definition>, n: string, k: nat, m: Member)
    requires k < |cs| && m in Named(cs[k], n)
    ensures m in Pool(cs, n)
  {
    if k > 0 {
      assert cs[1..][k - 1] == cs[k];
      PoolContains(cs[1..], n, k - 1, m);
    }
  }

  /** A definition without an entry named `n` contributes nothing to `pool[n]`. */
  lemma NamedAbsent(d: Definition, n: string)
    requires forall i | 0 <= i < |d| :: d[i].name != n
    ensures Named(d, n) == []
  {
  }

  /** Every name of `Names` has an own member or a pooled one. */
  lemma NameHasSource(own: Definition, traits: seq<Definition>, n: string)
    requires n in Names(own, traits)
    ensures OwnMember(own, n).Some? || |Pool([own] + traits, n)| > 0
  {
    if OwnMember(own, n).None? {
      var k, e :| 0 <= k < |traits| && e in traits[k] && Pooled(e) && e.name == n;
      var i :| 0 <= i < |traits[k]| && traits[k][i] == e;
      assert ([own] + traits)[k + 1] == traits[k];
      assert e.member in Named(traits[k], n);
      PoolContains([own] + traits, n, k + 1, e.member);
    }
  }

  /** The member name `n` ends up with, as the source computes it. */
  function MergeName(own: Definition, traits: seq<Definition>, hooks: seq<HookName>, n: string): Merged
    requires n in Names(own, traits)
  {
    var cs := [own] + traits;
    var pool := Pool(cs, n);
    NameHasSource(own, traits, n);
    var base := BaseMerge(OwnMember(own, n), pool);
    var bound := BoundHooks(cs, hooks, n);
    match LastBindable(pool)
    case Some(b) => if |bound| > 0 then Bindable(pool[b], bound) else base
    case None => base
  }

  /** The member a name gets before `$bindable` is considered: the first stream declaration
      of the pool, else a truthy own member, else the first pooled one. */
  function BaseMerge(own: Option<Member>, pool: seq<Member>): Merged
    requires own.Some? || |pool| > 0
  {
    match FirstStream(pool)
    case Some(i) => Stream(pool[i], Others(pool, pool[i]))
    case None =>
      if own.Some? && own.value.truthy then Kept(own.value)
      else if |pool| > 0 then Kept(pool[0])
      else Kept(own.value)
  }

  /** `mergeTraitsMembers(def, traits)`. */
  function Merge(own: Definition, traits: seq<Definition>, hooks: seq<HookName>): (d: map<string, Merged>)
    ensures d.Keys == Names(own, traits)
  {
    map n | n in Names(own, traits) :: MergeName(own, traits, hooks, n)
  }

  /** The merged definition's entry for a name is that name's merge. */
  lemma MergeAt(own: Definition, traits: seq<Definition>, hooks: seq<HookName>, n: string)
    requires n in Names(own, traits)
    ensures n in Merge(own, traits, hooks) && Merge(own, traits, hooks)[n] == MergeName(own, traits, hooks, n)
  {
  }

  // ---------------------------------------------------------------------------------------

  /** A name with a stream declaration among its contributions becomes that stream, the first
      one in pool order, and every other contribution is one of its default listeners. */
  lemma MergeStream(own: Definition, traits: seq<Definition>, hooks: seq<HookName>, n: string, i: nat)
    requires n in Names(own, traits)
    requires var pool := Pool([own] + traits, n);
      i < |pool| && IsStreamDefinition(pool[i]) && forall j | 0 <= j < i :: !IsStreamDefinition(pool[j])
    requires forall x | x in Pool([own] + traits, n) :: BindableTag !in x.tags
    ensures var pool := Pool([own] + traits, n); var r := Merge(own, traits, hooks)[n];
      && r.Stream? && r.canonical == pool[i] && r.listeners == Others(pool, pool[i])
      && (forall m :: m in r.listeners <==> m in pool && m.id != pool[i].id)
  {
    var pool := Pool([own] + traits, n);
    MergeAt(own, traits, hooks, n);
    assert FirstStream(pool) == Some(i);
    assert BaseMerge(OwnMember(own, n), pool) == Stream(pool[i], Others(pool, pool[i]));
    assert LastBindable(pool).None?;
    assert MergeName(own, traits, hooks, n) == BaseMerge(OwnMember(own, n), pool);
  }

  /** Without a stream declaration or a hooked bindable, a truthy own member is kept. */
  lemma MergeOwnWins(own: Definition, traits: seq<Definition>, hooks: seq<HookName>, n: string, m: Member)
    requires n in Names(own, traits) && OwnMember(own, n) == Some(m) && m.truthy
    requires forall x | x in Pool([own] + traits, n) :: !IsStreamDefinition(x)
    requires forall x | x in Pool([own] + traits, n) :: BindableTag !in x.tags
    ensures Merge(own, traits, hooks)[n] == Kept(m)
  {
    var pool := Pool([own] + traits, n);
    MergeAt(own, traits, hooks, n);
    assert FirstStream(pool).None? && LastBindable(pool).None?;
  }

  /** Without a stream declaration or a hooked bindable, a name the own definition lacks takes
      the first trait's member. */
  lemma MergeFirstTrait(own: Definition, traits: seq<Definition>, hooks: seq<HookName>, n: string)
    requires n in Names(own, traits) && OwnMember(own, n).None?
    requires forall x | x in Pool([own] + traits, n) :: !IsStreamDefinition(x)
    requires forall x | x in Pool([own] + traits, n) :: BindableTag !in x.tags
    ensures |Pool(traits, n)| > 0
    ensures Merge(own, traits, hooks)[n] == Kept(Pool(traits, n)[0])
  {
    var cs := [own] + traits;
    var pool := Pool(cs, n);
    NameHasSource(own, traits, n);
    assert cs[1..] == traits;
    NamedAbsent(own, n);
    assert cs[1..] == traits;
    assert pool == Pool(traits, n);
    MergeAt(own, traits, hooks, n);
    assert FirstStream(pool).None?;
    assert LastBindable(pool).None?;
  }

  /** A `$bindable` with at least one hook member present is replaced by a bindable built from
      the last contributor's `$bindable` declaration, whatever the own definition had. */
  lemma MergeBindable(own: Definition, traits: seq<Definition>, hooks: seq<HookName>, n: string, j: nat)
    requires n in Names(own, traits)
    requires var pool := Pool([own] + traits, n);
      j < |pool| && BindableTag in pool[j].tags && forall k | j < k < |pool| :: BindableTag !in pool[k].tags
    requires |BoundHooks([own] + traits, hooks, n)| > 0
    ensures Merge(own, traits, hooks)[n] == Bindable(Pool([own] + traits, n)[j], BoundHooks([own] + traits, hooks, n))
  {
    var pool := Pool([own] + traits, n);
    var bound := BoundHooks([own] + traits, hooks, n);
    MergeAt(own, traits, hooks, n);
    LastBindableAt(pool, j);
    assert MergeName(own, traits, hooks, n) == Bindable(pool[j], bound);
  }

  /** The last `$bindable` position is the one with no `$bindable` after it. */
  lemma LastBindableAt(ms: seq<Member>, j: nat)
    requires j < |ms| && BindableTag in ms[j].tags && forall k | j < k < |ms| :: BindableTag !in ms[k].tags
    ensures LastBindable(ms) == Some(j)
  {
  }

  /** Each hook whose `<prefix><Name>` occurs is bound to the function members of that name
      from every contributor (`Functions` states which members those are). */
  lemma BoundHooksCollect(cs: seq<Definition>, hooks: seq<HookName>, n: string, k: nat)
    requires k < |hooks| && |Pool(cs, hooks[k].prefix + Capitalize(n))| > 0
    ensures HookBinding(hooks[k].register, Functions(Pool(cs, hooks[k].prefix + Capitalize(n)))) in BoundHooks(cs, hooks, n)
  {
    assert hooks == hooks[..k] + ([hooks[k]] + hooks[k + 1..]);
    BoundHooksConcat(cs, hooks[..k], [hooks[k]] + hooks[k + 1..], n);
    BoundHooksConcat(cs, [hooks[k]], hooks[k + 1..], n);
    BoundHooksSingle(cs, hooks[k], n);
  }

  /** `_.each(_.omit(...))`: `$builtin` members and `constructor` never reach the pool. */
  lemma PoolSkipsBuiltins(cs: seq<Definition>, n: string, m: Member)
    requires m in Pool(cs, n)
    ensures n != "constructor" && BuiltinTag !in m.tags
  {
    if |cs| > 0 {
      if m in Named(cs[0], n) {
      } else {
        PoolSkipsBuiltins(cs[1..], n, m);
      }
    }
  }

  /** A trigger from one trait, a same-named method in another trait and one in the own
      definition: the merged member is the trigger, with the own method, then the other
      trait's, as its default listeners. */
  lemma MergeStreamsWithTraits(hooks: seq<HookName>)
    ensures var n := "somethingHappened";
      var trigger := Member(1, {TriggerTag}, false, true);
      var other := Member(2, {}, true, true);
      var ownFn := Member(3, {}, true, true);
      Merge([Entry(n, ownFn)], [[Entry(n, trigger)], [Entry(n, other)]], hooks)[n] == Stream(trigger, [ownFn, other])
  {
    var n := "somethingHappened";
    var trigger := Member(1, {TriggerTag}, false, true);
    var other := Member(2, {}, true, true);
    var ownFn := Member(3, {}, true, true);
    var own := [Entry(n, ownFn)];
    var traits := [[Entry(n, trigger)], [Entry(n, other)]];
    assert n in Names(own, traits) by { assert Entry(n, ownFn) in own; }
    assert n != "constructor" by { assert n[0] != "constructor"[0]; }
    ExamplePool(n, ownFn, trigger, other);
    assert [own] + traits == [[Entry(n, ownFn)], [Entry(n, trigger)], [Entry(n, other)]];
    var pool := Pool([own] + traits, n);
    assert pool == [ownFn, trigger, other];
    assert IsStreamDefinition(trigger) by { assert TriggerTag in trigger.tags * StreamTags; }
    assert !IsStreamDefinition(ownFn);
    MergeStream(own, traits, hooks, n, 1);
    OthersExample(ownFn, trigger, other);
  }

  // ---------------------------------------------------------------------------------------
  // Order and multiplicity: each collection is the concatenation of its parts' collections

  /** Entries are pooled in key order: the pool of two definitions' entries, one after the
      other, is the first's pool followed by the second's. */
  lemma {:induction false} NamedConcat(a: Definition, b: Definition, n: string)
    ensures Named(a + b, n) == Named(a, n) + Named(b, n)
    decreases |a|
  {
    if |a| > 0 {
      assert (a + b)[0] == a[0] && (a + b)[1..] == a[1..] + b;
      NamedConcat(a[1..], b, n);
    } else {
      assert a + b == b;
    }
  }

  /** `pool[n]` lists the contributors in order: the own definition's members first, then each
      trait's, in `$traits` order. */
  lemma {:induction false} PoolConcat(a: seq<Definition>, b: seq<Definition>, n: string)
    ensures Pool(a + b, n) == Pool(a, n) + Pool(b, n)
    decreases |a|
  {
    if |a| > 0 {
      assert (a + b)[0] == a[0] && (a + b)[1..] == a[1..] + b;
      PoolConcat(a[1..], b, n);
    } else {
      assert a + b == b;
    }
  }

  /** One contributor's part of the pool is its own `Named` list. */
  lemma PoolSingle(d: Definition, n: string)
    ensures Pool([d], n) == Named(d, n)
  {
    assert [d][1..] == [];
  }

  /** The default listeners keep pool order and every member but the canonical one. */
  lemma {:induction false} OthersConcat(a: seq<Member>, b: seq<Member>, s: Member)
    ensures Others(a + b, s) == Others(a, s) + Others(b, s)
    decreases |a|
  {
    if |a| > 0 {
      assert (a + b)[0] == a[0] && (a + b)[1..] == a[1..] + b;
      OthersConcat(a[1..], b, s);
    } else {
      assert a + b == b;
    }
  }

  /** A single member is a default listener unless it is the canonical declaration. */
  lemma OthersSingle(m: Member, s: Member)
    ensures Others([m], s) == if m.id != s.id then [m] else []
  {
    assert [m][1..] == [];
  }

  /** A hook's functions keep pool order, duplicates included. */
  lemma {:induction false} FunctionsConcat(a: seq<Member>, b: seq<Member>)
    ensures Functions(a + b) == Functions(a) + Functions(b)
    decreases |a|
  {
    if |a| > 0 {
      assert (a + b)[0] == a[0] && (a + b)[1..] == a[1..] + b;
      FunctionsConcat(a[1..], b);
    } else {
      assert a + b == b;
    }
  }

  /** A single member is bound to a hook exactly when its untagged value is a function. */
  lemma FunctionsSingle(m: Member)
    ensures Functions([m]) == if m.isFunction then [m] else []
  {
    assert [m][1..] == [];
  }

  /** The bindings follow the order of `_.bindable.hooks`. */
  lemma {:induction false} BoundHooksConcat(cs: seq<Definition>, a: seq<HookName>, b: seq<HookName>, n: string)
    ensures BoundHooks(cs, a + b, n) == BoundHooks(cs, a, n) + BoundHooks(cs, b, n)
    decreases |a|
  {
    if |a| > 0 {
      assert (a + b)[0] == a[0] && (a + b)[1..] == a[1..] + b;
      BoundHooksConcat(cs, a[1..], b, n);
    } else {
      assert a + b == b;
    }
  }

  /** One hook is bound, with the pool's function members, exactly when its `<prefix><Name>`
      has a pool. */
  lemma BoundHooksSingle(cs: seq<Definition>, h: HookName, n: string)
    ensures var p := Pool(cs, h.prefix + Capitalize(n));
      BoundHooks(cs, [h], n) == if |p| > 0 then [HookBinding(h.register, Functions(p))] else []
  {
    assert [h][1..] == [];
  }

  // ---------------------------------------------------------------------------------------
  // `pool` is a plain object

  /** The names the contributors put into `pool`. */
  function PooledNames(cs: seq<Definition>): (ns: set<string>)
    ensures forall k, e | 0 <= k < |cs| && e in cs[k] && Pooled(e) :: e.name in ns
  {
    set k, e | 0 <= k < |cs| && e in cs[k] && Pooled(e) :: e.name
  }

  /** `mergeTraitsMembers` as written: `pool` is created as `{}`, so for a member named after
      an `Object.prototype` property (`toString`, `valueOf`, ...) `pool[name]` finds the
      inherited function, `push` is not a method of it, and the merge raises a TypeError
      (`None`) before `def` is touched. */
  function MergeAsWritten(own: Definition, traits: seq<Definition>, hooks: seq<HookName>): (r: Option<map<string, Merged>>)
    ensures r.None? <==> exists k, e | 0 <= k < |[own] + traits| && e in ([own] + traits)[k] && Pooled(e) :: e.name in ObjectPrototypeNames
    ensures r.Some? ==> r.value.Keys == Names(own, traits)
  {
    if exists n | n in ObjectPrototypeNames :: n in PooledNames([own] + traits) then None
    else Some(Merge(own, traits, hooks))
  }

  /** A component with one (empty) trait that defines its own `toString` method: the merge as
      written raises, where the evidently intended merge keeps that method. */
  lemma MergeAsWrittenThrows(hooks: seq<HookName>, m: Member)
    requires BuiltinTag !in m.tags && m.truthy && !IsStreamDefinition(m) && BindableTag !in m.tags
    ensures MergeAsWritten([Entry("toString", m)], [[]], hooks).None?
    ensures Merge([Entry("toString", m)], [[]], hooks)["toString"] == Kept(m)
  {
    var own := [Entry("toString", m)];
    var cs := [own] + [[]];
    assert cs == [own, []];
    assert "toString" != "constructor" by { assert "toString"[0] != "constructor"[0]; }
    assert "toString" in PooledNames(cs) by { assert cs[0] == own && own[0] in own; }
    assert "toString" in Names(own, [[]]) by { assert own[0] in own; }
    assert Pool(cs, "toString") == [m] by {
      PoolConcat([own], [[]], "toString");
      PoolSingle(own, "toString");
      PoolSingle([], "toString");
      NamedSingle(own[0], "toString");
    }
    MergeOwnWins(own, [[]], hooks, "toString", m);
  }

  /** Away from the inherited names, the merge as written is the merge. */
  lemma MergeAsWrittenAgrees(own: Definition, traits: seq<Definition>, hooks: seq<HookName>)
    requires forall k, e | 0 <= k < |[own] + traits| && e in ([own] + traits)[k] && Pooled(e) :: e.name !in ObjectPrototypeNames
    ensures MergeAsWritten(own, traits, hooks) == Some(Merge(own, traits, hooks))
  {
  }

  /** A one-entry definition contributes its member to the pool of its name, when pooled. */
  lemma NamedSingle(e: Entry, n: string)
    ensures Named([e], n) == if e.name == n && Pooled(e) then [e.member] else []
  {
    assert [e][1..] == [];
  }

  /** The pool of three one-entry definitions of the same name. */
  lemma ExamplePool(n: string, a: Member, b: Member, c: Member)
    requires n != "constructor" && BuiltinTag !in a.tags && BuiltinTag !in b.tags && BuiltinTag !in c.tags
    ensures Pool([[Entry(n, a)], [Entry(n, b)], [Entry(n, c)]], n) == [a, b, c]
  {
    var cs := [[Entry(n, a)], [Entry(n, b)], [Entry(n, c)]];
    NamedSingle(Entry(n, a), n);
    NamedSingle(Entry(n, b), n);
    NamedSingle(Entry(n, c), n);
    assert cs[1..] == [[Entry(n, b)], [Entry(n, c)]];
    assert cs[1..][1..] == [[Entry(n, c)]];
    assert cs[1..][1..][1..] == [];
    assert Pool(cs[1..][1..][1..], n) == [];
    assert Pool(cs[1..][1..], n) == [c];
    assert Pool(cs[1..], n) == [b, c];
  }

  /** `Others` drops exactly the canonical declaration. */
  lemma OthersExample(a: Member, b: Member, c: Member)
    requires a.id != b.id && c.id != b.id
    ensures Others([a, b, c], b) == [a, c]
  {
    assert [a, b, c][1..] == [b, c];
    assert [b, c][1..] == [c];
    assert [c][1..] == [];
    assert Others([c], b) == [c];
    assert Others([b, c], b) == [c];
  }
}
